=== FILE: README.md ===
# OpenSSL provider method dispatch, modelled in Dafny

This project models the provider method-dispatch layer of an OpenSSL 3.0
development snapshot and proves properties of the model. That layer is the
code through which libcrypto finds algorithm implementations offered by
providers and drives them.

The model covers five pieces:

- **Method identity and generic fetch** (`crypto/evp/evp_fetch.c`):
  - packing an operation id and a name id into a 32-bit method identity;
  - the cache-then-construct protocol of `evp_generic_fetch`;
  - getting methods from the method store and putting them into it;
  - enumeration of all methods with `do_one`.
- **Dispatch-table adapters**: `evp_md_from_dispatch` and
  `evp_keyexch_from_dispatch`. Each scans a 0-terminated array of
  (function id, function) pairs. The first occurrence of an id wins, and
  the adapter accepts or rejects on the set of functions it found. The
  identities come from `include/openssl/core_numbers.h`.
- **The EVP_MD_CTX state machine** (`crypto/evp/digest.c`): reset, free,
  init, update, final, XOF final, copy, the one-shot digest and the
  parameter calls. Both the provider path and the local checks of the
  legacy path are modelled.
- **The key-exchange method lifecycle and the derive context**
  (`crypto/evp/exchange.c`):
  - reference counting of EVP_KEYEXCH;
  - fetching, which pairs an exchange with a key manager of the same
    provider;
  - `EVP_PKEY_derive_init_ex`, `EVP_PKEY_derive_set_peer` and
    `EVP_PKEY_derive`, including their return codes.
- **The provider side** (`providers/default/defltprov.c`,
  `providers/common/exchange/dh_exch.c`):
  - the default provider's algorithm tables, its query function, its
    initialisation handshake and its parameter getter;
  - the DH key-exchange context, with the length negotiation of
    `dh_derive`.

## Modelling conventions

- A C pointer that may be NULL is an `Option`.
- Function pointers are presence bits: a map from function identity to a
  code address `FnRef`.
- Objects are known by an `ObjId`. Their reference counters live in a
  `Ledger`, and `Acquire`/`Release` stand for `up_ref`/`free`.
- Provider-side contexts (`void *provctx`) are tokens from a `Heap`:
  - `Allocate` hands out a token that was not live;
  - `Dispose` frees one;
  - invariants such as `DigestContext.Inv` state that every context a
    structure points to is still live.
- Calls into code outside the model are parameters ("oracles") whose
  values are the outcomes of those calls. This covers provider functions,
  the method store, the name map, `ossl_method_construct`, ENGINE-free
  legacy EVP_MD functions and DH arithmetic.
- `int` is 32-bit and `size_t` is 64-bit (an LP64 platform). `method_id`
  computes in `bv32`, as `uint32_t` does.
- Every fetch member takes a `Guard`. `AsWritten` computes identities with
  `method_id` exactly as the source has it. `Corrected` uses the range
  guard the source's comment describes (see Findings). The contracts hold
  for both guards.
- Some lemmas are facts about constants and tables: they evaluate the
  concrete identities of core_numbers.h or the concrete tables of the
  providers, and hold no general reasoning. They are the CoreNumbers lemmas,
  `DefaultProvider.KeyexchHasKeymgmt`, `DefaultProvider.QueryTablesPerOperation`,
  `DefaultProvider.DefaultDispatchWellFormed`, `DhExchange.DhTableFilled`
  and `DhExchange.DhTableAccepted`.
- A NULL dereference in the source, which crashes the process, becomes a
  precondition of the member that reaches it. Examples:
  `DigestContext.InitCallable`, `DigestContext.FinalCallable` and
  `DeriveContext.InitCallable`.

The comments at crypto/evp/evp_fetch.c:69-72 and 182-183 say an identity
is refused when either bound is exceeded; the guard at evp_fetch.c:82
refuses only when both are. The model keeps both versions (see Findings).

## Model

| member | source | states |
|---|---|---|
| Common.Locate | providers/default/defltprov.c:39-45 | `OSSL_PARAM_locate` as the default provider's parameter getter (and `dh_set_params`, dh_exch.c:134) calls it: the index of the first element with the key, or none when no element has it |
| CoreNumbers.DigestFunctionsNumberedFromOne | include/openssl/core_numbers.h:139-149 | digest function identities NEWCTX..GET_PARAMS are exactly 1..11 |
| CoreNumbers.CipherFunctionsNumberedFromOne | include/openssl/core_numbers.h:176-186 | cipher function identities are exactly 1..11 |
| CoreNumbers.KeyexchFunctionsNumberedFromOne | include/openssl/core_numbers.h:293-299 | key-exchange function identities are exactly 1..7 |
| CoreNumbers.NumberedSeriesDistinct | include/openssl/core_numbers.h:56-58 | a series numbered from one never uses the 0 terminator and never repeats an identity |
| CoreNumbers.ReservedRanges | include/openssl/core_numbers.h:59-133 | core-supplied identities lie in 1..1023 and are distinct; provider-supplied ones lie in 1024..1535 |
| CoreNumbers.OperationsFitMethodIdentity | include/openssl/core_numbers.h:137-291 | DIGEST, CIPHER, KEYMGMT and KEYEXCH are distinct and in 1..255, so they fit the 8-bit field of a method identity |
| Dispatch.Live | crypto/evp/digest.c:594 | the adapter reads the longest prefix with no 0 identity, and the element after that prefix is the terminator |
| Dispatch.ScanFirstWins | crypto/evp/exchange.c:48-90 | a slot is filled iff some element supplies a non-NULL function for a recognised id, and it holds the first such function; later duplicates never overwrite |
| Dispatch.ScanCountsDistinct | crypto/evp/digest.c:594-652 | for tables without NULL functions, the counter is the number of distinct counted identities before the terminator, and the filled slots are exactly the recognised identities there |
| Dispatch.CountMeansPresence | crypto/evp/exchange.c:92-97 | for tables without NULL functions, the counter never exceeds the size of the counted set, equals it iff every counted identity occurs, and is 0 iff none occurs |
| Dispatch.LiveStopsAtTerminator | crypto/evp/digest.c:594 | elements after the first terminator are never read |
| MethodIdentity.PackSeparatesFields | crypto/evp/evp_fetch.c:70-85 | for in-range components, the packed value is non-zero, its high 24 bits are the name id and its low 8 bits are the operation id |
| MethodIdentity.MethodIdAsWritten | crypto/evp/evp_fetch.c:80-86 | as written: 0 iff either component is 0 or both are out of range; a non-zero result carries the operation id's low byte |
| MethodIdentity.MethodId | crypto/evp/evp_fetch.c:80-86 | with the range guard corrected: non-zero iff both components are non-zero and in range |
| MethodIdentity.UnpackMethodId | crypto/evp/evp_fetch.c:70-85 | unpacking a valid identity gives back the operation id and the name id |
| MethodIdentity.MethodIdInjective | crypto/evp/evp_fetch.c:70-85 | two inputs with the same valid identity are equal |
| MethodIdentity.ZeroComponentRejected | crypto/evp/evp_fetch.c:83-84 | a 0 name id or a 0 operation id gives identity 0, as written and corrected |
| MethodIdentity.AsWrittenAgreesInRange | crypto/evp/evp_fetch.c:82 | on in-range inputs the code as written and the corrected guard agree |
| MethodIdentity.AsWrittenCollides | crypto/evp/evp_fetch.c:82-85 | as written, name id 2^24+1 with operation 1 gets the same non-zero identity as name id 1 |
| MethodIdentity.AsWrittenMasksOperation | crypto/evp/evp_fetch.c:82-85 | as written, an out-of-range operation id is silently truncated to its low byte |
| GenericFetch.EvpGenericFetch | crypto/evp/evp_fetch.c:157-228 | under either guard: NULL for operation id <= 0 or a missing store or name map; NULL without construction for a known name whose identity is 0; a cache hit returns the cached method after exactly one up_ref and changes nothing else; otherwise construction runs and a result is cached under (the guard's method_id of op and the name id, properties), and only when that identity is non-zero |
| GenericFetch.SecondFetchServedFromCache | crypto/evp/evp_fetch.c:190-225 | under either guard, for any name whose identity the guard accepts (the colliding ones of the code as written included): after a fetch that constructed a method, the same fetch again is a cache hit returning the same method with one more reference |
| GenericFetch.CorrectedHitIsExact | crypto/evp/evp_fetch.c:185-188 | with the corrected guard, a cache hit was stored under the identity of the same operation and the same name |
| GenericFetch.AsWrittenFetchServesWrongMethod | crypto/evp/evp_fetch.c:82-85 | as written, a method cached for operation 1 and name id 1 is served from the cache to a fetch of operation 257 and to a fetch of name id 2^24+1; the corrected guard returns NULL for both without constructing |
| GenericFetch.GetMethodFromStore | crypto/evp/evp_fetch.c:88-114 | under either guard: NULL when the store or name map is missing or the name is unknown, and NULL when the found method's up_ref fails; a method the store finds under a usable identity is returned exactly when its up_ref succeeds, and a returned method was found under the guard's identity and holds one more reference |
| GenericFetch.PutMethodInStore | crypto/evp/evp_fetch.c:116-140 | under either guard: fails without a name map; registers an unknown name under the new id even when a later step fails; succeeds iff every step does, and then the method is stored under the guard's identity and holds one more reference |
| GenericFetch.PutThenGet | crypto/evp/evp_fetch.c:88-140 | a method put in the store is what the get callback returns for the same operation, name and property string, with one more reference |
| GenericFetch.SetDefaultProperties | crypto/evp/evp_fetch.c:230-238 | 0 and nothing changed without a store; with one, the query cache is emptied, and the call succeeds iff the query is NULL or parses, which makes it the new default |
| GenericFetch.NewDefaultsReachConstruction | crypto/evp/evp_fetch.c:185-217 | after the defaults are set, a fetch whose early checks pass is never answered from the cache and reaches the constructor |
| GenericFetch.DoAllVisitsEachOnce | crypto/evp/evp_fetch.c:248-276 | the enumeration visits each successfully constructed method exactly once, in order, and frees it right after; failed constructions leave no trace |
| DigestMethod.MdFromDispatch | crypto/evp/digest.c:580-670 | a method is built iff allocation succeeds and the scan counted 5 streaming functions, or 0 with a standalone digest, and found size; it holds the scanned functions, records its provider and takes one reference on it; a rejection takes none |
| DigestMethod.MdFromDispatchAcceptsConsistentSets | crypto/evp/digest.c:653-664 | for tables without NULL functions: accepted iff size is supplied and either all of newctx, init, update, final and freectx are, or none of them are and digest is |
| DigestMethod.MdFromDispatchFirstWins | crypto/evp/digest.c:594-652 | every function the method holds comes from the first table element supplying that identity |
| DigestContext.ResetCtx | crypto/evp/digest.c:27-71 | no provider context remains; on the provider path it is freed through freectx and CLEANED is set; the digest bindings survive unless an EVP_PKEY_CTX is attached; the legacy path wipes the context |
| DigestContext.Reset | crypto/evp/digest.c:22-72 | always returns 1; a NULL context is a no-op |
| DigestContext.ResetIdempotent | crypto/evp/digest.c:22-72 | resetting a reset context changes nothing |
| DigestContext.ResetKeepsInv | crypto/evp/digest.c:27-71 | reset keeps every provider context the context points to live |
| DigestContext.Free | crypto/evp/digest.c:79-101 | NULL is a no-op; a provider context without an EVP_PKEY_CTX gives back its fetched digest's reference; otherwise no digest reference moves |
| DigestContext.BindProvided | crypto/evp/digest.c:189-194 | binding a different digest frees the existing provider context; binding the same digest keeps it |
| DigestContext.StartProvided | crypto/evp/digest.c:195-208 | a provider context is created only when none exists, as a fresh one; init fails without dinit; a failed newctx fails init and allocates nothing |
| DigestContext.InitEx | crypto/evp/digest.c:109-281 | CLEANED is cleared and the requested digest recorded; the legacy path drops the fetched digest; a non-provider type with nothing fetched fails; on the provider path the provider-context rule holds; the invariant is kept |
| DigestContext.InitProviderContextRule | crypto/evp/digest.c:189-208 | provider init keeps the provider context for the same digest, and otherwise frees the old one and creates a fresh one (or fails with none) |
| DigestContext.StreamingTableReachesProvider | crypto/evp/digest.c:283-337 | for a method built from a table without NULL functions: with all five streaming functions counted, update and final always give the provider's answer; with none counted, update of data and final fail with 0 and leave the context alone |
| DigestContext.InitUpdateFinal | crypto/evp/digest.c:164-337 | after a successful provider init with a streaming digest, update gives the provider's answer, and final gives the provider's answer, frees the provider context init left and keeps the digest bound |
| DigestContext.InitFetchThenFreeBalanced | crypto/evp/digest.c:79-101 | init with an implicit fetch takes one reference on the fetched digest, and free gives it back and frees the provider context init made |
| DigestContext.FinalEx | crypto/evp/digest.c:312-352 | a provider digest without final fails and leaves the context alone; otherwise the context is always reset afterwards, and a reported size above UINT_MAX turns the result into failure |
| DigestContext.FinalXof | crypto/evp/digest.c:354-391 | the provider path passes the length through set_params and calls final only if that succeeds, then resets; the legacy path needs an XOF digest, a length within INT_MAX and an accepting ctrl |
| DigestContext.ParamsFollowTable | crypto/evp/digest.c:527-539 | for a method built from a table without NULL functions, set_params and get_params give the provider's answer iff the table supplied that function, and 0 otherwise |
| DigestContext.XofOutputNeedsSetParams | crypto/evp/digest.c:354-370 | a non-zero XOF final on the provider path means the digest has final and set_params and the provider accepted the length through set_params |
| DigestContext.CopyEx | crypto/evp/digest.c:399-507 | fails for a NULL or unbound source and for a provider digest without dupctx; a provider copy takes one reference on the source's fetched digest; a failing dupctx leaves the copy without a provider context |
| DigestContext.CopyGivesOwnProviderContext | crypto/evp/digest.c:419-431 | a successful provider copy holds a freshly allocated provider context of its own, and the source's provider context stays live |
| DigestContext.DigestOneShot | crypto/evp/digest.c:509-525 | returns 0 or 1; a failed context allocation returns 0 and changes nothing; otherwise 1 exactly when init, update and final all succeed |
| DigestContext.OneShotBalanced | crypto/evp/digest.c:509-525 | a one-shot digest with a provider digest leaves the live provider contexts, the digest references and the EVP_PKEY_CTXs as they were |
| KeyExchange.KeyexchNew | crypto/evp/exchange.c:18-32 | a new method has one reference and holds one reference on its provider |
| KeyExchange.KeyexchFree | crypto/evp/exchange.c:107-121 | NULL is a no-op; otherwise one reference is dropped, and only the last one releases the key manager and provider and frees the object |
| KeyExchange.KeyexchUpRef | crypto/evp/exchange.c:123-129 | always returns 1 and adds exactly one reference |
| KeyExchange.RefcountLifecycle | crypto/evp/exchange.c:107-129 | after j up_refs, j frees leave the method alive with one reference, and the next free releases its provider and frees it |
| KeyExchange.KeyexchFromDispatch | crypto/evp/exchange.c:34-105 | accepted iff the allocations succeed and the scan counted 4; an accepted method holds the scanned functions, one reference and a provider reference; a rejection gives every reference back |
| KeyExchange.KeyexchFromDispatchNeedsMandatory | crypto/evp/exchange.c:92-102 | for tables without NULL functions: accepted iff newctx, init, derive and freectx are all supplied; set_peer, dupctx and set_params are optional |
| KeyExchange.KeyexchFetch | crypto/evp/exchange.c:136-165 | a method with a key manager is returned as is; otherwise it succeeds iff a key manager of the same provider was fetched, and on failure both are released |
| KeyExchange.FetchPairsSameProvider | crypto/evp/exchange.c:150-163 | after a successful fetch the method's key manager comes from the method's own provider |
| DeriveContext.Route | crypto/evp/exchange.c:174-203 | an ENGINE or a non-DH key without an explicit exchange takes the legacy path; an explicit exchange is used as given; otherwise the fetched DH exchange, or failure when none was found |
| DeriveContext.InitLegacy | crypto/evp/exchange.c:229-241 | -2 without a legacy derive, leaving the context alone; with one, 1 when there is no derive_init, otherwise derive_init's answer; the operation is reset to UNDEFINED exactly when derive_init answers 0 or less, -2 included |
| DeriveContext.DropExchange | crypto/evp/exchange.c:205-207 | the old provider context is freed and the reference on the old exchange released |
| DeriveContext.Start | crypto/evp/exchange.c:208-227 | the new exchange is bound; a failed export allocates nothing; a failed newctx leaves no provider context; otherwise a fresh provider context is created and the provider's init decides between 1 and 0; the operation is UNDEFINED exactly at the error exits and stays DERIVE once init is called |
| DeriveContext.DeriveInitAsWritten | crypto/evp/exchange.c:167-242 | as written: every failure other than -2 resets the operation to UNDEFINED, except a refusal by the provider's init, which returns 0 with the operation DERIVE and the provider context bound |
| DeriveContext.AsWrittenLeavesDanglingContext | crypto/evp/exchange.c:205-214 | as written, re-initialising with an exchange whose key export fails leaves the context pointing at a freed provider context |
| DeriveContext.DeriveInit | crypto/evp/exchange.c:167-242 | corrected at the stale pointer only: DERIVE on success, UNDEFINED after any error exit, DERIVE with a fresh live provider context after a refusal by the provider's init, every provider context pointed to stays live, an explicit exchange ends up bound, and no usable legacy method gives -2 |
| DeriveContext.DeriveInitMovesReference | crypto/evp/exchange.c:184-207 | on the provider path, whether the exchange was passed in (and up_ref'd) or fetched (with the fetch's reference), the context's reference moves from the previous exchange to the new one; rebinding the same exchange keeps its count |
| DeriveContext.SetPeerLegacy | crypto/evp/exchange.c:282-342 | -2 without a usable legacy method; -1 when not initialised for derive, encrypt or decrypt; a stored peer holds a reference and the old peer's is released |
| DeriveContext.SetPeer | crypto/evp/exchange.c:249-343 | NULL context gives -2; on the provider path: not in DERIVE gives -1, no set_peer gives -2, a failed key export gives 0, otherwise the provider's answer |
| DeriveContext.Derive | crypto/evp/exchange.c:345-375 | -2 for a NULL context, -1 when not in DERIVE; a provider context goes to the provider with output limit SIZE_MAX; the legacy path needs a legacy derive, else -2 |
| DeriveContext.FailedInitBlocksDerive | crypto/evp/exchange.c:196-227 | after a provider init that failed at one of its own error exits, derive returns -1, and so does set_peer when a provider context remains |
| DeriveContext.RefusedInitStillReachesProvider | crypto/evp/exchange.c:222-224 | after the provider's init refused (0), derive and set_peer still go to the provider with the provider context init made |
| DeriveContext.InitThenDeriveReachesProvider | crypto/evp/exchange.c:167-375 | after a successful provider init, set_peer goes to the provider without changing the context, and derive hands the freshly allocated provider context to the provider |
| DeriveContext.LegacyPeerReplaced | crypto/evp/exchange.c:331-342 | two successful legacy set_peers with different keys leave one reference, on the second key, and the first key's count as it was |
| DefaultProvider.Query | providers/default/defltprov.c:131-147 | `*no_cache` is always 0; a table is returned iff the operation is DIGEST, CIPHER, KEYMGMT or KEYEXCH, and every returned table is terminated and marks each algorithm "default=yes" |
| DefaultProvider.QueryTablesPerOperation | providers/default/defltprov.c:136-146 | each of the four operations gets its own table |
| DefaultProvider.KeyexchHasKeymgmt | providers/default/defltprov.c:117-129 | every key exchange offered has a key manager of the same name in the same provider |
| DefaultProvider.DefaultDispatchWellFormed | providers/default/defltprov.c:150-155 | the provider's dispatch table is 0-terminated and supplies get_param_types, get_params and query_operation, all non-NULL and in the provider range |
| DefaultProvider.ReadCoreLastWins | providers/default/defltprov.c:166-181 | each recognised core function takes the value of the last element carrying its identity, NULL included; absent ones keep their previous value |
| DefaultProvider.ProviderInit | providers/default/defltprov.c:159-195 | succeeds iff the last get_library_context element carries a function; then `*out` is the provider's table and `*provctx` the library context; failure writes neither; the file-level hooks are updated either way |
| DefaultProvider.ProviderInitIgnoresUnknown | providers/default/defltprov.c:177-179 | inserting an element with an unrecognised identity before the terminator does not change the outcome |
| DefaultProvider.GetParams | providers/default/defltprov.c:35-50 | returns 1 iff each of name, version and build info is absent or settable; on success each located one holds its string; it stops at the first failure; only those three keys are written |
| DefaultProvider.GetParamsIdempotent | providers/default/defltprov.c:35-50 | calling it again on its own output gives the same return value |
| DhExchange.DhNewCtx | providers/common/exchange/dh_exch.c:36-39 | a successful allocation is a fresh, zeroed context |
| DhExchange.DhInit | providers/common/exchange/dh_exch.c:41-50 | the previous key is released and the new one referenced; the result is 1 iff a key is now set |
| DhExchange.DhSetPeer | providers/common/exchange/dh_exch.c:52-61 | the same for the peer key |
| DhExchange.RebindMovesReference | providers/common/exchange/dh_exch.c:45-47 | replacing one key by another moves one reference from the old key to the new one and touches no other key |
| DhExchange.DhDerive | providers/common/exchange/dh_exch.c:63-91 | fails without both keys; a NULL key buffer reports DH_size and returns 1; a buffer smaller than DH_size fails; otherwise the padded or plain computation, chosen by pad, gives the length |
| DhExchange.QueriedLengthSuffices | providers/common/exchange/dh_exch.c:75-90 | a buffer of the queried length is never too small: the derivation then fails only when the computation does |
| DhExchange.EvpDeriveNeverTooSmall | providers/common/exchange/dh_exch.c:80-81 | called through EVP_PKEY_derive (limit SIZE_MAX), the too-small branch is never taken |
| DhExchange.DhFreeCtx | providers/common/exchange/dh_exch.c:93-101 | both keys are released and the context freed |
| DhExchange.DhDupCtx | providers/common/exchange/dh_exch.c:103-123 | succeeds iff every present key's up_ref succeeds; the copy equals the original and references each key; after a failure the reference counts are as before and nothing stays allocated |
| DhExchange.DupThenFreeBalanced | providers/common/exchange/dh_exch.c:103-123 | freeing a duplicate gives back exactly the references the duplication took |
| DhExchange.DhSetParams | providers/common/exchange/dh_exch.c:125-141 | fails for a NULL context or parameter array and for a missing or undecodable pad; otherwise pad takes the parameter's value |
| DhExchange.SetParamsSelectsComputation | providers/common/exchange/dh_exch.c:84-85 | after setting pad, a non-zero value makes derive use the padded computation and 0 the plain one |
| DhExchange.DhTableFilled | providers/common/exchange/dh_exch.c:143-152 | scanning the DH table fills all seven slots with the table's own functions and counts the four mandatory ones |
| DhExchange.DhTableAccepted | providers/common/exchange/dh_exch.c:143-152 | the DH table passes the key-exchange adapter's count-of-4 check and the method holds all seven functions |

## Left out

- ENGINE support. The contexts' `engine` pointers are assumed NULL in the
  digest code. In the derive code only the routing decision they cause is
  kept (`PkeyCtx.engine`).
- Locks and atomic reference counting. Counters are sequential integers.
- The method store, name map, property matcher, `ossl_method_construct`
  and `ossl_algorithm_do_all`. Their code is not part of this model, so
  their outcomes are parameters.
- The internals of `construct_method` and `destruct_method`
  (evp_fetch.c:142-155). They only forward to the method's own
  constructor and destructor.
- `EVP_MD_CTX_ctrl` and `EVP_PKEY_CTX_ctrl`. Their outcomes are
  parameters.
- Hash, cipher and DH arithmetic, and OPENSSL_cleanse. The outputs are
  abstract.
- The OSSL_PARAM encoding. A parameter is its key, its decoded integer,
  whether it accepts a UTF-8 pointer, and its text.
- The key manager `providers/common/keymgmt/dh_kmgmt.c`, beyond its table
  entry.
- `apps/list.c`. It is command-line output.
- FIPS and `OPENSSL_NO_*` variants. One configuration is fixed: non-FIPS
  with every algorithm enabled.
- `OSSL_OP__HIGHEST` (core_numbers.h:312). It is 3, smaller than KEYMGMT
  and KEYEXCH, so nothing uses it as a bound.
- Freed memory. It is not tracked beyond the `Heap` of provider contexts
  and the reference ledgers.
- Crashes. The source crashes in these places, and the model makes each
  a precondition:
  - `EVP_KEYEXCH_fetch` dereferences the generic fetch's result unchecked
    (exchange.c:150);
  - `evp_keyexch_new` and `dh_dupctx` use `OPENSSL_zalloc` results
    unchecked (exchange.c:20-22, dh_exch.c:108-110);
  - the provider path of `EVP_DigestInit_ex` needs a digest
    (digest.c:171) and newctx (digest.c:196).
- A provider digest without streaming functions. `evp_md_from_dispatch`
  accepts one that supplies only `digest` and `size`. Its init would then
  call a NULL newctx, which the preconditions above exclude.
- The version strings `OPENSSL_VERSION_STR` and
  `OPENSSL_FULL_VERSION_STR`. They come from a header that is not part of
  this model, so they are parameters of `DefaultProvider.GetParams`.
- DhExchange.DhInit: `DH_up_ref` and `DH_free` on NULL are both treated
  as taking no reference. crypto/dh is not part of this model. The
  source's own check of the new key against NULL suggests that NULL is
  expected there.
- GenericFetch.EvpGenericFetch: `ossl_method_store_cache_set` is not
  part of this model. After construction the source hands it whatever
  identity `method_id` gives, 0 included; the model records nothing under
  the reserved identity 0, which no lookup can reach because evp_fetch.c:186-188
  returns NULL before consulting the cache for it.
- GenericFetch.SetDefaultProperties: `ossl_method_store_set_global_properties`
  is not part of this model. Its behaviour is taken from the store's
  documented contract: it empties the query cache and records a query
  that parses (`parseOk`). Whether the cache held method references is
  not modelled, so emptying it moves no reference.
- KeyExchange.KeyexchFetch: the source sets `keymgmt` on the method
  object the fetch shares with the cache and every other holder. The model
  updates a value, so other holders of the same method do not see the new
  key manager.

## Findings

| source | as written | input that shows it | evidently intended | confidence | as-written member | corrected member |
|---|---|---|---|---|---|---|
| crypto/evp/evp_fetch.c:82 | the range guard joins the two in-range tests with a logical or, so it rejects only when both components are out of range; an over-long name id is shifted out of the 32-bit key | name id 2^24+1 with operation 1 packs to the same identity as name id 1; with that entry cached, a fetch of operation 257 or of name id 2^24+1 is served the method cached for operation 1 and name id 1 (AsWrittenFetchServesWrongMethod) | reject when either component is out of range (a logical and of the in-range tests) | not executed | MethodIdentity.MethodIdAsWritten | MethodIdentity.MethodId |
| crypto/evp/exchange.c:205-214 | the old exchange's provider context is freed, but `ctx->exchprovctx` is reset only after the key export succeeds | a context already initialised with a provider exchange and a DH key, initialised again with an explicit exchange whose key export fails | clear the pointer when the old context is freed, so a failed re-init leaves no dangling provider context | not executed | DeriveContext.DeriveInitAsWritten | DeriveContext.DeriveInit |

=== FILE: common.dfy ===
/**
  Shared vocabulary of the model: optional values standing for C pointers
  that may be NULL, the C integer limits the source relies on (an LP64
  platform: 32-bit `int`/`unsigned int`, 64-bit `size_t`), reference
  ledgers standing for the reference counters of shared objects, and the
  OSSL_PARAM arrays providers read and write.
 */
module Common {

  /** A pointer that may be NULL. */
  datatype Option<+T> = None | Some(value: T)

  const INT_MAX: int := 0x7FFF_FFFF
  const INT_MIN: int := -0x8000_0000
  const UINT_MAX: int := 0xFFFF_FFFF
  const SIZE_MAX: int := 0xFFFF_FFFF_FFFF_FFFF

  /** A C `int`. */
  type Int32 = x: int | INT_MIN <= x <= INT_MAX

  /** A C `size_t`. */
  type SizeT = x: int | 0 <= x <= SIZE_MAX

  /** The identity (address) of a heap object: equal ids mean the same object. */
  type ObjId = nat

  /** An opaque provider-side context (`void *provctx`) handed out by a provider. */
  type Token = nat

  /**
    Reference counters of shared objects, keyed by object identity. An
    object that does not appear holds no reference.
   */
  type Ledger = map<ObjId, int>

  function Held(l: Ledger, id: ObjId): int
  {
    if id in l then l[id] else 0
  }

  /** One more reference on `id` (an `up_ref`); nothing else changes. */
  function Acquire(l: Ledger, id: ObjId): (r: Ledger)
    ensures Held(r, id) == Held(l, id) + 1
    ensures forall o :: o != id ==> Held(r, o) == Held(l, o)
  {
    l[id := Held(l, id) + 1]
  }

  /** One reference fewer on `id` (a `free` that is not yet the last); nothing else changes. */
  function Release(l: Ledger, id: ObjId): (r: Ledger)
    ensures Held(r, id) == Held(l, id) - 1
    ensures forall o :: o != id ==> Held(r, o) == Held(l, o)
  {
    l[id := Held(l, id) - 1]
  }

  /** `up_ref` of a pointer that may be NULL: NULL takes no reference. */
  function AcquireOpt(l: Ledger, p: Option<ObjId>): (r: Ledger)
    ensures p.None? ==> r == l
    ensures p.Some? ==> r == Acquire(l, p.value)
  {
    if p.Some? then Acquire(l, p.value) else l
  }

  /** `free` of a pointer that may be NULL: freeing NULL is a no-op. */
  function ReleaseOpt(l: Ledger, p: Option<ObjId>): (r: Ledger)
    ensures p.None? ==> r == l
    ensures p.Some? ==> r == Release(l, p.value)
  {
    if p.Some? then Release(l, p.value) else l
  }

  /** Two ledgers that agree on every object. */
  ghost predicate SameCounts(a: Ledger, b: Ledger)
  {
    forall o :: Held(a, o) == Held(b, o)
  }

  /**
    Provider contexts that are currently allocated, and the next fresh one.
    Every allocated token is below `next`, so `next` is never live.
   */
  datatype Heap = Heap(live: set<Token>, next: Token)

  ghost predicate HeapInv(h: Heap)
  {
    forall t :: t in h.live ==> t < h.next
  }

  /** A provider allocates a new context: a token that was not live before. */
  function Allocate(h: Heap): (r: (Token, Heap))
    requires HeapInv(h)
    ensures r.0 !in h.live && r.1.live == h.live + {r.0}
    ensures HeapInv(r.1)
  {
    (h.next, Heap(h.live + {h.next}, h.next + 1))
  }

  /** A provider frees a context. */
  function Dispose(h: Heap, t: Token): (r: Heap)
    ensures r.live == h.live - {t} && r.next == h.next
    ensures HeapInv(h) ==> HeapInv(r)
  {
    h.(live := h.live - {t})
  }

  /** The names of the OSSL_PARAM keys the modelled code looks up. */
  datatype ParamKey = ProvName | ProvVersion | ProvBuildinfo | ExchangePad | OtherKey(name: string)

  /**
    One OSSL_PARAM element as far as the modelled code observes it: its
    key, the integer it decodes to when `OSSL_PARAM_get_int` succeeds on it,
    whether `OSSL_PARAM_set_utf8_ptr` succeeds on it, and the string last
    written to it.
   */
  datatype Param = Param(key: ParamKey, intValue: Option<int>, acceptsUtf8Ptr: bool, text: Option<string>)

  /** `OSSL_PARAM_locate`: the index of the first element with the key, if any. */
  function Locate(params: seq<Param>, key: ParamKey): (r: Option<nat>)
    ensures r.Some? ==> r.value < |params| && params[r.value].key == key
    ensures r.Some? ==> forall j :: 0 <= j < r.value ==> params[j].key != key
    ensures r.None? ==> forall j :: 0 <= j < |params| ==> params[j].key != key
  {
    if |params| == 0 then None
    else if params[0].key == key then Some(0)
    else match Locate(params[1..], key)
      case None => None
      case Some(i) => Some(i + 1)
  }
}

=== FILE: core_numbers.dfy ===
/**
  Operation and function identities shared by the core and its providers
  (include/openssl/core_numbers.h). Every series starts at 1 so that 0 can
  terminate an OSSL_DISPATCH array.
 */
module CoreNumbers {

  /** The array terminator: never a function identity. */
  const DISPATCH_END: int := 0

  // Functions provided by the core to a provider (reserved 1..1023).
  const FUNC_CORE_GET_PARAM_TYPES: int := 1
  const FUNC_CORE_GET_PARAMS: int := 2
  const FUNC_CORE_THREAD_START: int := 3
  const FUNC_CORE_PUT_ERROR: int := 4
  const FUNC_CORE_ADD_ERROR_VDATA: int := 5
  const FUNC_CORE_GET_LIBRARY_CONTEXT: int := 6
  const FUNC_CRYPTO_MALLOC: int := 10
  const FUNC_CRYPTO_ZALLOC: int := 11
  const FUNC_CRYPTO_FREE: int := 12
  const FUNC_CRYPTO_CLEAR_FREE: int := 13
  const FUNC_CRYPTO_REALLOC: int := 14
  const FUNC_CRYPTO_CLEAR_REALLOC: int := 15
  const FUNC_CRYPTO_SECURE_MALLOC: int := 16
  const FUNC_CRYPTO_SECURE_ZALLOC: int := 17
  const FUNC_CRYPTO_SECURE_FREE: int := 18
  const FUNC_CRYPTO_SECURE_CLEAR_FREE: int := 19
  const FUNC_CRYPTO_SECURE_ALLOCATED: int := 20
  const FUNC_OPENSSL_CLEANSE: int := 21

  // Functions provided by a provider to the core (reserved 1024..1535).
  const FUNC_PROVIDER_TEARDOWN: int := 1024
  const FUNC_PROVIDER_GET_PARAM_TYPES: int := 1025
  const FUNC_PROVIDER_GET_PARAMS: int := 1026
  const FUNC_PROVIDER_QUERY_OPERATION: int := 1027
  const FUNC_PROVIDER_GET_REASON_STRINGS: int := 1028

  // Operations.
  const OP_DIGEST: int := 1
  const OP_CIPHER: int := 2
  const OP_KEYMGMT: int := 10
  const OP_KEYEXCH: int := 11

  // Digest functions.
  const FUNC_DIGEST_NEWCTX: int := 1
  const FUNC_DIGEST_INIT: int := 2
  const FUNC_DIGEST_UPDATE: int := 3
  const FUNC_DIGEST_FINAL: int := 4
  const FUNC_DIGEST_DIGEST: int := 5
  const FUNC_DIGEST_FREECTX: int := 6
  const FUNC_DIGEST_DUPCTX: int := 7
  const FUNC_DIGEST_SIZE: int := 8
  const FUNC_DIGEST_BLOCK_SIZE: int := 9
  const FUNC_DIGEST_SET_PARAMS: int := 10
  const FUNC_DIGEST_GET_PARAMS: int := 11

  // Symmetric cipher functions.
  const FUNC_CIPHER_NEWCTX: int := 1
  const FUNC_CIPHER_ENCRYPT_INIT: int := 2
  const FUNC_CIPHER_DECRYPT_INIT: int := 3
  const FUNC_CIPHER_UPDATE: int := 4
  const FUNC_CIPHER_FINAL: int := 5
  const FUNC_CIPHER_CIPHER: int := 6
  const FUNC_CIPHER_FREECTX: int := 7
  const FUNC_CIPHER_DUPCTX: int := 8
  const FUNC_CIPHER_GET_PARAMS: int := 9
  const FUNC_CIPHER_CTX_GET_PARAMS: int := 10
  const FUNC_CIPHER_CTX_SET_PARAMS: int := 11

  // Key-exchange functions.
  const FUNC_KEYEXCH_NEWCTX: int := 1
  const FUNC_KEYEXCH_INIT: int := 2
  const FUNC_KEYEXCH_DERIVE: int := 3
  const FUNC_KEYEXCH_SET_PEER: int := 4
  const FUNC_KEYEXCH_FREECTX: int := 5
  const FUNC_KEYEXCH_DUPCTX: int := 6
  const FUNC_KEYEXCH_SET_PARAMS: int := 7

  /** The digest function identities in declaration order. */
  const DigestFunctions: seq<int> := [
    FUNC_DIGEST_NEWCTX, FUNC_DIGEST_INIT, FUNC_DIGEST_UPDATE, FUNC_DIGEST_FINAL,
    FUNC_DIGEST_DIGEST, FUNC_DIGEST_FREECTX, FUNC_DIGEST_DUPCTX, FUNC_DIGEST_SIZE,
    FUNC_DIGEST_BLOCK_SIZE, FUNC_DIGEST_SET_PARAMS, FUNC_DIGEST_GET_PARAMS]

  /** The cipher function identities in declaration order. */
  const CipherFunctions: seq<int> := [
    FUNC_CIPHER_NEWCTX, FUNC_CIPHER_ENCRYPT_INIT, FUNC_CIPHER_DECRYPT_INIT,
    FUNC_CIPHER_UPDATE, FUNC_CIPHER_FINAL, FUNC_CIPHER_CIPHER, FUNC_CIPHER_FREECTX,
    FUNC_CIPHER_DUPCTX, FUNC_CIPHER_GET_PARAMS, FUNC_CIPHER_CTX_GET_PARAMS,
    FUNC_CIPHER_CTX_SET_PARAMS]

  /** The key-exchange function identities in declaration order. */
  const KeyexchFunctions: seq<int> := [
    FUNC_KEYEXCH_NEWCTX, FUNC_KEYEXCH_INIT, FUNC_KEYEXCH_DERIVE, FUNC_KEYEXCH_SET_PEER,
    FUNC_KEYEXCH_FREECTX, FUNC_KEYEXCH_DUPCTX, FUNC_KEYEXCH_SET_PARAMS]

  /** The functions the core hands to a provider at initialisation. */
  const CoreFunctions: seq<int> := [
    FUNC_CORE_GET_PARAM_TYPES, FUNC_CORE_GET_PARAMS, FUNC_CORE_THREAD_START,
    FUNC_CORE_PUT_ERROR, FUNC_CORE_ADD_ERROR_VDATA, FUNC_CORE_GET_LIBRARY_CONTEXT,
    FUNC_CRYPTO_MALLOC, FUNC_CRYPTO_ZALLOC, FUNC_CRYPTO_FREE, FUNC_CRYPTO_CLEAR_FREE,
    FUNC_CRYPTO_REALLOC, FUNC_CRYPTO_CLEAR_REALLOC, FUNC_CRYPTO_SECURE_MALLOC,
    FUNC_CRYPTO_SECURE_ZALLOC, FUNC_CRYPTO_SECURE_FREE, FUNC_CRYPTO_SECURE_CLEAR_FREE,
    FUNC_CRYPTO_SECURE_ALLOCATED, FUNC_OPENSSL_CLEANSE]

  /** The functions a provider hands back to the core. */
  const ProviderFunctions: seq<int> := [
    FUNC_PROVIDER_TEARDOWN, FUNC_PROVIDER_GET_PARAM_TYPES, FUNC_PROVIDER_GET_PARAMS,
    FUNC_PROVIDER_QUERY_OPERATION, FUNC_PROVIDER_GET_REASON_STRINGS]

  const Operations: seq<int> := [OP_DIGEST, OP_CIPHER, OP_KEYMGMT, OP_KEYEXCH]

  /** The series `s` is exactly 1, 2, ..., |s|: distinct and never the terminator. */
  ghost predicate NumberedFromOne(s: seq<int>)
  {
    forall i :: 0 <= i < |s| ==> s[i] == i + 1
  }

  lemma DigestFunctionsNumberedFromOne()
    ensures |DigestFunctions| == 11 && NumberedFromOne(DigestFunctions)
  {
  }

  lemma CipherFunctionsNumberedFromOne()
    ensures |CipherFunctions| == 11 && NumberedFromOne(CipherFunctions)
  {
  }

  lemma KeyexchFunctionsNumberedFromOne()
    ensures |KeyexchFunctions| == 7 && NumberedFromOne(KeyexchFunctions)
  {
  }

  /** A series numbered from one never uses the terminator and never repeats. */
  lemma NumberedSeriesDistinct(s: seq<int>)
    requires NumberedFromOne(s)
    ensures forall i :: 0 <= i < |s| ==> s[i] != DISPATCH_END
    ensures forall i, j :: 0 <= i < j < |s| ==> s[i] != s[j]
  {
  }

  /** Core-supplied and provider-supplied identities stay in their reserved ranges. */
  lemma ReservedRanges()
    ensures forall i :: 0 <= i < |CoreFunctions| ==> 1 <= CoreFunctions[i] <= 1023
    ensures forall i :: 0 <= i < |ProviderFunctions| ==> 1024 <= ProviderFunctions[i] <= 1535
    ensures forall i, j :: 0 <= i < j < |CoreFunctions| ==> CoreFunctions[i] != CoreFunctions[j]
  {
  }

  /** Every operation identity fits the 8-bit operation field of a method identity. */
  lemma OperationsFitMethodIdentity()
    ensures forall i :: 0 <= i < |Operations| ==> 0 < Operations[i] < 256
    ensures forall i, j :: 0 <= i < j < |Operations| ==> Operations[i] != Operations[j]
  {
  }
}

=== FILE: default_provider.dfy ===
/**
  The default provider as the core sees it (providers/default/defltprov.c):
  its algorithm tables, the query that hands them out per operation, the
  initialisation handshake that reads the core's dispatch table, and the
  parameter getter that reports the provider's name and version.

  The version strings come from a header that is not part of this model,
  so they are parameters. The build configuration is fixed to non-FIPS
  with every algorithm enabled.
 */
module DefaultProvider {
  import opened Common
  import CoreNumbers
  import opened Dispatch

  /**
    One OSSL_ALGORITHM element: the algorithm name, its property
    definition and the symbol of the dispatch table implementing it. A
    table element that is `None` is the `{ NULL, NULL, NULL }` terminator.
   */
  datatype Algorithm = Algorithm(name: string, propertyDefinition: string, implementation: string)

  type AlgorithmTable = seq<Option<Algorithm>>

  /** The property definition every default algorithm carries. */
  const DEFAULT_PROPERTY: string := "default=yes"

  function Alg(name: string, implementation: string): Option<Algorithm>
  {
    Some(Algorithm(name, DEFAULT_PROPERTY, implementation))
  }

  /** `deflt_digests` (defltprov.c:52-90). */
  const DefaultDigests: AlgorithmTable := [
    Alg("SHA1", "sha1_functions"),
    Alg("SHA224", "sha224_functions"),
    Alg("SHA256", "sha256_functions"),
    Alg("SHA384", "sha384_functions"),
    Alg("SHA512", "sha512_functions"),
    Alg("SHA512-224", "sha512_224_functions"),
    Alg("SHA512-256", "sha512_256_functions"),
    Alg("SHA3-224", "sha3_224_functions"),
    Alg("SHA3-256", "sha3_256_functions"),
    Alg("SHA3-384", "sha3_384_functions"),
    Alg("SHA3-512", "sha3_512_functions"),
    Alg("KMAC128", "keccak_kmac_128_functions"),
    Alg("KMAC256", "keccak_kmac_256_functions"),
    Alg("SHAKE128", "shake_128_functions"),
    Alg("SHAKE256", "shake_256_functions"),
    Alg("BLAKE2s256", "blake2s256_functions"),
    Alg("BLAKE2b512", "blake2b512_functions"),
    Alg("SM3", "sm3_functions"),
    Alg("MD5", "md5_functions"),
    Alg("MD5-SHA1", "md5_sha1_functions"),
    None]

  /** `deflt_ciphers` (defltprov.c:92-115). */
  const DefaultCiphers: AlgorithmTable := [
    Alg("AES-256-ECB", "aes256ecb_functions"),
    Alg("AES-192-ECB", "aes192ecb_functions"),
    Alg("AES-128-ECB", "aes128ecb_functions"),
    Alg("AES-256-CBC", "aes256cbc_functions"),
    Alg("AES-192-CBC", "aes192cbc_functions"),
    Alg("AES-128-CBC", "aes128cbc_functions"),
    Alg("AES-256-OFB", "aes256ofb_functions"),
    Alg("AES-192-OFB", "aes192ofb_functions"),
    Alg("AES-128-OFB", "aes128ofb_functions"),
    Alg("AES-256-CFB", "aes256cfb_functions"),
    Alg("AES-192-CFB", "aes192cfb_functions"),
    Alg("AES-128-CFB", "aes128cfb_functions"),
    Alg("AES-256-CFB1", "aes256cfb1_functions"),
    Alg("AES-192-CFB1", "aes192cfb1_functions"),
    Alg("AES-128-CFB1", "aes128cfb1_functions"),
    Alg("AES-256-CFB8", "aes256cfb8_functions"),
    Alg("AES-192-CFB8", "aes192cfb8_functions"),
    Alg("AES-128-CFB8", "aes128cfb8_functions"),
    Alg("AES-256-CTR", "aes256ctr_functions"),
    Alg("AES-192-CTR", "aes192ctr_functions"),
    Alg("AES-128-CTR", "aes128ctr_functions"),
    None]

  /** `deflt_keyexch` (defltprov.c:117-122). */
  const DefaultKeyexch: AlgorithmTable := [
    Alg("dhKeyAgreement", "dh_keyexch_functions"),
    None]

  /** `deflt_keymgmt` (defltprov.c:124-129). */
  const DefaultKeymgmt: AlgorithmTable := [
    Alg("dhKeyAgreement", "dh_keymgmt_functions"),
    None]

  /** A table ends with its terminator and has no terminator before it. */
  ghost predicate Terminated(t: AlgorithmTable)
  {
    && |t| > 0 && t[|t| - 1].None?
    && forall i :: 0 <= i < |t| - 1 ==> t[i].Some?
  }

  /** Every algorithm of the table is marked as a default implementation. */
  ghost predicate AllDefault(t: AlgorithmTable)
  {
    forall i :: 0 <= i < |t| && t[i].Some? ==> t[i].value.propertyDefinition == DEFAULT_PROPERTY
  }

  /** No algorithm name appears twice in the table. */
  ghost predicate NamesDistinct(t: AlgorithmTable)
  {
    forall i, j :: 0 <= i < j < |t| && t[i].Some? && t[j].Some? ==> t[i].value.name != t[j].value.name
  }

  /** The names a table offers. */
  ghost predicate Offers(t: AlgorithmTable, name: string)
  {
    exists i :: 0 <= i < |t| && t[i].Some? && t[i].value.name == name
  }

  /** `deflt_query`'s answer: the value stored in `*no_cache` and the table returned. */
  datatype QueryAnswer = QueryAnswer(noCache: int, table: Option<AlgorithmTable>)

  /** `deflt_query` (defltprov.c:131-147). */
  function Query(operationId: int): (r: QueryAnswer)
    ensures r.noCache == 0
    ensures r.table.Some? <==> operationId in CoreNumbers.Operations
    ensures r.table.Some? ==> Terminated(r.table.value) && AllDefault(r.table.value)
  {
    if operationId == CoreNumbers.OP_DIGEST then QueryAnswer(0, Some(DefaultDigests))
    else if operationId == CoreNumbers.OP_CIPHER then QueryAnswer(0, Some(DefaultCiphers))
    else if operationId == CoreNumbers.OP_KEYMGMT then QueryAnswer(0, Some(DefaultKeymgmt))
    else if operationId == CoreNumbers.OP_KEYEXCH then QueryAnswer(0, Some(DefaultKeyexch))
    else QueryAnswer(0, None)
  }

  /**
    Each operation gets its own table, and a table never lists the same
    algorithm name twice, so a name identifies one implementation per
    operation.
   */
  lemma QueryTablesPerOperation()
    ensures Query(CoreNumbers.OP_DIGEST).table == Some(DefaultDigests)
    ensures Query(CoreNumbers.OP_CIPHER).table == Some(DefaultCiphers)
    ensures Query(CoreNumbers.OP_KEYMGMT).table == Some(DefaultKeymgmt)
    ensures Query(CoreNumbers.OP_KEYEXCH).table == Some(DefaultKeyexch)
    ensures NamesDistinct(DefaultKeyexch) && NamesDistinct(DefaultKeymgmt)
    ensures |DefaultDigests| == 21 && |DefaultCiphers| == 22
  {
  }

  /**
    Every key exchange the provider offers has a key manager of the same
    name in the same provider, which is what EVP_KEYEXCH_fetch needs to
    attach one (crypto/evp/exchange.c:150-163).
   */
  lemma KeyexchHasKeymgmt(name: string)
    requires Offers(DefaultKeyexch, name)
    ensures Offers(Query(CoreNumbers.OP_KEYMGMT).table.value, name)
  {
    assert DefaultKeymgmt[0].value.name == name;
  }

  // ---------------------------------------------------------------------
  // The provider's own dispatch table.

  /** The provider functions handed to the core, as code addresses. */
  const DEFLT_GET_PARAM_TYPES: FnRef := 1
  const DEFLT_GET_PARAMS: FnRef := 2
  const DEFLT_QUERY: FnRef := 3

  /** `deflt_dispatch_table` (defltprov.c:150-155). */
  const DefaultDispatch: seq<DispatchEntry> := [
    DispatchEntry(CoreNumbers.FUNC_PROVIDER_GET_PARAM_TYPES, Some(DEFLT_GET_PARAM_TYPES)),
    DispatchEntry(CoreNumbers.FUNC_PROVIDER_GET_PARAMS, Some(DEFLT_GET_PARAMS)),
    DispatchEntry(CoreNumbers.FUNC_PROVIDER_QUERY_OPERATION, Some(DEFLT_QUERY)),
    DispatchEntry(CoreNumbers.DISPATCH_END, None)]

  /**
    The provider's table is 0-terminated, supplies get_param_types,
    get_params and query_operation with non-NULL functions, and uses
    identities from the provider-supplied range only.
   */
  lemma DefaultDispatchWellFormed()
    ensures Live(DefaultDispatch) == DefaultDispatch[..3]
    ensures NoNulls(Live(DefaultDispatch))
    ensures forall i :: 0 <= i < |Live(DefaultDispatch)| ==> 1024 <= Live(DefaultDispatch)[i].functionId <= 1535
    ensures Ids(Live(DefaultDispatch)) ==
      {CoreNumbers.FUNC_PROVIDER_GET_PARAM_TYPES, CoreNumbers.FUNC_PROVIDER_GET_PARAMS,
       CoreNumbers.FUNC_PROVIDER_QUERY_OPERATION}
  {
  }

  // ---------------------------------------------------------------------
  // Initialisation handshake.

  /**
    The core functions the provider keeps in file-level variables
    (`c_get_param_types`, `c_get_params`); they persist across calls.
   */
  datatype CoreHooks = CoreHooks(getParamTypes: Option<FnRef>, getParams: Option<FnRef>)

  /** The state of the scan over the core's table: the hooks and the local `c_get_libctx`. */
  datatype CoreScan = CoreScan(hooks: CoreHooks, getLibctx: Option<FnRef>)

  /**
    The loop of defltprov.c:166-181: every recognised element overwrites
    its variable (NULL included), so the last occurrence wins; everything
    else is ignored.
   */
  function ReadCore(live: seq<DispatchEntry>, hooks: CoreHooks): CoreScan
    decreases |live|
  {
    if |live| == 0 then CoreScan(hooks, None)
    else
      var s := ReadCore(live[..|live| - 1], hooks);
      var e := live[|live| - 1];
      if e.functionId == CoreNumbers.FUNC_CORE_GET_PARAM_TYPES then s.(hooks := s.hooks.(getParamTypes := e.fn))
      else if e.functionId == CoreNumbers.FUNC_CORE_GET_PARAMS then s.(hooks := s.hooks.(getParams := e.fn))
      else if e.functionId == CoreNumbers.FUNC_CORE_GET_LIBRARY_CONTEXT then s.(getLibctx := e.fn)
      else s
  }

  /** Element `k` is the last element of `s` with identity `id`. */
  ghost predicate LastOccurrence(s: seq<DispatchEntry>, id: int, k: int)
  {
    && 0 <= k < |s|
    && s[k].functionId == id
    && forall j :: k < j < |s| ==> s[j].functionId != id
  }

  /**
    The value the scan leaves for `id`: the pointer of the last element
    carrying `id`, or `dflt` when no element does. An independent
    reference definition of the loop.
   */
  ghost predicate LastValue(s: seq<DispatchEntry>, id: int, dflt: Option<FnRef>, v: Option<FnRef>)
  {
    || (exists k :: LastOccurrence(s, id, k) && s[k].fn == v)
    || ((forall j :: 0 <= j < |s| ==> s[j].functionId != id) && v == dflt)
  }

  /** Last occurrence wins, for each of the three recognised identities. */
  lemma {:induction false} ReadCoreLastWins(live: seq<DispatchEntry>, hooks: CoreHooks)
    ensures LastValue(live, CoreNumbers.FUNC_CORE_GET_PARAM_TYPES, hooks.getParamTypes,
                      ReadCore(live, hooks).hooks.getParamTypes)
    ensures LastValue(live, CoreNumbers.FUNC_CORE_GET_PARAMS, hooks.getParams, ReadCore(live, hooks).hooks.getParams)
    ensures LastValue(live, CoreNumbers.FUNC_CORE_GET_LIBRARY_CONTEXT, None, ReadCore(live, hooks).getLibctx)
    decreases |live|
  {
    if |live| > 0 {
      var init := live[..|live| - 1];
      ReadCoreLastWins(init, hooks);
      LastValueSnoc(init, live[|live| - 1], CoreNumbers.FUNC_CORE_GET_PARAM_TYPES, hooks.getParamTypes,
                    ReadCore(init, hooks).hooks.getParamTypes);
      LastValueSnoc(init, live[|live| - 1], CoreNumbers.FUNC_CORE_GET_PARAMS, hooks.getParams,
                    ReadCore(init, hooks).hooks.getParams);
      LastValueSnoc(init, live[|live| - 1], CoreNumbers.FUNC_CORE_GET_LIBRARY_CONTEXT, None,
                    ReadCore(init, hooks).getLibctx);
      assert init + [live[|live| - 1]] == live;
    }
  }

  /** Appending an element: it becomes the last occurrence of its own identity and leaves the others alone. */
  lemma LastValueSnoc(s: seq<DispatchEntry>, e: DispatchEntry, id: int, dflt: Option<FnRef>, v: Option<FnRef>)
    requires LastValue(s, id, dflt, v)
    ensures e.functionId == id ==> LastValue(s + [e], id, dflt, e.fn)
    ensures e.functionId != id ==> LastValue(s + [e], id, dflt, v)
  {
    var t := s + [e];
    if e.functionId == id {
      assert LastOccurrence(t, id, |s|);
    } else if exists k :: LastOccurrence(s, id, k) && s[k].fn == v {
      var k :| LastOccurrence(s, id, k) && s[k].fn == v;
      assert t[k] == s[k];
      assert LastOccurrence(t, id, k);
    } else {
      assert forall j :: 0 <= j < |t| ==> t[j].functionId != id by {
        forall j | 0 <= j < |t|
          ensures t[j].functionId != id
        {
          if j < |s| {
            assert t[j] == s[j];
          }
        }
      }
    }
  }

  /**
    The handshake's outcome: the return value, the table stored in `*out`
    and the context stored in `*provctx` (`None` when not written), and the
    file-level hooks afterwards.
   */
  datatype InitAnswer = InitAnswer(ret: int, out: Option<seq<DispatchEntry>>, provctx: Option<ObjId>, hooks: CoreHooks)

  /**
    `ossl_default_provider_init` (defltprov.c:159-195). `libctxOf` stands
    for calling the core's get_library_context function: the library
    context it returns for this provider.
   */
  function ProviderInit(input: seq<DispatchEntry>, hooks: CoreHooks, libctxOf: FnRef -> ObjId): (r: InitAnswer)
    // It succeeds exactly when the last get_library_context element carries a function.
    ensures r.ret == 1 <==>
      exists k :: LastOccurrence(Live(input), CoreNumbers.FUNC_CORE_GET_LIBRARY_CONTEXT, k) && Live(input)[k].fn.Some?
    ensures r.ret == 0 || r.ret == 1
    // On success the core gets the provider's table and the library context as provider context.
    ensures r.ret == 1 ==>
      && r.out == Some(DefaultDispatch)
      && exists k :: && LastOccurrence(Live(input), CoreNumbers.FUNC_CORE_GET_LIBRARY_CONTEXT, k)
                     && r.provctx == Some(libctxOf(Live(input)[k].fn.value))
    ensures r.ret == 0 ==> r.out.None? && r.provctx.None?
    // The hooks are updated even on failure, with the last value offered for each.
    ensures LastValue(Live(input), CoreNumbers.FUNC_CORE_GET_PARAM_TYPES, hooks.getParamTypes, r.hooks.getParamTypes)
    ensures LastValue(Live(input), CoreNumbers.FUNC_CORE_GET_PARAMS, hooks.getParams, r.hooks.getParams)
  {
    ReadCoreLastWins(Live(input), hooks);
    var s := ReadCore(Live(input), hooks);
    if s.getLibctx.None? then InitAnswer(0, None, None, s.hooks)
    else InitAnswer(1, Some(DefaultDispatch), Some(libctxOf(s.getLibctx.value)), s.hooks)
  }

  /**
    The handshake only looks at the three identities it knows: adding an
    element with any other identity anywhere before the terminator does
    not change its outcome.
   */
  lemma {:induction false} ProviderInitIgnoresUnknown(pre: seq<DispatchEntry>, e: DispatchEntry, post: seq<DispatchEntry>,
                                                     hooks: CoreHooks, libctxOf: FnRef -> ObjId)
    requires e.functionId != CoreNumbers.DISPATCH_END
    requires e.functionId != CoreNumbers.FUNC_CORE_GET_PARAM_TYPES
    requires e.functionId != CoreNumbers.FUNC_CORE_GET_PARAMS
    requires e.functionId != CoreNumbers.FUNC_CORE_GET_LIBRARY_CONTEXT
    requires Live(pre) == pre
    ensures ProviderInit(pre + [e] + post, hooks, libctxOf) == ProviderInit(pre + post, hooks, libctxOf)
  {
    LiveSkip(pre, e, post);
    ReadCoreSkip(pre, e, Live(post), hooks);
  }

  /** A prefix free of terminators is read whole, and the scan carries on into what follows. */
  lemma {:induction false} LiveAppend(pre: seq<DispatchEntry>, rest: seq<DispatchEntry>)
    requires forall i :: 0 <= i < |pre| ==> pre[i].functionId != CoreNumbers.DISPATCH_END
    ensures Live(pre + rest) == pre + Live(rest)
    decreases |pre|
  {
    if |pre| > 0 {
      var t := pre + rest;
      assert t[0] == pre[0];
      assert t[1..] == pre[1..] + rest;
      LiveAppend(pre[1..], rest);
      assert Live(t) == [pre[0]] + Live(t[1..]);
      assert [pre[0]] + (pre[1..] + Live(rest)) == pre + Live(rest);
    } else {
      assert pre + rest == rest;
    }
  }

  /** The live part of a table with an extra non-terminator element inserted. */
  lemma LiveSkip(pre: seq<DispatchEntry>, e: DispatchEntry, post: seq<DispatchEntry>)
    requires e.functionId != CoreNumbers.DISPATCH_END
    requires Live(pre) == pre
    ensures Live(pre + [e] + post) == pre + [e] + Live(post)
    ensures Live(pre + post) == pre + Live(post)
  {
    var pe := pre + [e];
    assert forall i :: 0 <= i < |pe| ==> pe[i].functionId != CoreNumbers.DISPATCH_END by {
      forall i | 0 <= i < |pe|
        ensures pe[i].functionId != CoreNumbers.DISPATCH_END
      {
        if i < |pre| {
          assert pe[i] == Live(pre)[i];
        }
      }
    }
    LiveAppend(pe, post);
    LiveAppend(pre, post);
  }

  /** Inserting an unrecognised element does not change the scan. */
  lemma {:induction false} ReadCoreSkip(pre: seq<DispatchEntry>, e: DispatchEntry, post: seq<DispatchEntry>,
                                        hooks: CoreHooks)
    requires e.functionId != CoreNumbers.FUNC_CORE_GET_PARAM_TYPES
    requires e.functionId != CoreNumbers.FUNC_CORE_GET_PARAMS
    requires e.functionId != CoreNumbers.FUNC_CORE_GET_LIBRARY_CONTEXT
    ensures ReadCore(pre + [e] + post, hooks) == ReadCore(pre + post, hooks)
    decreases |post|
  {
    if |post| == 0 {
      assert pre + [e] + post == pre + [e];
      assert (pre + [e])[..|pre + [e]| - 1] == pre;
      assert pre + post == pre;
    } else {
      var last := post[|post| - 1];
      var front := post[..|post| - 1];
      ReadCoreSkip(pre, e, front, hooks);
      assert (pre + [e] + post)[..|pre + [e] + post| - 1] == pre + [e] + front;
      assert (pre + post)[..|pre + post| - 1] == pre + front;
    }
  }

  // ---------------------------------------------------------------------
  // Parameters reported to the core.

  /** The name the provider reports for itself. */
  const PROVIDER_NAME: string := "OpenSSL Default Provider"

  /** `deflt_param_types` (defltprov.c:23-28): the keys `deflt_get_params` answers. */
  const DefaultParamTypes: seq<ParamKey> := [ProvName, ProvVersion, ProvBuildinfo]

  /** The first element with `key` is absent or accepts a UTF-8 pointer. */
  ghost predicate Settable(params: seq<Param>, key: ParamKey)
  {
    Locate(params, key).None? || params[Locate(params, key).value].acceptsUtf8Ptr
  }

  /** The first element with `key`, if any, now holds `v`. */
  ghost predicate Answered(params: seq<Param>, key: ParamKey, v: string)
  {
    Locate(params, key).Some? ==> params[Locate(params, key).value].text == Some(v)
  }

  /** Same keys and capabilities element by element (only texts may differ). */
  ghost predicate SameShape(a: seq<Param>, b: seq<Param>)
  {
    && |a| == |b|
    && forall i :: 0 <= i < |a| ==>
         a[i].key == b[i].key && a[i].intValue == b[i].intValue && a[i].acceptsUtf8Ptr == b[i].acceptsUtf8Ptr
  }

  /** Locating a key only looks at keys, so parameters of the same shape locate alike. */
  lemma LocateSameShape(a: seq<Param>, b: seq<Param>, key: ParamKey)
    requires SameShape(a, b)
    ensures Locate(a, key) == Locate(b, key)
  {
  }

  /**
    `OSSL_PARAM_locate` followed by `OSSL_PARAM_set_utf8_ptr` on the
    element found: false when the element refuses a UTF-8 pointer; a
    missing element is no failure.
   */
  function SetLocated(params: seq<Param>, key: ParamKey, v: string): (r: (bool, seq<Param>))
    ensures r.0 <==> Settable(params, key)
    ensures r.0 ==> Answered(r.1, key, v)
    ensures SameShape(params, r.1)
    ensures forall i :: 0 <= i < |params| && Locate(params, key) != Some(i) ==> r.1[i] == params[i]
    ensures !r.0 ==> r.1 == params
  {
    match Locate(params, key)
    case None => (true, params)
    case Some(i) =>
      if !params[i].acceptsUtf8Ptr then (false, params)
      else
        var p := params[i := params[i].(text := Some(v))];
        assert SameShape(params, p);
        LocateSameShape(params, p, key);
        (true, p)
  }

  /**
    `deflt_get_params` (defltprov.c:35-50), filling name, version and
    build information in that order and stopping at the first element that
    cannot be set.
   */
  function GetParams(params: seq<Param>, version: string, buildinfo: string): (r: (int, seq<Param>))
    ensures r.0 == 0 || r.0 == 1
    ensures r.0 == 1 <==>
      Settable(params, ProvName) && Settable(params, ProvVersion) && Settable(params, ProvBuildinfo)
    ensures r.0 == 1 ==>
      && Answered(r.1, ProvName, PROVIDER_NAME)
      && Answered(r.1, ProvVersion, version)
      && Answered(r.1, ProvBuildinfo, buildinfo)
    ensures !Settable(params, ProvName) ==> r.1 == params
    ensures SameShape(params, r.1)
    // Only elements of the advertised keys are ever written.
    ensures forall i :: 0 <= i < |params| && params[i].key !in DefaultParamTypes ==> r.1[i] == params[i]
  {
    var (ok1, p1) := SetLocated(params, ProvName, PROVIDER_NAME);
    if !ok1 then (0, p1)
    else
      LocateSameShape(params, p1, ProvVersion);
      var (ok2, p2) := SetLocated(p1, ProvVersion, version);
      if !ok2 then (0, p2)
      else
        LocateSameShape(params, p2, ProvBuildinfo);
        LocateSameShape(p1, p2, ProvName);
        var (ok3, p3) := SetLocated(p2, ProvBuildinfo, buildinfo);
        LocateSameShape(p2, p3, ProvName);
        LocateSameShape(p2, p3, ProvVersion);
        assert Answered(p3, ProvName, PROVIDER_NAME) by {
          if Locate(p3, ProvName).Some? {
            assert Locate(p3, ProvName) != Locate(p2, ProvBuildinfo);
          }
        }
        assert Answered(p3, ProvVersion, version) by {
          if Locate(p3, ProvVersion).Some? {
            assert Locate(p3, ProvVersion) != Locate(p2, ProvBuildinfo);
          }
        }
        if !ok3 then (0, p3) else (1, p3)
  }

  /** Asking twice gives the same answer: a second call finds every element already filled in. */
  lemma GetParamsIdempotent(params: seq<Param>, version: string, buildinfo: string)
    ensures var (ret, p) := GetParams(params, version, buildinfo);
            GetParams(p, version, buildinfo).0 == ret
  {
  }
}

=== FILE: derive_ctx.dfy ===
/**
  The derive operation on an EVP_PKEY_CTX (crypto/evp/exchange.c:167-375):
  `EVP_PKEY_derive_init_ex`, `EVP_PKEY_derive_set_peer` and
  `EVP_PKEY_derive`, each with a provider path (through an EVP_KEYEXCH and
  its provider-side context) and a legacy path (through the context's
  EVP_PKEY_METHOD).

  Key export to a provider, the key-exchange fetch, the provider's
  functions and the legacy method's functions appear as parameters
  standing for their outcome.
 */
module DeriveContext {
  import opened Common
  import CoreNumbers
  import opened KeyExchange

  /** EVP_PKEY_OP_*: the operation a context is initialised for. */
  datatype PkeyOp = OpUndefined | OpDerive | OpEncrypt | OpDecrypt | OpOther

  /** `EVP_PKEY_DH`: the only key type that takes the provider path when no exchange is given. */
  const EVP_PKEY_DH: int := 28

  /** An EVP_PKEY as far as derive looks at it: identity, type, and whether its parameters are missing. */
  datatype Pkey = Pkey(objId: ObjId, keyType: int, missingParams: bool)

  /** The legacy EVP_PKEY_METHOD: its key type and which functions it has. */
  datatype Pmeth = Pmeth(pkeyId: int, hasDerive: bool, hasDeriveInit: bool, hasEncrypt: bool,
                         hasDecrypt: bool, hasCtrl: bool)

  /** The derive-relevant part of an EVP_PKEY_CTX. */
  datatype PkeyCtx = PkeyCtx(
    operation: PkeyOp,
    engine: bool,
    pkey: Option<Pkey>,
    pmeth: Option<Pmeth>,
    exchange: Option<KeyExch>,
    exchprovctx: Option<Token>,
    peerkey: Option<Pkey>)

  /**
    What lives outside the context: key-exchange reference counts, the
    provider-side exchange contexts, and EVP_PKEY reference counts.
   */
  datatype World = World(refs: RefWorld, heap: Heap, keyRefs: Ledger)

  /**
    The context's pointers are usable: a provider context only exists next
    to the exchange that made it, and a bound exchange has the four
    functions its acceptance guarantees.
   */
  ghost predicate WellFormed(c: PkeyCtx)
  {
    && (c.exchprovctx.Some? ==> c.exchange.Some?)
    && (c.exchange.Some? ==> MandatoryFunctions <= c.exchange.value.fns.Keys)
  }

  /** Every provider context the context points to is allocated. */
  ghost predicate Inv(c: PkeyCtx, w: World)
  {
    HeapInv(w.heap) && (c.exchprovctx.Some? ==> c.exchprovctx.value in w.heap.live)
  }

  /**
    Outcomes of the calls derive init makes: the implicit fetch of the DH
    exchange, the export of the context's key, the provider's newctx and
    init, and the legacy derive_init.
   */
  datatype InitOracle = InitOracle(fetch: Option<KeyExch>, exportOk: bool, newctxOk: bool, init: int,
                                   legacyInit: int)

  /** The result: return code, context and world afterwards. */
  datatype InitOutcome = InitOutcome(ret: int, ctx: PkeyCtx, w: World)

  /**
    Which way init goes: `Provider(e)` with the exchange to bind (and
    whether it was passed in or came from the implicit fetch), `Legacy`, or
    `Fail` when the implicit fetch found nothing.
   */
  datatype InitRoute = Provider(e: KeyExch, passed: bool) | Legacy | Fail

  /** The routing of exchange.c:174-203. */
  function Route(c: PkeyCtx, exchange: Option<KeyExch>, o: InitOracle): (r: InitRoute)
    ensures c.engine ==> r == Legacy
    ensures !c.engine && exchange.Some? ==> r == Provider(exchange.value, true)
    ensures !c.engine && exchange.None? && (c.pkey.None? || c.pkey.value.keyType != EVP_PKEY_DH) ==> r == Legacy
    ensures r.Provider? && !r.passed ==> o.fetch == Some(r.e)
    ensures r.Fail? ==> o.fetch.None?
  {
    if c.engine then Legacy
    else if exchange.Some? then Provider(exchange.value, true)
    else if c.pkey.None? || c.pkey.value.keyType != EVP_PKEY_DH then Legacy
    else if o.fetch.None? then Fail
    else Provider(o.fetch.value, false)
  }

  /**
    The calls init makes through pointers are defined: reading the key
    type needs a key or a legacy method (exchange.c:181), and the exchange
    bound on the provider path has its four mandatory functions.
   */
  ghost predicate InitCallable(c: PkeyCtx, exchange: Option<KeyExch>, o: InitOracle)
  {
    && WellFormed(c)
    && (!c.engine && exchange.None? ==> c.pkey.Some? || c.pmeth.Some?)
    && (Route(c, exchange, o).Provider? ==> MandatoryFunctions <= Route(c, exchange, o).e.fns.Keys)
  }

  /** The legacy tail of derive init (exchange.c:229-241). */
  function InitLegacy(c: PkeyCtx, w: World, o: InitOracle): (r: InitOutcome)
    requires c.operation == OpDerive
    ensures r.w == w
    ensures r.ctx == c || r.ctx == c.(operation := OpUndefined)
    ensures c.pmeth.None? || !c.pmeth.value.hasDerive ==> r.ret == -2 && r.ctx == c
    // With a legacy derive: derive_init decides the result (1 without one), and any answer of
    // derive_init that is not positive, -2 included, resets the operation.
    ensures c.pmeth.Some? && c.pmeth.value.hasDerive ==>
      && r.ret == (if c.pmeth.value.hasDeriveInit then o.legacyInit else 1)
      && (r.ctx.operation == OpUndefined <==> c.pmeth.value.hasDeriveInit && o.legacyInit <= 0)
    ensures r.ret <= 0 && r.ret != -2 ==> r.ctx.operation == OpUndefined
  {
    if c.pmeth.None? || !c.pmeth.value.hasDerive then InitOutcome(-2, c, w)
    else if !c.pmeth.value.hasDeriveInit then InitOutcome(1, c, w)
    else if o.legacyInit <= 0 then InitOutcome(o.legacyInit, c.(operation := OpUndefined), w)
    else InitOutcome(o.legacyInit, c, w)
  }

  /**
    Dropping the previous exchange (exchange.c:205-207): its provider
    context is freed through its freectx, and the context's reference on
    it is released.
   */
  function DropExchange(c: PkeyCtx, w: World): (r: World)
    ensures r.heap.live == if c.exchprovctx.Some? && c.exchange.Some?
                           then w.heap.live - {c.exchprovctx.value} else w.heap.live
    ensures r.heap.next == w.heap.next && (HeapInv(w.heap) ==> HeapInv(r.heap))
    ensures r.refs == KeyexchFree(c.exchange, w.refs) && r.keyRefs == w.keyRefs
  {
    var h := if c.exchprovctx.Some? && c.exchange.Some? then Dispose(w.heap, c.exchprovctx.value) else w.heap;
    World(KeyexchFree(c.exchange, w.refs), h, w.keyRefs)
  }

  /**
    The key export (when the context has a key) and the provider's newctx
    both succeed, so init reaches the provider's own `init`.
   */
  predicate ReachesProviderInit(c: PkeyCtx, o: InitOracle)
  {
    (c.pkey.None? || o.exportOk) && o.newctxOk
  }

  /**
    Binding the new exchange and starting it (exchange.c:208-224), given
    the context after the old exchange was dropped. `keepStale` says what
    happens to the old provider context pointer when the key export fails:
    the code as written keeps it (true); the corrected version clears it.
   */
  function Start(c: PkeyCtx, e: KeyExch, w: World, o: InitOracle, keepStale: bool): (r: InitOutcome)
    requires HeapInv(w.heap) && c.operation == OpDerive
    ensures r.w.refs == w.refs && r.w.keyRefs == w.keyRefs && HeapInv(r.w.heap)
    ensures r.ctx.exchange == Some(e)
    ensures r.ret == 0 || r.ret == 1
    // The error exits reset the operation; once the provider's init is called it stays DERIVE,
    // whatever init answers.
    ensures r.ctx.operation == (if ReachesProviderInit(c, o) then OpDerive else OpUndefined)
    ensures !ReachesProviderInit(c, o) ==> r.ret == 0
    // The key export fails: nothing new is allocated.
    ensures c.pkey.Some? && !o.exportOk ==>
      && r.w == w
      && r.ctx.exchprovctx == (if keepStale then c.exchprovctx else None)
    // The export passes but newctx fails: no provider context.
    ensures (c.pkey.None? || o.exportOk) && !o.newctxOk ==> r.ctx.exchprovctx.None? && r.w == w
    // Otherwise a new provider context is made with the exchange's newctx, and init decides the result.
    ensures ReachesProviderInit(c, o) ==>
      && r.ctx.exchprovctx == Some(w.heap.next)
      && r.w.heap.live == w.heap.live + {w.heap.next}
      && r.ret == (if o.init != 0 then 1 else 0)
  {
    var c1 := c.(exchange := Some(e));
    if c1.pkey.Some? && !o.exportOk then
      InitOutcome(0, c1.(operation := OpUndefined, exchprovctx := if keepStale then c1.exchprovctx else None), w)
    else if !o.newctxOk then
      InitOutcome(0, c1.(exchprovctx := None, operation := OpUndefined), w)
    else
      var (tok, h) := Allocate(w.heap);
      InitOutcome(if o.init != 0 then 1 else 0, c1.(exchprovctx := Some(tok)), w.(heap := h))
  }

  /** `EVP_PKEY_derive_init_ex`, parameterised over the one point where the corrected version differs. */
  function DeriveInitWith(c: PkeyCtx, exchange: Option<KeyExch>, w: World, o: InitOracle, keepStale: bool): (r: InitOutcome)
    requires HeapInv(w.heap)
    requires InitCallable(c, exchange, o)
  {
    var c0 := c.(operation := OpDerive);
    match Route(c0, exchange, o)
    case Legacy => InitLegacy(c0, w, o)
    case Fail => InitOutcome(0, c0.(operation := OpUndefined), w)
    case Provider(e, passed) =>
      // A passed exchange is up_ref'd; a fetched one arrives holding the reference the fetch took.
      var w1 := w.(refs := KeyexchUpRef(e, w.refs).1);
      var w2 := DropExchange(c0, w1);
      Start(c0, e, w2, o, keepStale)
  }

  /**
    The provider path reaches the provider's init and the provider refuses
    it: init returns 0 but, unlike at its error exits, leaves the operation
    DERIVE and keeps the new provider context (exchange.c:222-224).
   */
  predicate ProviderInitRefused(c: PkeyCtx, exchange: Option<KeyExch>, o: InitOracle)
  {
    Route(c.(operation := OpDerive), exchange, o).Provider? && ReachesProviderInit(c, o) && o.init == 0
  }

  /**
    `EVP_PKEY_derive_init_ex` (exchange.c:167-242) exactly as written: when
    the key export fails after the old provider context was freed, the
    context keeps pointing at the freed provider context.
   */
  function DeriveInitAsWritten(c: PkeyCtx, exchange: Option<KeyExch>, w: World, o: InitOracle): (r: InitOutcome)
    requires HeapInv(w.heap)
    requires InitCallable(c, exchange, o)
    // Every failure other than -2 resets the operation, except a refusal by the provider's init.
    ensures r.ret <= 0 && r.ret != -2 && !ProviderInitRefused(c, exchange, o) ==> r.ctx.operation == OpUndefined
    ensures ProviderInitRefused(c, exchange, o) ==>
      r.ret == 0 && r.ctx.operation == OpDerive && r.ctx.exchprovctx.Some?
  {
    DeriveInitWith(c, exchange, w, o, true)
  }

  /**
    The failure the code as written leaves behind: a context that was
    initialised before (so it holds a provider context) and is initialised
    again with a DH key that cannot be exported ends up pointing at a
    provider context that has been freed. The next init, or freeing the
    context, frees it a second time.
   */
  lemma AsWrittenLeavesDanglingContext(e: KeyExch, prev: KeyExch, key: Pkey, tok: Token, w: World)
    requires MandatoryFunctions <= e.fns.Keys && MandatoryFunctions <= prev.fns.Keys
    requires HeapInv(w.heap) && tok in w.heap.live
    ensures var c := PkeyCtx(OpDerive, false, Some(key), None, Some(prev), Some(tok), None);
            var o := InitOracle(None, false, true, 1, 0);
            && Inv(c, w) && WellFormed(c)
            && var r := DeriveInitAsWritten(c, Some(e), w, o);
               && r.ret == 0
               && r.ctx.exchprovctx == Some(tok)
               && tok !in r.w.heap.live
               && !Inv(r.ctx, r.w)
  {
  }

  /**
    `EVP_PKEY_derive_init_ex` with the stale provider context pointer
    cleared when the key export fails; otherwise as written.
   */
  function DeriveInit(c: PkeyCtx, exchange: Option<KeyExch>, w: World, o: InitOracle): (r: InitOutcome)
    requires HeapInv(w.heap)
    requires InitCallable(c, exchange, o)
    // The operation is DERIVE on success and UNDEFINED after any error exit; a refusal by the
    // provider's init returns 0 but leaves it DERIVE with the new provider context bound.
    ensures r.ret <= 0 && r.ret != -2 && !ProviderInitRefused(c, exchange, o) ==> r.ctx.operation == OpUndefined
    ensures ProviderInitRefused(c, exchange, o) ==>
      && r.ret == 0 && r.ctx.operation == OpDerive && r.ctx.exchprovctx.Some?
      && r.ctx.exchprovctx.value in r.w.heap.live && r.ctx.exchprovctx.value !in w.heap.live
    ensures r.ret == 1 ==> r.ctx.operation == OpDerive
    // Every provider context the result points to is allocated, and the pointers stay usable.
    ensures Inv(c, w) ==> Inv(r.ctx, r.w)
    ensures WellFormed(r.ctx)
    // An explicit exchange takes the provider path and ends up bound.
    ensures !c.engine && exchange.Some? ==> r.ctx.exchange == exchange
    // No usable legacy method: -2.
    ensures Route(c.(operation := OpDerive), exchange, o).Legacy? && (c.pmeth.None? || !c.pmeth.value.hasDerive) ==>
      r.ret == -2
  {
    DeriveInitWith(c, exchange, w, o, false)
  }

  /**
    Reference accounting of a provider init: the context's reference moves
    from the old exchange to the new one, whether the new one was passed in
    (and up_ref'd) or fetched (holding the fetch's reference). Rebinding
    the same exchange leaves its count as it was.
   */
  lemma DeriveInitMovesReference(c: PkeyCtx, exchange: Option<KeyExch>, w: World, o: InitOracle)
    requires HeapInv(w.heap) && InitCallable(c, exchange, o)
    requires Route(c.(operation := OpDerive), exchange, o).Provider?
    ensures var e := Route(c.(operation := OpDerive), exchange, o).e;
            var r := DeriveInit(c, exchange, w, o);
            && (c.exchange.None? || c.exchange.value.objId != e.objId ==>
                  Held(r.w.refs.exRefs, e.objId) == Held(w.refs.exRefs, e.objId) + 1)
            && (c.exchange.Some? && c.exchange.value.objId != e.objId ==>
                  Held(r.w.refs.exRefs, c.exchange.value.objId) == Held(w.refs.exRefs, c.exchange.value.objId) - 1)
            && (c.exchange.Some? && c.exchange.value.objId == e.objId ==>
                  Held(r.w.refs.exRefs, e.objId) == Held(w.refs.exRefs, e.objId))
  {
  }

  // ---------------------------------------------------------------------
  // Setting the peer.

  /** Outcomes of the calls set_peer makes. */
  datatype PeerOracle = PeerOracle(exportOk: bool, setPeer: int, ctrl0: int, cmpParams: int, ctrl1: int)

  datatype PeerOutcome = PeerOutcome(ret: int, ctx: PkeyCtx, w: World)

  /** The legacy part of `EVP_PKEY_derive_set_peer` (exchange.c:282-342). */
  function SetPeerLegacy(c: PkeyCtx, peer: Pkey, w: World, o: PeerOracle): (r: PeerOutcome)
    ensures r.w.refs == w.refs && r.w.heap == w.heap
    ensures (|| c.pmeth.None?
             || !(c.pmeth.value.hasDerive || c.pmeth.value.hasEncrypt || c.pmeth.value.hasDecrypt)
             || !c.pmeth.value.hasCtrl) ==>
      r == PeerOutcome(-2, c, w)
    // A usable method on a context not initialised for derive, encrypt or decrypt: -1.
    ensures (&& c.pmeth.Some?
             && (c.pmeth.value.hasDerive || c.pmeth.value.hasEncrypt || c.pmeth.value.hasDecrypt)
             && c.pmeth.value.hasCtrl
             && c.operation !in {OpDerive, OpEncrypt, OpDecrypt}) ==>
      r == PeerOutcome(-1, c, w)
    // Success that goes through the key checks stores the peer and takes a reference on it.
    ensures r.ret == 1 && r.ctx != c ==>
      && r.ctx == c.(peerkey := Some(peer))
      && r.w.keyRefs == Acquire(ReleaseOpt(w.keyRefs, if c.peerkey.Some? then Some(c.peerkey.value.objId) else None),
                                peer.objId)
  {
    if c.pmeth.None? || !(c.pmeth.value.hasDerive || c.pmeth.value.hasEncrypt || c.pmeth.value.hasDecrypt)
       || !c.pmeth.value.hasCtrl then PeerOutcome(-2, c, w)
    else if c.operation != OpDerive && c.operation != OpEncrypt && c.operation != OpDecrypt then PeerOutcome(-1, c, w)
    else if o.ctrl0 <= 0 then PeerOutcome(o.ctrl0, c, w)
    else if o.ctrl0 == 2 then PeerOutcome(1, c, w)
    else if c.pkey.None? then PeerOutcome(-1, c, w)
    else if c.pkey.value.keyType != peer.keyType then PeerOutcome(-1, c, w)
    else if !peer.missingParams && o.cmpParams == 0 then PeerOutcome(-1, c, w)
    else
      var keyRefs := ReleaseOpt(w.keyRefs, if c.peerkey.Some? then Some(c.peerkey.value.objId) else None);
      if o.ctrl1 <= 0 then PeerOutcome(o.ctrl1, c.(peerkey := None), w.(keyRefs := keyRefs))
      else PeerOutcome(1, c.(peerkey := Some(peer)), w.(keyRefs := Acquire(keyRefs, peer.objId)))
  }

  /** `EVP_PKEY_derive_set_peer` (exchange.c:249-343). */
  function SetPeer(c: Option<PkeyCtx>, peer: Pkey, w: World, o: PeerOracle): (r: PeerOutcome)
    requires c.Some? ==> WellFormed(c.value)
    ensures c.None? ==> r.ret == -2 && r.w == w
    // Provider path: not initialised for derive is -1, an exchange without set_peer is -2,
    // a key that cannot be exported is 0; otherwise the provider decides.
    ensures c.Some? && c.value.exchprovctx.Some? ==>
      && r.ctx == c.value && r.w == w
      && r.ret == (if c.value.operation != OpDerive then -1
                   else if !c.value.exchange.value.Has(CoreNumbers.FUNC_KEYEXCH_SET_PEER) then -2
                   else if !o.exportOk then 0
                   else o.setPeer)
    ensures c.Some? && c.value.exchprovctx.None? ==> r == SetPeerLegacy(c.value, peer, w, o)
  {
    if c.None? then PeerOutcome(-2, PkeyCtx(OpUndefined, false, None, None, None, None, None), w)
    else
      var x := c.value;
      if x.exchprovctx.None? then SetPeerLegacy(x, peer, w, o)
      else if x.operation != OpDerive then PeerOutcome(-1, x, w)
      else if !x.exchange.value.Has(CoreNumbers.FUNC_KEYEXCH_SET_PEER) then PeerOutcome(-2, x, w)
      else if !o.exportOk then PeerOutcome(0, x, w)
      else PeerOutcome(o.setPeer, x, w)
  }

  // ---------------------------------------------------------------------
  // Deriving.

  /**
    What `EVP_PKEY_derive` does: return a code itself, hand over to the
    provider's derive on a provider context with a given output limit, or
    hand over to the legacy derive.
   */
  datatype DeriveCall = Code(ret: int) | ProviderDerive(provctx: Token, outlen: nat) | LegacyDerive

  /** `EVP_PKEY_derive` (exchange.c:345-375). */
  function Derive(c: Option<PkeyCtx>): (r: DeriveCall)
    ensures c.None? ==> r == Code(-2)
    ensures c.Some? && c.value.operation != OpDerive ==> r == Code(-1)
    // An initialised provider context is handed to the provider with no output limit.
    ensures c.Some? && c.value.operation == OpDerive && c.value.exchprovctx.Some? ==>
      r == ProviderDerive(c.value.exchprovctx.value, SIZE_MAX)
    ensures c.Some? && c.value.operation == OpDerive && c.value.exchprovctx.None? ==>
      r == (if c.value.pmeth.None? || !c.value.pmeth.value.hasDerive then Code(-2) else LegacyDerive)
  {
    if c.None? then Code(-2)
    else if c.value.operation != OpDerive then Code(-1)
    else if c.value.exchprovctx.Some? then ProviderDerive(c.value.exchprovctx.value, SIZE_MAX)
    else if c.value.pmeth.None? || !c.value.pmeth.value.hasDerive then Code(-2)
    else LegacyDerive
  }

  /**
    An init that fails at one of its own checks (no exchange found, a key
    that cannot be exported, a newctx failure) leaves the context unable to
    derive or take a peer: both report "not initialised" (-1) instead of
    reaching the provider.
   */
  lemma FailedInitBlocksDerive(c: PkeyCtx, exchange: Option<KeyExch>, w: World, o: InitOracle, peer: Pkey, po: PeerOracle)
    requires HeapInv(w.heap)
    requires InitCallable(c, exchange, o)
    requires !Route(c.(operation := OpDerive), exchange, o).Legacy?
    requires !ProviderInitRefused(c, exchange, o)
    requires DeriveInit(c, exchange, w, o).ret == 0
    ensures Derive(Some(DeriveInit(c, exchange, w, o).ctx)) == Code(-1)
    ensures DeriveInit(c, exchange, w, o).ctx.exchprovctx.Some? ==>
      SetPeer(Some(DeriveInit(c, exchange, w, o).ctx), peer, w, po).ret == -1
  {
  }

  /**
    A refusal by the provider's init does not block the context: derive and
    set_peer still go to the provider, with the provider context init made.
   */
  lemma RefusedInitStillReachesProvider(c: PkeyCtx, exchange: Option<KeyExch>, w: World, o: InitOracle,
                                        peer: Pkey, po: PeerOracle)
    requires HeapInv(w.heap)
    requires InitCallable(c, exchange, o)
    requires ProviderInitRefused(c, exchange, o)
    ensures var r := DeriveInit(c, exchange, w, o);
            && r.ret == 0 && r.ctx.exchprovctx.Some?
            && Derive(Some(r.ctx)) == ProviderDerive(r.ctx.exchprovctx.value, SIZE_MAX)
            && SetPeer(Some(r.ctx), peer, r.w, po).ret
                 == (if !r.ctx.exchange.value.Has(CoreNumbers.FUNC_KEYEXCH_SET_PEER) then -2
                     else if !po.exportOk then 0 else po.setPeer)
  {
  }

  /**
    Init, set_peer and derive work together: after a successful provider
    init, set_peer goes to the provider without changing the context, and
    derive hands the provider context init just created to the provider.
   */
  lemma InitThenDeriveReachesProvider(c: PkeyCtx, exchange: Option<KeyExch>, w: World, o: InitOracle,
                                      peer: Pkey, po: PeerOracle)
    requires HeapInv(w.heap)
    requires InitCallable(c, exchange, o)
    requires Route(c.(operation := OpDerive), exchange, o).Provider?
    requires DeriveInit(c, exchange, w, o).ret == 1
    ensures var r := DeriveInit(c, exchange, w, o);
            var p := SetPeer(Some(r.ctx), peer, r.w, po);
            && r.ctx.exchprovctx.Some?
            && r.ctx.exchprovctx.value in r.w.heap.live && r.ctx.exchprovctx.value !in w.heap.live
            && p.ctx == r.ctx && p.w == r.w
            && Derive(Some(p.ctx)) == ProviderDerive(r.ctx.exchprovctx.value, SIZE_MAX)
  {
  }

  /**
    Replacing a legacy peer: two successful legacy set_peers with
    different keys leave exactly one reference, on the second key; the
    first key's count is back where it started.
   */
  lemma LegacyPeerReplaced(c: PkeyCtx, p1: Pkey, p2: Pkey, w: World, o: PeerOracle)
    requires c.peerkey.None? && p1.objId != p2.objId
    requires SetPeerLegacy(c, p1, w, o).ret == 1 && SetPeerLegacy(c, p1, w, o).ctx != c
    requires var r1 := SetPeerLegacy(c, p1, w, o);
             SetPeerLegacy(r1.ctx, p2, r1.w, o).ret == 1 && SetPeerLegacy(r1.ctx, p2, r1.w, o).ctx != r1.ctx
    ensures var r1 := SetPeerLegacy(c, p1, w, o);
            var r2 := SetPeerLegacy(r1.ctx, p2, r1.w, o);
            && r2.ctx.peerkey == Some(p2)
            && Held(r2.w.keyRefs, p1.objId) == Held(w.keyRefs, p1.objId)
            && Held(r2.w.keyRefs, p2.objId) == Held(w.keyRefs, p2.objId) + 1
  {
  }
}

=== FILE: dh_exch.dfy ===
/**
  The default provider's DH key exchange (providers/common/exchange/dh_exch.c):
  a context holding the own key, the peer key and the padding flag, the
  length negotiation of `dh_derive`, and the dispatch table handed to the
  core.

  DH keys are reference-counted objects known by identity; `DH_size` is
  a field of the key and the two compute functions are an oracle, since
  the DH arithmetic is not part of this model.
 */
module DhExchange {
  import opened Common
  import CoreNumbers
  import opened Dispatch
  import KeyExchange
  import DeriveContext

  /** A DH key: its identity and `DH_size`, the byte length of its prime. */
  datatype Dh = Dh(objId: ObjId, size: nat)

  /** `PROV_DH_CTX` (dh_exch.c:30-34). */
  datatype DhCtx = DhCtx(dh: Option<Dh>, dhpeer: Option<Dh>, pad: int)

  /** A freshly zero-allocated context. */
  const ZeroCtx: DhCtx := DhCtx(None, None, 0)

  function IdOf(k: Option<Dh>): Option<ObjId>
  {
    if k.Some? then Some(k.value.objId) else None
  }

  /**
    `dh_newctx` (dh_exch.c:36-39). `allocOk` is the allocation succeeding;
    the result is the new context and its token.
   */
  function DhNewCtx(h: Heap, allocOk: bool): (r: (Option<(Token, DhCtx)>, Heap))
    requires HeapInv(h)
    ensures !allocOk ==> r == (None, h)
    ensures allocOk ==>
      && r.0.Some? && r.0.value.1 == ZeroCtx
      && r.0.value.0 !in h.live && r.1.live == h.live + {r.0.value.0}
    ensures HeapInv(r.1)
  {
    if !allocOk then (None, h)
    else
      var (t, h1) := Allocate(h);
      (Some((t, ZeroCtx)), h1)
  }

  /**
    `dh_init` (dh_exch.c:41-50): the previous own key is released and the
    new one referenced; the result says whether a key is now set.
   */
  function DhInit(c: DhCtx, k: Option<Dh>, keyRefs: Ledger): (r: (int, DhCtx, Ledger))
    ensures r.0 == (if k.Some? then 1 else 0)
    ensures r.1 == c.(dh := k)
    ensures r.2 == AcquireOpt(ReleaseOpt(keyRefs, IdOf(c.dh)), IdOf(k))
  {
    ((if k.Some? then 1 else 0), c.(dh := k), AcquireOpt(ReleaseOpt(keyRefs, IdOf(c.dh)), IdOf(k)))
  }

  /** `dh_set_peer` (dh_exch.c:52-61): the same exchange for the peer key. */
  function DhSetPeer(c: DhCtx, k: Option<Dh>, keyRefs: Ledger): (r: (int, DhCtx, Ledger))
    ensures r.0 == (if k.Some? then 1 else 0)
    ensures r.1 == c.(dhpeer := k)
    ensures r.2 == AcquireOpt(ReleaseOpt(keyRefs, IdOf(c.dhpeer)), IdOf(k))
  {
    ((if k.Some? then 1 else 0), c.(dhpeer := k), AcquireOpt(ReleaseOpt(keyRefs, IdOf(c.dhpeer)), IdOf(k)))
  }

  /**
    Re-binding keeps the reference counts balanced: after replacing key `a`
    by key `b`, `a` holds one reference fewer and `b` one more (nothing
    changes when they are the same key), and every other key is untouched.
   */
  lemma RebindMovesReference(c: DhCtx, a: Dh, b: Dh, keyRefs: Ledger)
    requires c.dh == Some(a)
    ensures var l := DhInit(c, Some(b), keyRefs).2;
            && (a.objId != b.objId ==>
                  Held(l, a.objId) == Held(keyRefs, a.objId) - 1 && Held(l, b.objId) == Held(keyRefs, b.objId) + 1)
            && (a.objId == b.objId ==> Held(l, a.objId) == Held(keyRefs, a.objId))
            && forall o :: o != a.objId && o != b.objId ==> Held(l, o) == Held(keyRefs, o)
  {
  }

  /**
    The results of `DH_compute_key` and `DH_compute_key_padded` for the
    context's keys (the number of bytes written, or a value <= 0 on error).
   */
  datatype DhCompute = DhCompute(plain: int, padded: int)

  /** What `dh_derive` reports: its return value and what it stored in `*keylen`, if anything. */
  datatype DeriveAnswer = DeriveAnswer(ret: int, keylen: Option<int>)

  /**
    `dh_derive` (dh_exch.c:63-91). `wantKey` is `key != NULL`; `outlen` is
    the capacity of the output buffer.
   */
  function DhDerive(c: DhCtx, wantKey: bool, outlen: SizeT, comp: DhCompute): (r: DeriveAnswer)
    // Both keys are needed, even for a length query.
    ensures c.dh.None? || c.dhpeer.None? ==> r == DeriveAnswer(0, None)
    // Length query: the size of the own key, nothing computed.
    ensures c.dh.Some? && c.dhpeer.Some? && !wantKey ==> r == DeriveAnswer(1, Some(c.dh.value.size))
    // A buffer smaller than that size is refused.
    ensures c.dh.Some? && c.dhpeer.Some? && wantKey && outlen < c.dh.value.size ==> r == DeriveAnswer(0, None)
    // Otherwise the result is the selected computation's length, when positive.
    ensures c.dh.Some? && c.dhpeer.Some? && wantKey && outlen >= c.dh.value.size ==>
      var n := if c.pad != 0 then comp.padded else comp.plain;
      r == (if n <= 0 then DeriveAnswer(0, None) else DeriveAnswer(1, Some(n)))
    ensures r.ret == 0 || r.ret == 1
    ensures r.ret == 0 <==> r.keylen.None?
  {
    if c.dh.None? || c.dhpeer.None? then DeriveAnswer(0, None)
    else
      var size := c.dh.value.size;
      if !wantKey then DeriveAnswer(1, Some(size))
      else if outlen < size then DeriveAnswer(0, None)
      else
        var n := if c.pad != 0 then comp.padded else comp.plain;
        if n <= 0 then DeriveAnswer(0, None) else DeriveAnswer(1, Some(n))
  }

  /**
    The length negotiation: the length a query reports is always enough
    for the derivation that follows, which then fails only when the
    computation itself does.
   */
  lemma QueriedLengthSuffices(c: DhCtx, comp: DhCompute)
    requires c.dh.Some? && c.dhpeer.Some? && c.dh.value.size <= SIZE_MAX
    ensures var q := DhDerive(c, false, 0, comp);
            && q.ret == 1
            && DhDerive(c, true, q.keylen.value, comp).ret == 1 <==>
                 (if c.pad != 0 then comp.padded else comp.plain) > 0
  {
  }

  /**
    EVP_PKEY_derive hands the provider an unlimited buffer (SIZE_MAX), so
    for any key of a representable size the too-small branch of
    `dh_derive` is never taken: the outcome depends only on the keys and
    the computation.
   */
  lemma EvpDeriveNeverTooSmall(pc: DeriveContext.PkeyCtx, c: DhCtx, comp: DhCompute)
    requires DeriveContext.Derive(Some(pc)).ProviderDerive?
    requires c.dh.Some? ==> c.dh.value.size <= SIZE_MAX
    ensures var outlen := DeriveContext.Derive(Some(pc)).outlen;
            && outlen == SIZE_MAX
            && DhDerive(c, true, outlen, comp).ret == 1 <==>
                 && c.dh.Some? && c.dhpeer.Some?
                 && (if c.pad != 0 then comp.padded else comp.plain) > 0
  {
  }

  /**
    `dh_freectx` (dh_exch.c:93-101): both keys are released and the
    context is freed.
   */
  function DhFreeCtx(t: Token, c: DhCtx, keyRefs: Ledger, h: Heap): (r: (Ledger, Heap))
    ensures r.0 == ReleaseOpt(ReleaseOpt(keyRefs, IdOf(c.dh)), IdOf(c.dhpeer))
    ensures r.1.live == h.live - {t}
  {
    (ReleaseOpt(ReleaseOpt(keyRefs, IdOf(c.dh)), IdOf(c.dhpeer)), Dispose(h, t))
  }

  /**
    `dh_dupctx` (dh_exch.c:103-123). The allocation is assumed to succeed:
    the source copies into it without checking. `upOk1` and `upOk2` are
    the outcomes of up-referencing the own and the peer key.
   */
  function DhDupCtx(c: DhCtx, upOk1: bool, upOk2: bool, keyRefs: Ledger, h: Heap): (r: (Option<(Token, DhCtx)>, Ledger, Heap))
    requires HeapInv(h)
    ensures r.0.Some? <==> (c.dh.None? || upOk1) && (c.dhpeer.None? || upOk2)
    // The copy has every field of the original and its own reference on each key.
    ensures r.0.Some? ==>
      && r.0.value.1 == c
      && r.0.value.0 !in h.live && r.2.live == h.live + {r.0.value.0}
      && r.1 == AcquireOpt(AcquireOpt(keyRefs, IdOf(c.dh)), IdOf(c.dhpeer))
    // A failure frees the copy and gives back any reference it took.
    ensures r.0.None? ==> SameCounts(r.1, keyRefs) && r.2.live == h.live
    ensures HeapInv(r.2)
  {
    var (t, h1) := Allocate(h);
    if c.dh.Some? && !upOk1 then (None, keyRefs, Dispose(h1, t))
    else
      var l1 := AcquireOpt(keyRefs, IdOf(c.dh));
      if c.dhpeer.Some? && !upOk2 then (None, ReleaseOpt(l1, IdOf(c.dh)), Dispose(h1, t))
      else (Some((t, c)), AcquireOpt(l1, IdOf(c.dhpeer)), h1)
  }

  /**
    A duplicate is independent of its original: freeing it gives back
    exactly the references the duplication took.
   */
  lemma DupThenFreeBalanced(c: DhCtx, upOk1: bool, upOk2: bool, keyRefs: Ledger, h: Heap)
    requires HeapInv(h)
    requires DhDupCtx(c, upOk1, upOk2, keyRefs, h).0.Some?
    ensures var (d, l, h1) := DhDupCtx(c, upOk1, upOk2, keyRefs, h);
            var (l2, h2) := DhFreeCtx(d.value.0, d.value.1, l, h1);
            SameCounts(l2, keyRefs) && h2.live == h.live
  {
  }

  /**
    `dh_set_params` (dh_exch.c:125-141): a NULL context or parameter array,
    or a pad parameter that is missing or not an integer, fails; otherwise
    the pad flag takes the parameter's value.
   */
  function DhSetParams(c: Option<DhCtx>, params: Option<seq<Param>>): (r: (int, Option<DhCtx>))
    ensures c.None? || params.None? ==> r == (0, c)
    ensures c.Some? && params.Some? ==>
      var i := Locate(params.value, ExchangePad);
      && (r.0 == 1 <==> i.Some? && params.value[i.value].intValue.Some?)
      && (r.0 == 1 ==> r.1 == Some(c.value.(pad := params.value[i.value].intValue.value)))
      && (r.0 == 0 ==> r.1 == c)
  {
    if c.None? || params.None? then (0, c)
    else
      match Locate(params.value, ExchangePad)
      case None => (0, c)
      case Some(i) =>
        if params.value[i].intValue.None? then (0, c)
        else (1, Some(c.value.(pad := params.value[i].intValue.value)))
  }

  /**
    Setting the pad parameter chooses the computation the next derive
    uses: a non-zero value selects the padded variant, zero the plain one.
   */
  lemma SetParamsSelectsComputation(c: DhCtx, params: seq<Param>, outlen: SizeT, comp: DhCompute)
    requires c.dh.Some? && c.dhpeer.Some? && outlen >= c.dh.value.size
    requires DhSetParams(Some(c), Some(params)).0 == 1
    ensures var pad := params[Locate(params, ExchangePad).value].intValue.value;
            var d := DhDerive(DhSetParams(Some(c), Some(params)).1.value, true, outlen, comp);
            && (pad != 0 && comp.padded > 0 ==> d == DeriveAnswer(1, Some(comp.padded)))
            && (pad == 0 && comp.plain > 0 ==> d == DeriveAnswer(1, Some(comp.plain)))
  {
  }

  // ---------------------------------------------------------------------
  // The dispatch table.

  /** The functions of the table, as code addresses. */
  const DH_NEWCTX: FnRef := 101
  const DH_INIT: FnRef := 102
  const DH_DERIVE: FnRef := 103
  const DH_SET_PEER: FnRef := 104
  const DH_FREECTX: FnRef := 105
  const DH_DUPCTX: FnRef := 106
  const DH_SET_PARAMS: FnRef := 107

  /** `dh_keyexch_functions` (dh_exch.c:143-152). */
  const DhKeyexchFunctions: seq<DispatchEntry> := [
    DispatchEntry(CoreNumbers.FUNC_KEYEXCH_NEWCTX, Some(DH_NEWCTX)),
    DispatchEntry(CoreNumbers.FUNC_KEYEXCH_INIT, Some(DH_INIT)),
    DispatchEntry(CoreNumbers.FUNC_KEYEXCH_DERIVE, Some(DH_DERIVE)),
    DispatchEntry(CoreNumbers.FUNC_KEYEXCH_SET_PEER, Some(DH_SET_PEER)),
    DispatchEntry(CoreNumbers.FUNC_KEYEXCH_FREECTX, Some(DH_FREECTX)),
    DispatchEntry(CoreNumbers.FUNC_KEYEXCH_DUPCTX, Some(DH_DUPCTX)),
    DispatchEntry(CoreNumbers.FUNC_KEYEXCH_SET_PARAMS, Some(DH_SET_PARAMS)),
    DispatchEntry(CoreNumbers.DISPATCH_END, None)]

  /** The table read up to its terminator: the seven function entries, in order. */
  lemma DhTableLive()
    ensures Live(DhKeyexchFunctions) == DhKeyexchFunctions[..7]
  {
    var d := DhKeyexchFunctions;
    assert Live(d[7..]) == [];
    assert d[6..][1..] == d[7..];
    assert d[5..][1..] == d[6..];
    assert d[4..][1..] == d[5..];
    assert d[3..][1..] == d[4..];
    assert d[2..][1..] == d[3..];
    assert d[1..][1..] == d[2..];
    assert Live(d[6..]) == d[6..7];
    assert Live(d[5..]) == d[5..7];
    assert Live(d[4..]) == d[4..7];
    assert Live(d[3..]) == d[3..7];
    assert Live(d[2..]) == d[2..7];
    assert Live(d[1..]) == d[1..7];
  }

  /** The functions the adapter should keep from the table, by identity. */
  const DhFunctionMap: map<int, FnRef> := map[
    CoreNumbers.FUNC_KEYEXCH_NEWCTX := DH_NEWCTX, CoreNumbers.FUNC_KEYEXCH_INIT := DH_INIT,
    CoreNumbers.FUNC_KEYEXCH_DERIVE := DH_DERIVE, CoreNumbers.FUNC_KEYEXCH_SET_PEER := DH_SET_PEER,
    CoreNumbers.FUNC_KEYEXCH_FREECTX := DH_FREECTX, CoreNumbers.FUNC_KEYEXCH_DUPCTX := DH_DUPCTX,
    CoreNumbers.FUNC_KEYEXCH_SET_PARAMS := DH_SET_PARAMS]

  /** Scanning the table fills every slot with the table's own function and counts the four mandatory ones. */
  lemma DhTableFilled()
    ensures Scan(DhKeyexchFunctions, KeyExchange.KeyexchSpec) == Slots(DhFunctionMap, 4)
  {
    DhTableLive();
    var d := DhKeyexchFunctions;
    var spec := KeyExchange.KeyexchSpec;
    assert d[..1][..0] == [];
    assert ScanEntries(d[..1], spec) == Slots(map[1 := 101], 1);
    assert d[..2][..1] == d[..1];
    assert ScanEntries(d[..2], spec) == Slots(map[1 := 101, 2 := 102], 2);
    assert d[..3][..2] == d[..2];
    assert ScanEntries(d[..3], spec) == Slots(map[1 := 101, 2 := 102, 3 := 103], 3);
    assert d[..4][..3] == d[..3];
    assert ScanEntries(d[..4], spec) == Slots(map[1 := 101, 2 := 102, 3 := 103, 4 := 104], 3);
    assert d[..5][..4] == d[..4];
    assert ScanEntries(d[..5], spec) == Slots(map[1 := 101, 2 := 102, 3 := 103, 4 := 104, 5 := 105], 4);
    assert d[..6][..5] == d[..5];
    assert ScanEntries(d[..6], spec) == Slots(map[1 := 101, 2 := 102, 3 := 103, 4 := 104, 5 := 105, 6 := 106], 4);
    assert d[..7][..6] == d[..6];
  }

  /**
    The DH table passes the key-exchange adapter: the method is built
    whenever its allocations succeed, with all seven functions, the
    optional set_peer, dupctx and set_params included.
   */
  lemma DhTableAccepted(objId: ObjId, prov: Option<ObjId>, w: KeyExchange.RefWorld)
    requires objId !in w.live && Held(w.exRefs, objId) == 0
    ensures var r := KeyExchange.KeyexchFromDispatch(objId, "dhKeyAgreement", DhKeyexchFunctions, prov, true, true, w);
            r.0.Some? && r.0.value.fns == DhFunctionMap
  {
    DhTableFilled();
  }
}

=== FILE: digest_ctx.dfy ===
/**
  The EVP_MD_CTX state machine of crypto/evp/digest.c: reset, free, init,
  update, final, XOF final, copy, the parameter pass-throughs and the
  one-shot `EVP_Digest`. A context takes the provider path when its digest
  has a provider and the legacy path otherwise.

  ENGINEs are not part of this model: the context's ENGINE, the `impl`
  argument and the ENGINE registered for a digest are all NULL. Provider
  functions, the EVP_PKEY_CTX control and duplication calls and memory
  allocation appear as parameters standing for their outcome.
 */
module DigestContext {
  import opened Common
  import CoreNumbers
  import opened DigestMethod
  import Dispatch

  /** EVP_MD_CTX_FLAG_* bits the modelled code reads or writes. */
  datatype CtxFlag = Cleaned | Reuse | NoInit | KeepPkeyCtx | Oneshot

  /**
    An EVP_MD_CTX: the digest in use, the one the context fetched itself
    (and holds a reference on), the one last requested, the provider-side
    context, the flags, the EVP_PKEY_CTX of a signing context, and whether
    legacy digest data and a legacy update function are attached.
   */
  datatype MdCtx = MdCtx(
    digest: Option<Md>,
    fetched: Option<Md>,
    reqdigest: Option<Md>,
    provctx: Option<Token>,
    flags: set<CtxFlag>,
    pctx: Option<ObjId>,
    mdData: bool,
    update: bool)
  {
    /** The context's digest has a provider: operations take the provider path. */
    predicate OnProviderPath()
    {
      digest.Some? && digest.value.IsProvided()
    }
  }

  /** A freshly allocated (zeroed) context. */
  const EmptyCtx: MdCtx := MdCtx(None, None, None, None, {}, None, false, false)

  /** `EVP_MAX_MD_SIZE`: the legacy path asserts the digest size stays within it. */
  const MAX_MD_SIZE: nat := 64

  /**
    What lives outside the context: allocated provider contexts, the
    reference counts of digest methods and the live EVP_PKEY_CTX objects.
   */
  datatype World = World(heap: Heap, mdRefs: Ledger, pkeyCtxs: set<ObjId>)

  /** The result of an operation: its return code, the context and the world afterwards. */
  datatype Outcome = Outcome(ret: int, ctx: MdCtx, w: World)

  /** The object identity behind a method pointer that may be NULL. */
  function IdOf(m: Option<Md>): (r: Option<ObjId>)
    ensures r.Some? <==> m.Some?
    ensures m.Some? ==> r.value == m.value.objId
  {
    if m.Some? then Some(m.value.objId) else None
  }

  /** The context's provider context, if any, is allocated. */
  ghost predicate Inv(c: MdCtx, w: World)
  {
    HeapInv(w.heap) && (c.provctx.Some? ==> c.provctx.value in w.heap.live)
  }

  // ---------------------------------------------------------------------
  // Reset and free.

  /**
    The legacy tail of `EVP_MD_CTX_reset` (digest.c:43-71): frees the
    EVP_PKEY_CTX unless the caller keeps it, then wipes the whole context.
    The legacy cleanup and the legacy digest data only affect memory that
    is wiped anyway.
   */
  function ResetLegacy(c: MdCtx, w: World): (r: (MdCtx, World))
    ensures r.0 == EmptyCtx
    ensures r.1.heap == w.heap && r.1.mdRefs == w.mdRefs
    ensures c.pctx.Some? && KeepPkeyCtx !in c.flags ==> r.1.pkeyCtxs == w.pkeyCtxs - {c.pctx.value}
    ensures c.pctx.None? || KeepPkeyCtx in c.flags ==> r.1.pkeyCtxs == w.pkeyCtxs
  {
    var w' := if c.pctx.Some? && KeepPkeyCtx !in c.flags then w.(pkeyCtxs := w.pkeyCtxs - {c.pctx.value}) else w;
    (EmptyCtx, w')
  }

  /** `EVP_MD_CTX_reset` on a context that exists (digest.c:27-71). */
  function ResetCtx(c: MdCtx, w: World): (r: (MdCtx, World))
    // Afterwards no provider context is attached, and no method reference moved.
    ensures r.0.provctx.None?
    ensures r.1.mdRefs == w.mdRefs
    // Provider path: the provider context is freed through freectx (when the digest has one) and CLEANED is set.
    ensures c.OnProviderPath() && c.provctx.Some? ==>
      Cleaned in r.0.flags || r.0 == EmptyCtx
    ensures c.OnProviderPath() && c.provctx.Some? && c.digest.value.Has(CoreNumbers.FUNC_DIGEST_FREECTX) ==>
      r.1.heap == Dispose(w.heap, c.provctx.value)
    ensures !(c.OnProviderPath() && c.provctx.Some? && c.digest.value.Has(CoreNumbers.FUNC_DIGEST_FREECTX)) ==>
      r.1.heap == w.heap
    // Without an EVP_PKEY_CTX the provider path keeps the digest bindings; otherwise the context is wiped.
    ensures c.OnProviderPath() && c.pctx.None? ==>
      && r.0.digest == c.digest && r.0.fetched == c.fetched && r.0.reqdigest == c.reqdigest
      && r.0.flags - {Cleaned} == c.flags - {Cleaned}
      && r.1.pkeyCtxs == w.pkeyCtxs
    ensures !c.OnProviderPath() || c.pctx.Some? ==> r.0 == EmptyCtx
  {
    if !c.OnProviderPath() then ResetLegacy(c, w)
    else
      var c1 := if c.provctx.Some? then c.(provctx := None, flags := c.flags + {Cleaned}) else c;
      var w1 := if c.provctx.Some? && c.digest.value.Has(CoreNumbers.FUNC_DIGEST_FREECTX)
                then w.(heap := Dispose(w.heap, c.provctx.value)) else w;
      if c1.pctx.Some? then ResetLegacy(c1, w1) else (c1, w1)
  }

  /** `EVP_MD_CTX_reset` (digest.c:22-72): a NULL context is a no-op, and the result is always 1. */
  function Reset(c: Option<MdCtx>, w: World): (r: (int, Option<MdCtx>, World))
    ensures r.0 == 1
    ensures c.None? ==> r.1.None? && r.2 == w
    ensures c.Some? ==> r.1.Some? && r.1.value.provctx.None?
  {
    if c.None? then (1, None, w)
    else
      var (c', w') := ResetCtx(c.value, w);
      (1, Some(c'), w')
  }

  /** Resetting twice is resetting once: the second reset finds nothing left to release. */
  lemma ResetIdempotent(c: MdCtx, w: World)
    ensures var (c1, w1) := ResetCtx(c, w);
            ResetCtx(c1, w1) == (c1, w1)
  {
  }

  /** Reset keeps the invariant: no provider context is left behind, and freeing keeps the heap sound. */
  lemma ResetKeepsInv(c: MdCtx, w: World)
    requires Inv(c, w)
    ensures Inv(ResetCtx(c, w).0, ResetCtx(c, w).1)
  {
  }

  /**
    `EVP_MD_CTX_free` (digest.c:79-101): reset, then on the provider path
    release the reference on the digest the context fetched (what is left
    of it after the reset). Returns the world afterwards.
   */
  function Free(c: Option<MdCtx>, w: World): (r: World)
    ensures c.None? ==> r == w
    ensures c.Some? ==> r.heap == ResetCtx(c.value, w).1.heap && r.pkeyCtxs == ResetCtx(c.value, w).1.pkeyCtxs
    // A provider context without an EVP_PKEY_CTX gives back its fetched reference.
    ensures c.Some? && c.value.OnProviderPath() && c.value.pctx.None? ==>
      r.mdRefs == ReleaseOpt(w.mdRefs, IdOf(c.value.fetched))
    // Otherwise the reset wiped the fetched pointer before it could be released.
    ensures c.Some? && !(c.value.OnProviderPath() && c.value.pctx.None?) ==> r.mdRefs == w.mdRefs
  {
    if c.None? then w
    else
      var (c1, w1) := ResetCtx(c.value, w);
      if !c.value.OnProviderPath() then w1
      else w1.(mdRefs := ReleaseOpt(w1.mdRefs, IdOf(c1.fetched)))
  }

  // ---------------------------------------------------------------------
  // Initialisation.

  /**
    Outcomes of the calls `EVP_DigestInit_ex` makes: the implicit fetch of
    a provider digest for a legacy one, the provider's newctx, its init,
    the EVP_PKEY_CTX control, the legacy data allocation and the legacy init.
   */
  datatype InitOracle = InitOracle(fetch: Option<Md>, newctxOk: bool, dinit: int, pkeyCtrl: int,
                                   allocOk: bool, legacyInit: int)

  /** Init goes the legacy way: a signing context or NO_INIT. */
  predicate InitGoesLegacy(c: MdCtx)
  {
    c.pctx.Some? || NoInit in c.flags
  }

  /** The digest the provider path ends up binding (the implicit fetch replaces a legacy one). */
  function ProviderType(t: Md, o: InitOracle): Md
  {
    if !t.IsProvided() && o.fetch.Some? then o.fetch.value else t
  }

  /** The existing provider context survives init: it is there and the digest does not change. */
  predicate ProvctxSurvives(c: MdCtx, t: Md)
  {
    c.provctx.Some? && !(c.digest.Some? && c.digest.value != t)
  }

  /**
    The calls `EVP_DigestInit_ex` makes through pointers are defined: the
    provider path needs a digest (digest.c:171) and a newctx whenever it
    has to create a provider context (196); the legacy path needs a legacy
    init unless NO_INIT is set (280).
   */
  ghost predicate InitCallable(c: MdCtx, typ: Option<Md>, o: InitOracle)
  {
    if InitGoesLegacy(c) then
      var digest := if c.digest == c.fetched then None else c.digest;
      var t := if typ.Some? then typ else digest;
      t.Some? && NoInit !in c.flags ==> t.value.hasInit
    else
      && typ.Some?
      && (typ.value.IsProvided() || o.fetch.Some? ==>
            var t := ProviderType(typ.value, o);
            ProvctxSurvives(c, t) || t.Has(CoreNumbers.FUNC_DIGEST_NEWCTX))
  }

  /**
    Binding a provider digest (digest.c:189-194): a provider context made
    for a different digest is freed (through that digest's freectx, when it
    has one) and dropped; then the digest is bound.
   */
  function BindProvided(c: MdCtx, t: Md, w: World): (r: (MdCtx, World))
    requires HeapInv(w.heap)
    ensures r.0 == c.(digest := Some(t), provctx := r.0.provctx)
    ensures r.1 == w.(heap := r.1.heap) && HeapInv(r.1.heap) && r.1.heap.next == w.heap.next
    ensures r.1.heap.live <= w.heap.live
    ensures ProvctxSurvives(c, t) ==> r.0.provctx == c.provctx && r.1.heap == w.heap
    ensures !ProvctxSurvives(c, t) ==> r.0.provctx.None?
    ensures c.provctx.None? ==> r.1.heap == w.heap
    ensures c.provctx.Some? && !ProvctxSurvives(c, t) && c.digest.value.Has(CoreNumbers.FUNC_DIGEST_FREECTX) ==>
      c.provctx.value !in r.1.heap.live
    ensures Inv(c, w) ==> Inv(r.0, r.1)
  {
    if c.provctx.Some? && c.digest.Some? && c.digest.value != t then
      var w' := if c.digest.value.Has(CoreNumbers.FUNC_DIGEST_FREECTX)
                then w.(heap := Dispose(w.heap, c.provctx.value)) else w;
      (c.(provctx := None, digest := Some(t)), w')
    else (c.(digest := Some(t)), w)
  }

  /**
    Starting the provider digest (digest.c:195-208): create a provider
    context with newctx when there is none, then call the provider's init,
    failing when either is missing or fails.
   */
  function StartProvided(c: MdCtx, w: World, o: InitOracle): (r: Outcome)
    requires HeapInv(w.heap) && c.digest.Some?
    requires c.provctx.None? ==> c.digest.value.Has(CoreNumbers.FUNC_DIGEST_NEWCTX)
    ensures r.ctx == c.(provctx := r.ctx.provctx)
    ensures r.w == w.(heap := r.w.heap) && HeapInv(r.w.heap)
    ensures c.provctx.Some? ==> r.ctx == c && r.w == w
    ensures c.provctx.None? && !o.newctxOk ==> r == Outcome(0, c, w)
    ensures c.provctx.None? && o.newctxOk ==>
      && r.ctx.provctx == Some(w.heap.next) && r.ctx.provctx.value !in w.heap.live
      && r.w.heap.live == w.heap.live + {r.ctx.provctx.value}
    ensures !c.digest.value.Has(CoreNumbers.FUNC_DIGEST_INIT) ==> r.ret == 0
    ensures r.ret != 0 ==> r.ctx.provctx.Some? && r.ret == o.dinit
  {
    if c.provctx.None? && !o.newctxOk then Outcome(0, c, w)
    else
      var (c1, w1) := if c.provctx.None?
                      then var (tok, h) := Allocate(w.heap); (c.(provctx := Some(tok)), w.(heap := h))
                      else (c, w);
      if !c.digest.value.Has(CoreNumbers.FUNC_DIGEST_INIT) then Outcome(0, c1, w1)
      else Outcome(o.dinit, c1, w1)
  }

  /** The provider part of `EVP_DigestInit_ex` (digest.c:164-208). */
  function InitProvided(c: MdCtx, typ: Md, w: World, o: InitOracle): (r: Outcome)
    requires HeapInv(w.heap)
    requires typ.IsProvided() || o.fetch.Some? ==>
      ProvctxSurvives(c, ProviderType(typ, o)) || ProviderType(typ, o).Has(CoreNumbers.FUNC_DIGEST_NEWCTX)
    ensures r.ctx.flags == c.flags && r.ctx.reqdigest == c.reqdigest && r.ctx.pctx == c.pctx
    ensures typ.IsProvided() ==> r.ctx.fetched == c.fetched && r.w.mdRefs == w.mdRefs
    ensures r.w.pkeyCtxs == w.pkeyCtxs
    ensures !typ.IsProvided() && o.fetch.None? ==> r.ret == 0 && r.w == w
    ensures typ.IsProvided() || o.fetch.Some? ==>
      var t := ProviderType(typ, o);
      && r.ctx.digest == Some(t)
      && (!t.Has(CoreNumbers.FUNC_DIGEST_INIT) ==> r.ret == 0)
      && (r.ret != 0 ==> r.ctx.provctx.Some?)
      && (ProvctxSurvives(c, t) ==> r.ctx.provctx == c.provctx && r.w.heap == w.heap)
      && (!ProvctxSurvives(c, t) && o.newctxOk ==>
            && r.ctx.provctx.Some? && r.ctx.provctx.value !in w.heap.live
            && r.ctx.provctx.value in r.w.heap.live
            && (c.provctx.None? ==> r.w.heap.live == w.heap.live + {r.ctx.provctx.value})
            && (Inv(c, w) && c.provctx.Some? && c.digest.value.Has(CoreNumbers.FUNC_DIGEST_FREECTX) ==>
                  c.provctx.value !in r.w.heap.live))
      && (!ProvctxSurvives(c, t) && !o.newctxOk ==> r.ret == 0 && r.ctx.provctx.None?)
    ensures Inv(c, w) ==> Inv(r.ctx, r.w)
  {
    var c1 := if c.digest.Some? && c.digest.value.ctxSize > 0 then c.(mdData := false) else c;
    if !typ.IsProvided() && o.fetch.None? then Outcome(0, c1, w)
    else
      var t := ProviderType(typ, o);
      var c2 := if !typ.IsProvided() then c1.(fetched := o.fetch) else c1;
      var w2 := if !typ.IsProvided()
                then w.(mdRefs := ReleaseOpt(Acquire(w.mdRefs, t.objId), IdOf(c1.fetched))) else w;
      assert ProvctxSurvives(c2, t) == ProvctxSurvives(c, t);
      var (c3, w3) := BindProvided(c2, t, w2);
      StartProvided(c3, w3, o)
  }

  /** The legacy part of `EVP_DigestInit_ex` (digest.c:211-280), with no ENGINE. */
  function InitLegacy(c: MdCtx, typ: Option<Md>, w: World, o: InitOracle): (r: Outcome)
    requires var t := if typ.Some? then typ else c.digest;
             t.Some? && NoInit !in c.flags ==> t.value.hasInit
    ensures r.w == w
    ensures r.ctx.flags == c.flags && r.ctx.reqdigest == c.reqdigest && r.ctx.fetched == c.fetched
    ensures r.ctx.provctx == c.provctx
    ensures typ.None? && c.digest.None? ==> r.ret == 0
  {
    if typ.None? && c.digest.None? then Outcome(0, c, w)
    else
      var t := if typ.Some? then typ.value else c.digest.value;
      var changed := c.digest != Some(t);
      var c1 := if changed && c.digest.Some? && c.digest.value.ctxSize > 0 then c.(mdData := false) else c;
      var c2 := if changed then c1.(digest := Some(t)) else c1;
      var allocates := changed && NoInit !in c2.flags && t.ctxSize > 0;
      var c3 := if allocates then c2.(update := t.hasUpdate, mdData := o.allocOk) else c2;
      if allocates && !o.allocOk then Outcome(0, c3, w)
      else if c3.pctx.Some? && o.pkeyCtrl <= 0 && o.pkeyCtrl != -2 then Outcome(0, c3, w)
      else if NoInit in c3.flags then Outcome(1, c3, w)
      else Outcome(o.legacyInit, c3, w)
  }

  /** `EVP_DigestInit_ex` (digest.c:109-281) with no ENGINE involved. */
  function InitEx(c: MdCtx, typ: Option<Md>, w: World, o: InitOracle): (r: Outcome)
    requires HeapInv(w.heap)
    requires InitCallable(c, typ, o)
    // CLEANED is cleared and a given digest becomes the requested one.
    ensures Cleaned !in r.ctx.flags
    ensures typ.Some? ==> r.ctx.reqdigest == typ
    ensures typ.None? ==> r.ctx.reqdigest == c.reqdigest
    // The legacy way drops the context's own fetched digest and its reference first.
    ensures InitGoesLegacy(c) ==> r.ctx.fetched.None? && r.w.mdRefs == ReleaseOpt(w.mdRefs, IdOf(c.fetched))
    // With neither a digest given nor one bound, the legacy way fails.
    ensures InitGoesLegacy(c) && typ.None? && (c.digest.None? || c.digest == c.fetched) ==> r.ret == 0
    // The provider way fails when a legacy digest has no provider counterpart.
    ensures !InitGoesLegacy(c) && !typ.value.IsProvided() && o.fetch.None? ==> r.ret == 0 && r.w == w
    // It fails without the provider's init; success binds the digest with a live provider context.
    ensures !InitGoesLegacy(c) && (typ.value.IsProvided() || o.fetch.Some?) ==>
      && r.ctx.digest == Some(ProviderType(typ.value, o))
      && (!ProviderType(typ.value, o).Has(CoreNumbers.FUNC_DIGEST_INIT) ==> r.ret == 0)
      && (r.ret != 0 ==> r.ctx.provctx.Some?)
    ensures Inv(c, w) ==> Inv(r.ctx, r.w)
  {
    var c1 := c.(flags := c.flags - {Cleaned}, reqdigest := if typ.Some? then typ else c.reqdigest);
    if InitGoesLegacy(c1) then
      var c2 := c1.(digest := if c1.digest == c1.fetched then None else c1.digest, fetched := None);
      var w2 := w.(mdRefs := ReleaseOpt(w.mdRefs, IdOf(c1.fetched)));
      InitLegacy(c2, typ, w2, o)
    else
      InitProvided(c1, typ.value, w, o)
  }

  /**
    On the provider path, init keeps the provider context when the digest
    stays the same, and otherwise frees it (through the old digest's
    freectx) and creates a fresh one with the new digest's newctx.
   */
  lemma InitProviderContextRule(c: MdCtx, typ: Md, w: World, o: InitOracle)
    requires Inv(c, w)
    requires !InitGoesLegacy(c) && typ.IsProvided()
    requires InitCallable(c, Some(typ), o)
    ensures var r := InitEx(c, Some(typ), w, o);
            && (ProvctxSurvives(c, typ) ==> r.ctx.provctx == c.provctx && r.w.heap == w.heap)
            && (!ProvctxSurvives(c, typ) && o.newctxOk ==>
                  && r.ctx.provctx.Some? && r.ctx.provctx.value !in w.heap.live
                  && r.ctx.provctx.value in r.w.heap.live
                  && (c.provctx.Some? && c.digest.value.Has(CoreNumbers.FUNC_DIGEST_FREECTX) ==>
                        c.provctx.value !in r.w.heap.live))
            && (!ProvctxSurvives(c, typ) && !o.newctxOk ==> r.ret == 0 && r.ctx.provctx.None?)
  {
  }

  // ---------------------------------------------------------------------
  // Update, final, parameters.

  /** The legacy update is only reached with a legacy update function attached (digest.c:299). */
  predicate UpdateCallable(c: MdCtx, count: SizeT)
  {
    count == 0 || c.OnProviderPath() || c.update
  }

  /**
    `EVP_DigestUpdate` (digest.c:283-300): nothing to hash succeeds at
    once; a provider digest without update fails; otherwise the result is
    the provider's (or the legacy function's).
   */
  function Update(c: MdCtx, count: SizeT, dupdate: int, legacyUpdate: int): (r: int)
    requires UpdateCallable(c, count)
    ensures count == 0 ==> r == 1
    ensures count > 0 && c.OnProviderPath() ==>
      r == (if c.digest.value.Has(CoreNumbers.FUNC_DIGEST_UPDATE) then dupdate else 0)
    ensures count > 0 && !c.OnProviderPath() ==> r == legacyUpdate
  {
    if count == 0 then 1
    else if !c.OnProviderPath() then legacyUpdate
    else if !c.digest.value.Has(CoreNumbers.FUNC_DIGEST_UPDATE) then 0
    else dupdate
  }

  /** Outcomes of the calls the final operations make. */
  datatype FinalOracle = FinalOracle(dfinal: int, reported: SizeT, legacyFinal: int)

  /** Final's result: return code, the size written to `*isize` (if any), context and world. */
  datatype FinalOutcome = FinalOutcome(ret: int, isize: Option<int>, ctx: MdCtx, w: World)

  /** The legacy final is only reached with a bound digest within EVP_MAX_MD_SIZE (digest.c:342-343). */
  predicate FinalCallable(c: MdCtx)
  {
    c.OnProviderPath() || (c.digest.Some? && c.digest.value.hasFinal && c.digest.value.mdSize <= MAX_MD_SIZE)
  }

  /**
    `EVP_DigestFinal_ex` (digest.c:312-352). `wantSize` says whether the
    caller passed `isize`.
   */
  function FinalEx(c: MdCtx, w: World, wantSize: bool, o: FinalOracle): (r: FinalOutcome)
    requires FinalCallable(c)
    // Provider path without final: failure, and the context is left alone.
    ensures c.OnProviderPath() && !c.digest.value.Has(CoreNumbers.FUNC_DIGEST_FINAL) ==>
      r == FinalOutcome(0, None, c, w)
    // Provider path with final: the context is always reset afterwards ...
    ensures c.OnProviderPath() && c.digest.value.Has(CoreNumbers.FUNC_DIGEST_FINAL) ==>
      (r.ctx, r.w) == ResetCtx(c, w)
    // ... and a size that does not fit an unsigned int turns the result into failure.
    ensures c.OnProviderPath() && c.digest.value.Has(CoreNumbers.FUNC_DIGEST_FINAL) ==>
      && (wantSize && o.reported > UINT_MAX ==> r.ret == 0 && r.isize.None?)
      && (wantSize && o.reported <= UINT_MAX ==> r.ret == o.dfinal && r.isize == Some(o.reported))
      && (!wantSize ==> r.ret == o.dfinal && r.isize.None?)
    // Legacy path: the digest's size is reported and the context is kept (marked CLEANED after a cleanup).
    ensures !c.OnProviderPath() ==>
      && r.ret == o.legacyFinal && r.w == w
      && (wantSize ==> r.isize == Some(c.digest.value.mdSize))
      && r.ctx.provctx == c.provctx && r.ctx.digest == c.digest
  {
    if !c.OnProviderPath() then
      var c' := if c.digest.value.hasCleanup then c.(flags := c.flags + {Cleaned}) else c;
      FinalOutcome(o.legacyFinal, if wantSize then Some(c.digest.value.mdSize) else None, c', w)
    else if !c.digest.value.Has(CoreNumbers.FUNC_DIGEST_FINAL) then FinalOutcome(0, None, c, w)
    else
      var (c', w') := ResetCtx(c, w);
      if wantSize && o.reported > UINT_MAX then FinalOutcome(0, None, c', w')
      else FinalOutcome(o.dfinal, if wantSize then Some(o.reported) else None, c', w')
  }

  /** `EVP_MD_CTX_set_params` (digest.c:527-532): the digest's set_params, or 0 without one. */
  function SetParams(c: MdCtx, providerResult: int): (r: int)
    ensures c.digest.None? || !c.digest.value.Has(CoreNumbers.FUNC_DIGEST_SET_PARAMS) ==> r == 0
    ensures c.digest.Some? && c.digest.value.Has(CoreNumbers.FUNC_DIGEST_SET_PARAMS) ==> r == providerResult
  {
    if c.digest.Some? && c.digest.value.Has(CoreNumbers.FUNC_DIGEST_SET_PARAMS) then providerResult else 0
  }

  /** `EVP_MD_CTX_get_params` (digest.c:534-539): the digest's get_params, or 0 without one. */
  function GetParams(c: MdCtx, providerResult: int): (r: int)
    ensures c.digest.None? || !c.digest.value.Has(CoreNumbers.FUNC_DIGEST_GET_PARAMS) ==> r == 0
    ensures c.digest.Some? && c.digest.value.Has(CoreNumbers.FUNC_DIGEST_GET_PARAMS) ==> r == providerResult
  {
    if c.digest.Some? && c.digest.value.Has(CoreNumbers.FUNC_DIGEST_GET_PARAMS) then providerResult else 0
  }

  /** Outcomes of the calls the XOF final makes. */
  datatype XofOracle = XofOracle(setParams: int, dfinal: int, mdCtrl: int, legacyFinal: int)

  /** The legacy XOF final needs a bound digest, and its ctrl when the length is passed on (digest.c:377-380). */
  predicate XofCallable(c: MdCtx, size: SizeT)
  {
    || c.OnProviderPath()
    || (&& c.digest.Some?
        && (c.digest.value.xof && size <= INT_MAX ==> c.digest.value.hasCtrl && c.digest.value.hasFinal))
  }

  /** `EVP_DigestFinalXOF` (digest.c:354-391). */
  function FinalXof(c: MdCtx, w: World, size: SizeT, o: XofOracle): (r: Outcome)
    requires XofCallable(c, size)
    ensures c.OnProviderPath() && !c.digest.value.Has(CoreNumbers.FUNC_DIGEST_FINAL) ==> r == Outcome(0, c, w)
    // The output length goes through set_params; only if that succeeds is final called. Reset follows either way.
    ensures c.OnProviderPath() && c.digest.value.Has(CoreNumbers.FUNC_DIGEST_FINAL) ==>
      && (r.ctx, r.w) == ResetCtx(c, w)
      && r.ret == (if SetParams(c, o.setParams) > 0 then o.dfinal else 0)
    // Legacy: only an XOF digest, a length within INT_MAX and an accepting ctrl produce output.
    ensures !c.OnProviderPath() ==>
      && r.w == w && r.ctx.provctx == c.provctx
      && (!c.digest.value.xof || size > INT_MAX || o.mdCtrl == 0 ==> r.ret == 0 && r.ctx == c)
      && (c.digest.value.xof && size <= INT_MAX && o.mdCtrl != 0 ==> r.ret == o.legacyFinal)
  {
    if !c.OnProviderPath() then
      var d := c.digest.value;
      if d.xof && size <= INT_MAX && o.mdCtrl != 0 then
        Outcome(o.legacyFinal, if d.hasCleanup then c.(flags := c.flags + {Cleaned}) else c, w)
      else Outcome(0, c, w)
    else if !c.digest.value.Has(CoreNumbers.FUNC_DIGEST_FINAL) then Outcome(0, c, w)
    else
      var ret := if SetParams(c, o.setParams) > 0 then o.dfinal else 0;
      var (c', w') := ResetCtx(c, w);
      Outcome(ret, c', w')
  }

  /**
    The dispatch table decides whether a provider digest streams: for a
    method built from a table without NULL pointers, a count of five means
    update and final always reach the provider (never the 0 reported for a
    missing function); a count of zero (a one-shot-only method) means they
    always fail without calling it.
   */
  lemma StreamingTableReachesProvider(objId: ObjId, name: string, fns: seq<Dispatch.DispatchEntry>, prov: ObjId,
                                      provRefs: Ledger, c: MdCtx, w: World, count: SizeT,
                                      dupdate: int, legacyUpdate: int, fo: FinalOracle)
    requires Dispatch.NoNulls(Dispatch.Live(fns))
    requires c.digest.Some? && c.digest == MdFromDispatch(objId, name, fns, Some(prov), true, provRefs).md
    ensures Dispatch.Scan(fns, DigestSpec).count == 5 ==>
      && Update(c, count, dupdate, legacyUpdate) == (if count == 0 then 1 else dupdate)
      && FinalEx(c, w, false, fo).ret == fo.dfinal
    ensures Dispatch.Scan(fns, DigestSpec).count == 0 ==>
      && (count > 0 ==> Update(c, count, dupdate, legacyUpdate) == 0)
      && FinalEx(c, w, false, fo) == FinalOutcome(0, None, c, w)
  {
    StreamingSetFromCount(fns);
  }

  /**
    Init, update and final on the provider path: after a successful init
    with a streaming provider digest, update goes to the provider, and
    final gives the provider's answer, frees the provider context init
    left behind and keeps the digest bound, ready for the next init.
   */
  lemma InitUpdateFinal(c: MdCtx, typ: Md, w: World, o: InitOracle, count: SizeT, dupdate: int,
                        legacyUpdate: int, wantSize: bool, fo: FinalOracle)
    requires Inv(c, w) && !InitGoesLegacy(c)
    requires typ.IsProvided() && StreamingFunctions <= typ.fns.Keys
    requires InitCallable(c, Some(typ), o)
    requires InitEx(c, Some(typ), w, o).ret != 0
    ensures var s := InitEx(c, Some(typ), w, o);
            var f := FinalEx(s.ctx, s.w, wantSize, fo);
            && s.ctx.OnProviderPath() && s.ctx.provctx.Some? && s.ctx.provctx.value in s.w.heap.live
            && Update(s.ctx, count, dupdate, legacyUpdate) == (if count == 0 then 1 else dupdate)
            && f.ctx.provctx.None? && s.ctx.provctx.value !in f.w.heap.live
            && f.ctx.digest == Some(typ)
            && (!wantSize || fo.reported <= UINT_MAX ==> f.ret == fo.dfinal)
  {
  }

  /**
    Init with an implicit fetch followed by free is balanced: the
    reference the fetch took on the provider digest is given back, and the
    provider context init created (if any) is freed again.
   */
  lemma InitFetchThenFreeBalanced(c: MdCtx, typ: Md, w: World, o: InitOracle)
    requires Inv(c, w) && !InitGoesLegacy(c)
    requires c.fetched.None? && c.provctx.None?
    requires !typ.IsProvided() && o.fetch.Some? && o.fetch.value.IsProvided()
    requires o.fetch.value.Has(CoreNumbers.FUNC_DIGEST_FREECTX)
    requires InitCallable(c, Some(typ), o)
    ensures var s := InitEx(c, Some(typ), w, o);
            var w' := Free(Some(s.ctx), s.w);
            && s.ctx.fetched == o.fetch
            && Held(s.w.mdRefs, o.fetch.value.objId) == Held(w.mdRefs, o.fetch.value.objId) + 1
            && SameCounts(w'.mdRefs, w.mdRefs)
            && w'.heap.live == w.heap.live
  {
  }

  /**
    The parameter pass-throughs reach the provider exactly for a method
    whose dispatch table supplied the matching function; otherwise they
    report 0 whatever the provider would have said.
   */
  lemma ParamsFollowTable(objId: ObjId, name: string, fns: seq<Dispatch.DispatchEntry>, prov: Option<ObjId>,
                          provRefs: Ledger, c: MdCtx, answer: int)
    requires Dispatch.NoNulls(Dispatch.Live(fns))
    requires c.digest.Some? && c.digest == MdFromDispatch(objId, name, fns, prov, true, provRefs).md
    ensures SetParams(c, answer) ==
      (if CoreNumbers.FUNC_DIGEST_SET_PARAMS in Dispatch.Ids(Dispatch.Live(fns)) then answer else 0)
    ensures GetParams(c, answer) ==
      (if CoreNumbers.FUNC_DIGEST_GET_PARAMS in Dispatch.Ids(Dispatch.Live(fns)) then answer else 0)
  {
    StreamingSetFromCount(fns);
  }

  /**
    Extendable output on the provider path needs the parameter channel: a
    non-zero result from the XOF final means the digest has final and
    set_params and the provider accepted the requested length.
   */
  lemma XofOutputNeedsSetParams(c: MdCtx, w: World, size: SizeT, o: XofOracle)
    requires c.OnProviderPath()
    requires FinalXof(c, w, size, o).ret != 0
    ensures c.digest.value.Has(CoreNumbers.FUNC_DIGEST_FINAL)
    ensures c.digest.value.Has(CoreNumbers.FUNC_DIGEST_SET_PARAMS) && SetParams(c, o.setParams) > 0
    ensures o.setParams > 0 && FinalXof(c, w, size, o).ret == o.dfinal
  {
  }

  // ---------------------------------------------------------------------
  // Copy.

  /**
    Outcomes of the calls copy makes: the provider's dupctx, the
    EVP_PKEY_CTX duplicate (a new object or NULL), the legacy data
    allocation and the legacy copy function.
   */
  datatype CopyOracle = CopyOracle(dupOk: bool, pkeyDup: Option<ObjId>, allocOk: bool, legacyCopy: int)

  /** The legacy part of `EVP_MD_CTX_copy_ex` (digest.c:450-506), with no ENGINE. */
  function CopyLegacy(out: MdCtx, inp: MdCtx, w: World, o: CopyOracle): (r: Outcome)
    requires inp.digest.Some?
    requires o.pkeyDup.Some? ==> o.pkeyDup.value !in w.pkeyCtxs
  {
    var reuse := out.digest == inp.digest;
    var tmpBuf := reuse && out.mdData;
    var out1 := if reuse then out.(flags := out.flags + {Reuse}) else out;
    var (_, w2) := ResetCtx(out1, w);
    var out3 := inp.(flags := inp.flags - {KeepPkeyCtx}, mdData := false, pctx := None);
    var needsData := inp.mdData && inp.digest.value.ctxSize > 0;
    if needsData && !tmpBuf && !o.allocOk then Outcome(0, out3, w2)
    else
      var out4 := out3.(mdData := needsData);
      if inp.pctx.Some? && o.pkeyDup.None? then
        var (out5, w5) := ResetCtx(out4, w2);
        Outcome(0, out5, w5)
      else
        var out5 := if inp.pctx.Some? then out4.(pctx := o.pkeyDup) else out4;
        var w5 := if inp.pctx.Some? then w2.(pkeyCtxs := w2.pkeyCtxs + {o.pkeyDup.value}) else w2;
        Outcome(if inp.digest.value.hasCopy then o.legacyCopy else 1, out5, w5)
  }

  /** `EVP_MD_CTX_copy_ex` (digest.c:399-507), with no ENGINE. */
  function CopyEx(out: MdCtx, inp: Option<MdCtx>, w: World, o: CopyOracle): (r: Outcome)
    requires HeapInv(w.heap)
    requires o.pkeyDup.Some? ==> o.pkeyDup.value !in w.pkeyCtxs
    // A NULL or unbound source, or a provider digest without dupctx: failure, nothing touched.
    ensures inp.None? || inp.value.digest.None? ==> r == Outcome(0, out, w)
    ensures inp.Some? && inp.value.OnProviderPath() && !inp.value.digest.value.Has(CoreNumbers.FUNC_DIGEST_DUPCTX) ==>
      r == Outcome(0, out, w)
    // Provider copy: the copy takes a reference on the source's fetched digest ...
    ensures inp.Some? && inp.value.OnProviderPath() && inp.value.digest.value.Has(CoreNumbers.FUNC_DIGEST_DUPCTX) ==>
      && r.ctx.digest == inp.value.digest && r.ctx.fetched == inp.value.fetched
      && r.w.mdRefs == AcquireOpt(ReleaseOpt(w.mdRefs, IdOf(ResetCtx(out, w).0.fetched)), IdOf(inp.value.fetched))
    // ... and a failing dupctx leaves it without a provider context.
    ensures (&& inp.Some? && inp.value.OnProviderPath()
             && inp.value.digest.value.Has(CoreNumbers.FUNC_DIGEST_DUPCTX) && !o.dupOk) ==>
      r.ret == 0 && r.ctx.provctx.None?
    ensures (&& inp.Some? && inp.value.OnProviderPath()
             && inp.value.digest.value.Has(CoreNumbers.FUNC_DIGEST_DUPCTX)
             && o.dupOk && (inp.value.pctx.None? || o.pkeyDup.Some?)) ==>
      r.ret == 1
  {
    if inp.None? || inp.value.digest.None? then Outcome(0, out, w)
    else if !inp.value.OnProviderPath() then CopyLegacy(out, inp.value, w, o)
    else if !inp.value.digest.value.Has(CoreNumbers.FUNC_DIGEST_DUPCTX) then Outcome(0, out, w)
    else
      var src := inp.value;
      var (out1, w1) := ResetCtx(out, w);
      var w2 := w1.(mdRefs := AcquireOpt(ReleaseOpt(w1.mdRefs, IdOf(out1.fetched)), IdOf(src.fetched)));
      var out2 := src.(pctx := None, provctx := None);
      if !o.dupOk then Outcome(0, out2, w2)
      else
        var (tok, h) := Allocate(w2.heap);
        var out3 := out2.(provctx := Some(tok), flags := out2.flags - {KeepPkeyCtx});
        var w3 := w2.(heap := h);
        if src.pctx.None? then Outcome(1, out3, w3)
        else if o.pkeyDup.None? then
          var (out4, w4) := ResetCtx(out3, w3);
          Outcome(0, out4, w4)
        else Outcome(1, out3.(pctx := o.pkeyDup), w3.(pkeyCtxs := w3.pkeyCtxs + {o.pkeyDup.value}))
  }

  /**
    A successful provider copy owns a provider context of its own: a newly
    allocated one, distinct from the source's, while the source's stays
    allocated.
   */
  lemma CopyGivesOwnProviderContext(out: MdCtx, inp: MdCtx, w: World, o: CopyOracle)
    requires Inv(inp, w)
    requires o.pkeyDup.Some? ==> o.pkeyDup.value !in w.pkeyCtxs
    requires inp.OnProviderPath() && inp.digest.value.Has(CoreNumbers.FUNC_DIGEST_DUPCTX)
    requires CopyEx(out, Some(inp), w, o).ret == 1
    ensures var r := CopyEx(out, Some(inp), w, o);
            && r.ctx.provctx.Some? && r.ctx.provctx.value in r.w.heap.live
            && r.ctx.provctx.value !in w.heap.live
            && r.ctx.provctx != inp.provctx
            && (inp.provctx.Some? && !(out.provctx == inp.provctx && out.OnProviderPath()
                                       && out.digest.value.Has(CoreNumbers.FUNC_DIGEST_FREECTX)) ==>
                  inp.provctx.value in r.w.heap.live)
  {
  }

  // ---------------------------------------------------------------------
  // One-shot digest.

  /** The result of `EVP_Digest`: return code, reported size and the world afterwards. */
  datatype OneShotOutcome = OneShotOutcome(ret: int, isize: Option<int>, w: World)

  /** The context `EVP_Digest` starts from. */
  const OneShotCtx: MdCtx := EmptyCtx.(flags := {Oneshot})

  /** Every call `EVP_Digest` reaches through a pointer is defined. */
  ghost predicate OneShotCallable(typ: Option<Md>, count: SizeT, w: World, io: InitOracle)
  {
    && HeapInv(w.heap)
    && InitCallable(OneShotCtx, typ, io)
    && var s := InitEx(OneShotCtx, typ, w, io);
       s.ret != 0 ==> UpdateCallable(s.ctx, count) && FinalCallable(s.ctx)
  }

  /**
    `EVP_Digest` (digest.c:509-525): allocate a context flagged ONESHOT,
    init, update and final while each succeeds, then free the context.
   */
  function DigestOneShot(typ: Option<Md>, count: SizeT, wantSize: bool, w: World, ctxAllocOk: bool,
                         io: InitOracle, dupdate: int, legacyUpdate: int, fo: FinalOracle): (r: OneShotOutcome)
    requires OneShotCallable(typ, count, w, io)
    ensures !ctxAllocOk ==> r == OneShotOutcome(0, None, w)
    ensures r.ret == 0 || r.ret == 1
    // With a context, the result is 1 exactly when init, update and final all succeed.
    ensures ctxAllocOk ==>
      (r.ret == 1 <==>
         var s := InitEx(OneShotCtx, typ, w, io);
         && s.ret != 0
         && Update(s.ctx, count, dupdate, legacyUpdate) != 0
         && FinalEx(s.ctx, s.w, wantSize, fo).ret != 0)
    ensures r.ret == 1 ==> InitEx(OneShotCtx, typ, w, io).ret != 0
  {
    if !ctxAllocOk then OneShotOutcome(0, None, w)
    else
      var s1 := InitEx(OneShotCtx, typ, w, io);
      if s1.ret == 0 then OneShotOutcome(0, None, Free(Some(s1.ctx), s1.w))
      else if Update(s1.ctx, count, dupdate, legacyUpdate) == 0 then
        OneShotOutcome(0, None, Free(Some(s1.ctx), s1.w))
      else
        var f := FinalEx(s1.ctx, s1.w, wantSize, fo);
        OneShotOutcome(if f.ret != 0 then 1 else 0, f.isize, Free(Some(f.ctx), f.w))
  }

  /**
    A one-shot digest with a provider digest that has freectx releases
    everything it took: the provider context it created is freed again
    and no method reference is left over, whichever step fails.
   */
  lemma OneShotBalanced(typ: Md, count: SizeT, wantSize: bool, w: World, ctxAllocOk: bool,
                        io: InitOracle, dupdate: int, legacyUpdate: int, fo: FinalOracle)
    requires typ.IsProvided() && typ.Has(CoreNumbers.FUNC_DIGEST_FREECTX)
    requires OneShotCallable(Some(typ), count, w, io)
    ensures var r := DigestOneShot(Some(typ), count, wantSize, w, ctxAllocOk, io, dupdate, legacyUpdate, fo);
            r.w.heap.live == w.heap.live && r.w.mdRefs == w.mdRefs && r.w.pkeyCtxs == w.pkeyCtxs
  {
  }
}

=== FILE: digest_method.dfy ===
/**
  EVP_MD as far as the dispatch layer sees it, and its construction from a
  provider's dispatch table (`evp_md_from_dispatch`, crypto/evp/digest.c:580-670).
 */
module DigestMethod {
  import opened Common
  import CoreNumbers
  import opened Dispatch

  /**
    A digest method. `fns` holds the provider functions the adapter found
    (keyed by digest function identity); the remaining fields are the
    legacy EVP_MD members, all zero or absent for a method built from a
    dispatch table.
   */
  datatype Md = Md(
    objId: ObjId,
    name: string,
    prov: Option<ObjId>,
    fns: map<int, FnRef>,
    mdSize: nat,
    ctxSize: nat,
    xof: bool,
    hasInit: bool,
    hasUpdate: bool,
    hasFinal: bool,
    hasCopy: bool,
    hasCleanup: bool,
    hasCtrl: bool)
  {
    /** The method's provider function `id` is present. */
    predicate Has(id: int)
    {
      id in fns
    }

    /** Provider-backed: the contexts using it take the provider path. */
    predicate IsProvided()
    {
      prov.Some?
    }
  }

  /** The digest identities the adapter reads, and the five streaming ones it counts. */
  const DigestSpec: SlotSpec := SlotSpec(
    {CoreNumbers.FUNC_DIGEST_NEWCTX, CoreNumbers.FUNC_DIGEST_INIT, CoreNumbers.FUNC_DIGEST_UPDATE,
     CoreNumbers.FUNC_DIGEST_FINAL, CoreNumbers.FUNC_DIGEST_DIGEST, CoreNumbers.FUNC_DIGEST_FREECTX,
     CoreNumbers.FUNC_DIGEST_DUPCTX, CoreNumbers.FUNC_DIGEST_SIZE, CoreNumbers.FUNC_DIGEST_BLOCK_SIZE,
     CoreNumbers.FUNC_DIGEST_SET_PARAMS, CoreNumbers.FUNC_DIGEST_GET_PARAMS},
    StreamingFunctions)

  /** The functions that must come together: newctx, init, update, final, freectx. */
  const StreamingFunctions: set<int> :=
    {CoreNumbers.FUNC_DIGEST_NEWCTX, CoreNumbers.FUNC_DIGEST_INIT, CoreNumbers.FUNC_DIGEST_UPDATE,
     CoreNumbers.FUNC_DIGEST_FINAL, CoreNumbers.FUNC_DIGEST_FREECTX}

  /** The acceptance test after the scan (digest.c:653-655). */
  predicate Acceptable(s: Slots)
  {
    && (s.count == 5 || (s.count == 0 && CoreNumbers.FUNC_DIGEST_DIGEST in s.filled))
    && CoreNumbers.FUNC_DIGEST_SIZE in s.filled
  }

  /** The adapter's result: the method (NULL on rejection) and the provider reference counts. */
  datatype MdBuild = MdBuild(md: Option<Md>, provRefs: Ledger)

  /**
    `evp_md_from_dispatch`. `allocOk` stands for the allocation of the
    method and the copy of its name succeeding; `objId` is the new object.
   */
  function MdFromDispatch(objId: ObjId, name: string, fns: seq<DispatchEntry>, prov: Option<ObjId>,
                          allocOk: bool, provRefs: Ledger): (r: MdBuild)
    ensures r.md.Some? <==> allocOk && Acceptable(Scan(fns, DigestSpec))
    // A built method is a fresh provider method holding the scanned functions and nothing legacy.
    ensures r.md.Some? ==>
      && r.md.value.objId == objId && r.md.value.name == name && r.md.value.prov == prov
      && r.md.value.fns == Scan(fns, DigestSpec).filled
      && r.md.value.Has(CoreNumbers.FUNC_DIGEST_SIZE)
      && r.md.value.ctxSize == 0 && !r.md.value.hasInit && !r.md.value.hasUpdate && !r.md.value.hasFinal
    // It records its provider and holds one reference on it; a rejection takes none.
    ensures r.md.Some? ==> r.provRefs == AcquireOpt(provRefs, prov)
    ensures r.md.None? ==> r.provRefs == provRefs
  {
    if !allocOk then MdBuild(None, provRefs)
    else
      var slots := Scan(fns, DigestSpec);
      if !Acceptable(slots) then MdBuild(None, provRefs)
      else
        MdBuild(Some(Md(objId, name, prov, slots.filled, 0, 0, false, false, false, false, false, false, false)),
                AcquireOpt(provRefs, prov))
  }

  /**
    The consistency rule in terms of the table itself, for tables without
    NULL pointers: a method is built exactly when the allocation succeeds,
    the table supplies `size`, and it supplies either all five streaming
    functions or none of them together with the standalone `digest`.
   */
  lemma MdFromDispatchAcceptsConsistentSets(objId: ObjId, name: string, fns: seq<DispatchEntry>,
                                            prov: Option<ObjId>, allocOk: bool, provRefs: Ledger)
    requires NoNulls(Live(fns))
    ensures var ids := Ids(Live(fns));
            MdFromDispatch(objId, name, fns, prov, allocOk, provRefs).md.Some? <==>
              && allocOk
              && CoreNumbers.FUNC_DIGEST_SIZE in ids
              && (StreamingFunctions <= ids
                  || (StreamingFunctions * ids == {} && CoreNumbers.FUNC_DIGEST_DIGEST in ids))
  {
    var live := Live(fns);
    assert WellFormedSpec(DigestSpec);
    assert |StreamingFunctions| == 5;
    CountMeansPresence(live, DigestSpec);
    ScanCountsDistinct(live, DigestSpec);
    var s := ScanEntries(live, DigestSpec);
    assert CoreNumbers.FUNC_DIGEST_SIZE in s.filled <==> CoreNumbers.FUNC_DIGEST_SIZE in Ids(live);
    assert CoreNumbers.FUNC_DIGEST_DIGEST in s.filled <==> CoreNumbers.FUNC_DIGEST_DIGEST in Ids(live);
  }

  /**
    First occurrence wins in a digest table: a duplicate entry later in the
    table never replaces the function the method holds.
   */
  lemma MdFromDispatchFirstWins(objId: ObjId, name: string, fns: seq<DispatchEntry>,
                                prov: Option<ObjId>, allocOk: bool, provRefs: Ledger, id: int)
    requires MdFromDispatch(objId, name, fns, prov, allocOk, provRefs).md.Some?
    requires MdFromDispatch(objId, name, fns, prov, allocOk, provRefs).md.value.Has(id)
    ensures exists k ::
      && FirstSupplier(Live(fns), id, k)
      && Live(fns)[k].fn.value == MdFromDispatch(objId, name, fns, prov, allocOk, provRefs).md.value.fns[id]
  {
    ScanFirstWins(Live(fns), DigestSpec);
  }

  /**
    What the counter says about a table without NULL pointers: a count of
    five means the method holds all five streaming functions, a count of
    zero means it holds none of them.
   */
  lemma StreamingSetFromCount(fns: seq<DispatchEntry>)
    requires NoNulls(Live(fns))
    ensures Scan(fns, DigestSpec).count == 5 ==> StreamingFunctions <= Scan(fns, DigestSpec).filled.Keys
    ensures Scan(fns, DigestSpec).count == 0 ==> StreamingFunctions * Scan(fns, DigestSpec).filled.Keys == {}
    ensures Scan(fns, DigestSpec).filled.Keys == DigestSpec.known * Ids(Live(fns))
  {
    assert WellFormedSpec(DigestSpec);
    assert |StreamingFunctions| == 5;
    CountMeansPresence(Live(fns), DigestSpec);
    ScanCountsDistinct(Live(fns), DigestSpec);
  }
}

=== FILE: dispatch.dfy ===
/**
  OSSL_DISPATCH arrays and the scan every method adapter performs over them
  (crypto/evp/digest.c:594-652, crypto/evp/exchange.c:48-90): walk the
  array up to the 0 terminator; for each identity the adapter recognises,
  fill the corresponding slot if it is still empty and, for the identities
  that belong to the mandatory set, count the fill.
 */
module Dispatch {
  import opened Common
  import CoreNumbers

  /** A function pointer supplied by a provider. */
  type FnRef = nat

  /** One OSSL_DISPATCH element; the function pointer may be NULL. */
  datatype DispatchEntry = DispatchEntry(functionId: int, fn: Option<FnRef>)

  /** What one adapter knows: the identities it reads and those it counts. */
  datatype SlotSpec = SlotSpec(known: set<int>, counted: set<int>)

  /** The adapter's state: the non-NULL slots filled so far and its counter. */
  datatype Slots = Slots(filled: map<int, FnRef>, count: nat)

  /**
    The elements an adapter reads: everything before the first 0 identity
    (the end of the sequence stands for a terminator as well).
   */
  function Live(fns: seq<DispatchEntry>): (live: seq<DispatchEntry>)
    ensures live <= fns
    ensures forall i :: 0 <= i < |live| ==> live[i].functionId != CoreNumbers.DISPATCH_END
    ensures |live| < |fns| ==> fns[|live|].functionId == CoreNumbers.DISPATCH_END
  {
    if |fns| == 0 || fns[0].functionId == CoreNumbers.DISPATCH_END then []
    else [fns[0]] + Live(fns[1..])
  }

  /**
    One iteration of the adapter's switch: an unknown identity or an
    already-filled slot is skipped; otherwise the slot takes the element's
    pointer (which may be NULL, leaving the slot empty) and a counted
    identity bumps the counter.
   */
  function Step(s: Slots, e: DispatchEntry, spec: SlotSpec): Slots
  {
    if e.functionId !in spec.known || e.functionId in s.filled then s
    else
      Slots(
        if e.fn.Some? then s.filled[e.functionId := e.fn.value] else s.filled,
        s.count + (if e.functionId in spec.counted then 1 else 0))
  }

  /** The adapter loop over elements that are all before the terminator. */
  function ScanEntries(live: seq<DispatchEntry>, spec: SlotSpec): Slots
    decreases |live|
  {
    if |live| == 0 then Slots(map[], 0)
    else Step(ScanEntries(live[..|live| - 1], spec), live[|live| - 1], spec)
  }

  /** The adapter loop over a whole 0-terminated array. */
  function Scan(fns: seq<DispatchEntry>, spec: SlotSpec): Slots
  {
    ScanEntries(Live(fns), spec)
  }

  // ---------------------------------------------------------------------
  // Reference definitions, independent of the loop.

  /** Some element of `s` supplies a non-NULL function for `id`. */
  ghost predicate Supplies(s: seq<DispatchEntry>, id: int)
  {
    exists k :: 0 <= k < |s| && s[k].functionId == id && s[k].fn.Some?
  }

  /** Element `k` is the first element of `s` supplying a non-NULL function for `id`. */
  ghost predicate FirstSupplier(s: seq<DispatchEntry>, id: int, k: int)
  {
    && 0 <= k < |s|
    && s[k].functionId == id
    && s[k].fn.Some?
    && forall j :: 0 <= j < k ==> !(s[j].functionId == id && s[j].fn.Some?)
  }

  /** No element carries a NULL function pointer (true of every table in the source). */
  ghost predicate NoNulls(s: seq<DispatchEntry>)
  {
    forall k :: 0 <= k < |s| ==> s[k].fn.Some?
  }

  /** The identities that occur in `s`. */
  ghost function Ids(s: seq<DispatchEntry>): (r: set<int>)
    ensures forall k :: 0 <= k < |s| ==> s[k].functionId in r
    ensures forall id :: id in r ==> exists k :: 0 <= k < |s| && s[k].functionId == id
    decreases |s|
  {
    if |s| == 0 then {} else Ids(s[..|s| - 1]) + {s[|s| - 1].functionId}
  }

  ghost predicate WellFormedSpec(spec: SlotSpec)
  {
    spec.counted <= spec.known
  }

  /**
    First occurrence wins: a slot is filled exactly when some element
    supplies a non-NULL pointer for a recognised identity, and then it holds
    the pointer of the first such element; later duplicates never overwrite.
   */
  lemma {:induction false} ScanFirstWins(live: seq<DispatchEntry>, spec: SlotSpec)
    ensures forall id :: id in ScanEntries(live, spec).filled <==> id in spec.known && Supplies(live, id)
    ensures forall id :: id in ScanEntries(live, spec).filled ==>
      exists k :: FirstSupplier(live, id, k) && live[k].fn.value == ScanEntries(live, spec).filled[id]
    decreases |live|
  {
    if |live| == 0 {
    } else {
      var init := live[..|live| - 1];
      var e := live[|live| - 1];
      ScanFirstWins(init, spec);
      var prev := ScanEntries(init, spec);
      var cur := ScanEntries(live, spec);
      assert cur == Step(prev, e, spec);
      forall id
        ensures id in cur.filled <==> id in spec.known && Supplies(live, id)
      {
        if id in spec.known && Supplies(live, id) {
          var k :| 0 <= k < |live| && live[k].functionId == id && live[k].fn.Some?;
          if k < |live| - 1 {
            assert init[k] == live[k];
            assert Supplies(init, id);
          }
        }
        if id in cur.filled && id in prev.filled {
          var k :| FirstSupplier(init, id, k) && init[k].fn.value == prev.filled[id];
          assert live[k] == init[k];
        }
        if id in cur.filled && id !in prev.filled {
          assert live[|live| - 1].functionId == id;
        }
      }
      forall id | id in cur.filled
        ensures exists k :: FirstSupplier(live, id, k) && live[k].fn.value == cur.filled[id]
      {
        if id in prev.filled {
          var k :| FirstSupplier(init, id, k) && init[k].fn.value == prev.filled[id];
          assert live[k] == init[k];
          assert FirstSupplier(live, id, k);
        } else {
          assert e.functionId == id && e.fn.Some?;
          assert !Supplies(init, id);
          forall j | 0 <= j < |live| - 1
            ensures !(live[j].functionId == id && live[j].fn.Some?)
          {
            assert live[j] == init[j];
          }
          assert FirstSupplier(live, id, |live| - 1);
        }
      }
    }
  }

  /**
    Without NULL pointers, each counted identity that occurs is counted
    exactly once, however often it is repeated.
   */
  lemma {:induction false} ScanCountsDistinct(live: seq<DispatchEntry>, spec: SlotSpec)
    requires WellFormedSpec(spec) && NoNulls(live)
    ensures ScanEntries(live, spec).count == |spec.counted * Ids(live)|
    ensures ScanEntries(live, spec).filled.Keys == spec.known * Ids(live)
    decreases |live|
  {
    if |live| == 0 {
      assert Ids(live) == {};
    } else {
      var init := live[..|live| - 1];
      var e := live[|live| - 1];
      assert live == init + [e];
      assert NoNulls(init) by {
        forall k | 0 <= k < |init| ensures init[k].fn.Some? {
          assert init[k] == live[k];
        }
      }
      ScanCountsDistinct(init, spec);
      var prev := ScanEntries(init, spec);
      assert e.fn.Some?;
      if e.functionId in spec.counted && e.functionId !in Ids(init) {
        assert spec.counted * Ids(live) == (spec.counted * Ids(init)) + {e.functionId};
      } else {
        assert spec.counted * Ids(live) == spec.counted * Ids(init);
      }
    }
  }

  /** A subset of a finite set with as many elements is the whole set. */
  lemma SubsetOfSameSize<T>(a: set<T>, b: set<T>)
    requires a <= b && |a| == |b|
    ensures a == b
  {
    if a != b {
      var x :| x in b && x !in a;
      assert a <= b - {x};
      SubsetCardinality(a, b - {x});
    }
  }

  lemma {:induction false} SubsetCardinality<T>(a: set<T>, b: set<T>)
    requires a <= b
    ensures |a| <= |b|
    decreases |b|
  {
    if a != {} {
      var x :| x in a;
      SubsetCardinality(a - {x}, b - {x});
    }
  }

  /**
    Without NULL pointers the counter reaches the size of the mandatory set
    exactly when every mandatory identity occurs, and is 0 exactly when none
    does.
   */
  lemma CountMeansPresence(live: seq<DispatchEntry>, spec: SlotSpec)
    requires WellFormedSpec(spec) && NoNulls(live)
    ensures ScanEntries(live, spec).count == |spec.counted| <==> spec.counted <= Ids(live)
    ensures ScanEntries(live, spec).count == 0 <==> spec.counted * Ids(live) == {}
    ensures ScanEntries(live, spec).count <= |spec.counted|
  {
    ScanCountsDistinct(live, spec);
    var present := spec.counted * Ids(live);
    var count := ScanEntries(live, spec).count;
    assert count == |present|;
    SubsetCardinality(present, spec.counted);
    if count == |spec.counted| {
      SubsetOfSameSize(present, spec.counted);
      assert spec.counted <= Ids(live);
    }
    if spec.counted <= Ids(live) {
      assert present == spec.counted;
    }
    if count == 0 {
      assert present == {};
    }
  }

  /** Elements after the terminator are never read. */
  lemma {:induction false} LiveStopsAtTerminator(a: seq<DispatchEntry>, t: DispatchEntry, b: seq<DispatchEntry>)
    requires forall i :: 0 <= i < |a| ==> a[i].functionId != CoreNumbers.DISPATCH_END
    requires t.functionId == CoreNumbers.DISPATCH_END
    ensures Live(a + [t] + b) == a
    decreases |a|
  {
    var whole := a + [t] + b;
    if |a| == 0 {
      assert whole[0] == t;
    } else {
      assert whole[0] == a[0];
      assert whole[1..] == a[1..] + [t] + b;
      LiveStopsAtTerminator(a[1..], t, b);
      assert [a[0]] + a[1..] == a;
    }
  }
}

=== FILE: evp_fetch.dfy ===
/**
  The generic fetch engine of crypto/evp/evp_fetch.c: the cache-then-
  construct protocol of `evp_generic_fetch`, the two store callbacks it
  hands to the method constructor, the default-properties setter and the
  enumeration helper behind `evp_generic_do_all`.

  Every member that computes a method identity takes a `Guard`: with
  `AsWritten` it uses `method_id` exactly as the source has it, with
  `Corrected` the guard its comment describes.

  The method store, the name map, the property matcher and
  `ossl_method_construct` are not part of this model: the store lookups and
  the constructor appear as parameters standing for their outcome, and a
  method is known only by its object identity.
 */
module GenericFetch {
  import opened Common
  import opened MethodIdentity

  /** A property query or property definition string. */
  type Props = string

  /** The name map: algorithm name to name identity (absent means 0, "unknown"). */
  type NameMap = map<string, bv32>

  /** `ossl_namemap_name2num`. */
  function NameToNum(nm: NameMap, name: string): bv32
  {
    if name in nm then nm[name] else 0
  }

  /** A C `int` handed to a parameter of type `unsigned int`: reduction modulo 2^32. */
  function AsUnsigned(x: Int32): bv32
  {
    (if x < 0 then x + 0x1_0000_0000 else x) as bv32
  }

  /** Names keep their numbers: `later` knows every name `earlier` knows, under the same number. */
  ghost predicate Extends(earlier: NameMap, later: NameMap)
  {
    forall n :: n in earlier ==> n in later && later[n] == earlier[n]
  }

  /** The query cache: (method identity, property query) to a cached method. */
  type Cache = map<(bv32, Props), ObjId>

  /**
    What `evp_generic_fetch` sees of a library context: whether the
    default method store and the name map exist, the query cache, the
    reference counts of the methods, and the store's default property
    query (None when unset).
   */
  datatype LibCtx = LibCtx(hasStore: bool, namemap: Option<NameMap>, cache: Cache, refs: Ledger,
                           defaults: Option<Props>)

  /**
    The outcome of `ossl_method_construct`: the method it built (holding a
    reference for the caller), and the name map and reference counts it
    leaves behind (it registers names and stores methods on the way).
   */
  datatype Construction = Construction(meth: Option<ObjId>, namemap: NameMap, refs: Ledger)

  /** The fetched method (NULL when absent), the context afterwards, and whether construction ran. */
  datatype FetchResult = FetchResult(meth: Option<ObjId>, ctx: LibCtx, constructed: bool)

  /** The early checks of the fetch pass and the name is known with a usable identity. */
  predicate KnownIdentity(g: Guard, ctx: LibCtx, operationId: Int32, name: string)
  {
    && ctx.hasStore && ctx.namemap.Some? && operationId > 0
    && NameToNum(ctx.namemap.value, name) != 0
    && MethodIdUnder(g, AsUnsigned(operationId), NameToNum(ctx.namemap.value, name)) != 0
  }

  /** The cache key of a known name. */
  function CacheKey(g: Guard, ctx: LibCtx, operationId: Int32, name: string, properties: Props): (bv32, Props)
    requires ctx.namemap.Some?
  {
    (MethodIdUnder(g, AsUnsigned(operationId), NameToNum(ctx.namemap.value, name)), properties)
  }

  /** The query is answered by the cache. */
  predicate CacheHit(g: Guard, ctx: LibCtx, operationId: Int32, name: string, properties: Props)
  {
    KnownIdentity(g, ctx, operationId, name) && CacheKey(g, ctx, operationId, name, properties) in ctx.cache
  }

  /**
    `evp_generic_fetch` (evp_fetch.c:157-228). `built` stands for what
    `ossl_method_construct` would produce if it is called.
   */
  function EvpGenericFetch(g: Guard, ctx: LibCtx, operationId: Int32, name: string, properties: Props,
                           built: Construction): (r: FetchResult)
    // No store, no name map or a non-positive operation: NULL, nothing touched.
    ensures !ctx.hasStore || ctx.namemap.None? || operationId <= 0 ==>
      r == FetchResult(None, ctx, false)
    // A known name whose identity does not fit: NULL without constructing.
    ensures ctx.hasStore && ctx.namemap.Some? && operationId > 0
            && NameToNum(ctx.namemap.value, name) != 0 && !KnownIdentity(g, ctx, operationId, name) ==>
      r == FetchResult(None, ctx, false)
    // A cache hit: the cached method with exactly one more reference, nothing else changes.
    ensures CacheHit(g, ctx, operationId, name, properties) ==>
      var m := ctx.cache[CacheKey(g, ctx, operationId, name, properties)];
      r == FetchResult(Some(m), ctx.(refs := Acquire(ctx.refs, m)), false)
    // Otherwise (unknown name, or a known one missing from the cache) construction runs.
    ensures ctx.hasStore && ctx.namemap.Some? && operationId > 0
            && (NameToNum(ctx.namemap.value, name) == 0
                || (KnownIdentity(g, ctx, operationId, name) && !CacheHit(g, ctx, operationId, name, properties))) ==>
      r.constructed && r.meth == built.meth
    // What construction produced is cached under the identity computed
    // afterwards; the reserved identity 0 is never entered.
    ensures r.constructed ==>
      && r.ctx.namemap == Some(built.namemap) && r.ctx.refs == built.refs
      && r.ctx.hasStore == ctx.hasStore && r.ctx.defaults == ctx.defaults
      && var methId' := MethodIdUnder(g, AsUnsigned(operationId), NameToNum(built.namemap, name));
      && (r.meth.None? || methId' == 0 ==> r.ctx.cache == ctx.cache)
      && (r.meth.Some? && methId' != 0 ==> r.ctx.cache == ctx.cache[(methId', properties) := r.meth.value])
  {
    if !ctx.hasStore || ctx.namemap.None? then FetchResult(None, ctx, false)
    else if operationId <= 0 then FetchResult(None, ctx, false)
    else
      var nameId := NameToNum(ctx.namemap.value, name);
      var methId := if nameId != 0 then MethodIdUnder(g, AsUnsigned(operationId), nameId) else 0;
      if nameId != 0 && methId == 0 then FetchResult(None, ctx, false)
      else if nameId == 0 || (methId, properties) !in ctx.cache then
        match built.meth
        case None =>
          FetchResult(None, ctx.(namemap := Some(built.namemap), refs := built.refs), true)
        case Some(m) =>
          var methId' := MethodIdUnder(g, AsUnsigned(operationId), NameToNum(built.namemap, name));
          var cache' := if methId' != 0 then ctx.cache[(methId', properties) := m] else ctx.cache;
          FetchResult(Some(m), ctx.(namemap := Some(built.namemap), refs := built.refs, cache := cache'), true)
      else
        var m := ctx.cache[(methId, properties)];
        FetchResult(Some(m), ctx.(refs := Acquire(ctx.refs, m)), false)
  }

  /**
    Fetch determinism: once a fetch has constructed a method and the name
    map gives the name a usable identity, the same fetch again is served
    from the cache, returns the same method, constructs nothing and takes
    exactly one more reference. This holds for both guards, including the
    identities only the code as written accepts.
   */
  lemma SecondFetchServedFromCache(g: Guard, ctx: LibCtx, operationId: Int32, name: string, properties: Props,
                                   built: Construction, again: Construction)
    requires ctx.hasStore && ctx.namemap.Some? && operationId > 0
    requires !CacheHit(g, ctx, operationId, name, properties)
    requires built.meth.Some?
    requires Extends(ctx.namemap.value, built.namemap)
    requires NameToNum(built.namemap, name) != 0
    requires MethodIdUnder(g, AsUnsigned(operationId), NameToNum(built.namemap, name)) != 0
    ensures var r1 := EvpGenericFetch(g, ctx, operationId, name, properties, built);
            var r2 := EvpGenericFetch(g, r1.ctx, operationId, name, properties, again);
            && r1.constructed && r1.meth == built.meth
            && !r2.constructed && r2.meth == r1.meth
            && r2.ctx.refs == Acquire(r1.ctx.refs, built.meth.value)
            && r2.ctx.cache == r1.ctx.cache
  {
  }

  /**
    With the corrected guard a cache hit is exact: the entry it returns was
    stored under the identity of this very operation and name, so a method
    cached for one operation or name is never served for another.
   */
  lemma CorrectedHitIsExact(ctx: LibCtx, operationId: Int32, name: string, properties: Props,
                            storedOp: bv32, storedName: bv32)
    requires CacheHit(Corrected, ctx, operationId, name, properties)
    requires CacheKey(Corrected, ctx, operationId, name, properties).0 == MethodId(storedOp, storedName)
    ensures storedOp == AsUnsigned(operationId) && storedName == NameToNum(ctx.namemap.value, name)
  {
  }

  /**
    The key collision of `method_id` as written reaches the fetch. With the
    method `m` cached for operation 1 (DIGEST) and the name "SHA256"
    (name identity 1), the code as written serves `m` from the cache, with
    one more reference, to a fetch of operation 257 for "SHA256" (257 is
    masked onto 1) and to a fetch of operation 1 for a name numbered
    2^24 + 1 (its high bits are shifted out). The corrected guard refuses
    both without constructing anything.
   */
  lemma AsWrittenFetchServesWrongMethod(m: ObjId, refs: Ledger, built: Construction)
    ensures var ctx := LibCtx(true, Some(map["SHA256" := 1, "X" := 0x0100_0001]),
                              map[(MethodIdAsWritten(1, 1), "") := m], refs, None);
            && EvpGenericFetch(AsWritten, ctx, 257, "SHA256", "", built)
                 == FetchResult(Some(m), ctx.(refs := Acquire(refs, m)), false)
            && EvpGenericFetch(AsWritten, ctx, 1, "X", "", built)
                 == FetchResult(Some(m), ctx.(refs := Acquire(refs, m)), false)
            && EvpGenericFetch(Corrected, ctx, 257, "SHA256", "", built) == FetchResult(None, ctx, false)
            && EvpGenericFetch(Corrected, ctx, 1, "X", "", built) == FetchResult(None, ctx, false)
  {
  }

  // ---------------------------------------------------------------------
  // The store callbacks handed to ossl_method_construct.

  /**
    `get_method_from_store` (evp_fetch.c:88-114). `storeFetch` stands for
    `ossl_method_store_fetch` (identity and property query to the best
    match), `upRefOk` for whether the method's `up_ref` succeeds.
   */
  function GetMethodFromStore(g: Guard, storeAvailable: bool, namemap: Option<NameMap>, operationId: Int32,
                              name: string, propquery: Props,
                              storeFetch: ((bv32, Props)) -> Option<ObjId>,
                              upRefOk: bool, refs: Ledger): (r: (Option<ObjId>, Ledger))
    // No store, no name map, an unknown name or an unusable identity: NULL.
    ensures !storeAvailable || namemap.None? || NameToNum(namemap.value, name) == 0 ==> r == (None, refs)
    ensures r.0.Some? ==>
      && namemap.Some?
      && var id := MethodIdUnder(g, AsUnsigned(operationId), NameToNum(namemap.value, name));
      && id != 0
      && r.0 == storeFetch((id, propquery))
      && r.1 == Acquire(refs, r.0.value)
    // A method the store finds under a usable identity is returned once its reference is taken.
    ensures (&& storeAvailable && namemap.Some? && NameToNum(namemap.value, name) != 0
             && var id := MethodIdUnder(g, AsUnsigned(operationId), NameToNum(namemap.value, name));
             && id != 0 && storeFetch((id, propquery)).Some? && upRefOk) ==>
      var m := storeFetch((MethodIdUnder(g, AsUnsigned(operationId), NameToNum(namemap.value, name)), propquery));
      r == (m, Acquire(refs, m.value))
    // A method whose reference cannot be taken is not returned.
    ensures !upRefOk ==> r.0.None?
    ensures r.0.None? ==> r.1 == refs
  {
    if !storeAvailable then (None, refs)
    else if namemap.None? then (None, refs)
    else
      var nameId := NameToNum(namemap.value, name);
      if nameId == 0 then (None, refs)
      else
        var methId := MethodIdUnder(g, AsUnsigned(operationId), nameId);
        if methId == 0 then (None, refs)
        else match storeFetch((methId, propquery))
          case None => (None, refs)
          case Some(m) => if upRefOk then (Some(m), Acquire(refs, m)) else (None, refs)
  }

  /** The persistent store: (identity, property definition) to method. */
  type StoreEntries = map<(bv32, Props), ObjId>

  /** A store fetch that finds exactly the entry stored under the identity and property string. */
  function Lookup(entries: StoreEntries): ((bv32, Props)) -> Option<ObjId>
  {
    k => if k in entries then Some(entries[k]) else None
  }

  datatype PutResult = PutResult(ok: bool, namemap: Option<NameMap>, refs: Ledger, entries: StoreEntries)

  /**
    `put_method_in_store` (evp_fetch.c:116-140). `newId` is the identity
    `ossl_namemap_add` hands out to a name it has not seen (0 when it
    fails); `storeAddOk` is the outcome of `ossl_method_store_add`.
   */
  function PutMethodInStore(g: Guard, namemap: Option<NameMap>, newId: bv32, storeAvailable: bool,
                            meth: ObjId, operationId: Int32, name: string, propdef: Props,
                            upRefOk: bool, storeAddOk: bool,
                            refs: Ledger, entries: StoreEntries): (r: PutResult)
    ensures namemap.None? ==> r == PutResult(false, namemap, refs, entries)
    // Success: the method is stored under the identity of its (possibly new) name, with one more reference.
    ensures r.ok ==>
      && namemap.Some? && r.namemap.Some?
      && var id := MethodIdUnder(g, AsUnsigned(operationId), NameToNum(r.namemap.value, name));
      && id != 0
      && r.entries == entries[(id, propdef) := meth]
      && r.refs == Acquire(refs, meth)
    ensures r.ok <==>
      && namemap.Some? && r.namemap.Some? && storeAvailable && upRefOk && storeAddOk
      && NameToNum(r.namemap.value, name) != 0
      && MethodIdUnder(g, AsUnsigned(operationId), NameToNum(r.namemap.value, name)) != 0
    // The name is registered whenever the name map accepted it, even if a later step fails.
    ensures namemap.Some? && name !in namemap.value && newId != 0 ==> r.namemap == Some(namemap.value[name := newId])
    // A failed store add keeps the reference that was taken for it.
    ensures !r.ok ==> r.entries == entries && (r.refs == refs || r.refs == Acquire(refs, meth))
  {
    if namemap.None? then PutResult(false, namemap, refs, entries)
    else
      var nm := namemap.value;
      var nameId := if name in nm then nm[name] else newId;
      var nm' := if name in nm || newId == 0 then nm else nm[name := newId];
      assert NameToNum(nm', name) == nameId;
      if nameId == 0 then PutResult(false, Some(nm'), refs, entries)
      else
        var methId := MethodIdUnder(g, AsUnsigned(operationId), nameId);
        if methId == 0 then PutResult(false, Some(nm'), refs, entries)
        else if !storeAvailable then PutResult(false, Some(nm'), refs, entries)
        else if !upRefOk then PutResult(false, Some(nm'), refs, entries)
        else if !storeAddOk then PutResult(false, Some(nm'), Acquire(refs, meth), entries)
        else PutResult(true, Some(nm'), Acquire(refs, meth), entries[(methId, propdef) := meth])
  }

  /**
    The two callbacks are inverse: a method the constructor put in the
    store is what the store callback gets back for the same operation, name
    and property string, with one more reference for the getter.
   */
  lemma PutThenGet(g: Guard, namemap: Option<NameMap>, newId: bv32, meth: ObjId, operationId: Int32,
                   name: string, propdef: Props, refs: Ledger, entries: StoreEntries)
    requires PutMethodInStore(g, namemap, newId, true, meth, operationId, name, propdef, true, true, refs, entries).ok
    ensures var p := PutMethodInStore(g, namemap, newId, true, meth, operationId, name, propdef, true, true, refs, entries);
            GetMethodFromStore(g, true, p.namemap, operationId, name, propdef, Lookup(p.entries), true, p.refs)
              == (Some(meth), Acquire(p.refs, meth))
  {
  }

  /**
    `EVP_set_default_properties` (evp_fetch.c:230-238): without a method
    store it fails and changes nothing; otherwise it hands the query to the
    store's global-property setter. That setter is not part of this model;
    it is taken to empty the query cache in every case (so that no answer
    computed under the old defaults survives), to record the query when it
    parses (`parseOk`) or is NULL, and to fail otherwise.
   */
  function SetDefaultProperties(ctx: LibCtx, propq: Option<Props>, parseOk: bool): (r: (int, LibCtx))
    ensures !ctx.hasStore ==> r == (0, ctx)
    // With a store: no cached answer survives, and nothing but the defaults and the cache changes.
    ensures ctx.hasStore ==> r.1 == ctx.(cache := map[], defaults := r.1.defaults)
    // It succeeds exactly when the query is NULL or parses, and then the query is the new default.
    ensures ctx.hasStore ==> (r.0 == 0 || r.0 == 1) && (r.0 == 1 <==> propq.None? || parseOk)
    ensures ctx.hasStore && r.0 == 1 ==> r.1.defaults == propq
  {
    if !ctx.hasStore then (0, ctx)
    else if propq.None? then (1, ctx.(cache := map[], defaults := None))
    else if parseOk then (1, ctx.(cache := map[], defaults := propq))
    else (0, ctx.(cache := map[], defaults := None))
  }

  /**
    New defaults are seen by the next fetch: after the default properties
    were set, a fetch whose early checks pass is never answered from the
    cache but reaches the constructor, which evaluates the new defaults.
   */
  lemma NewDefaultsReachConstruction(g: Guard, ctx: LibCtx, propq: Option<Props>, parseOk: bool,
                                     operationId: Int32, name: string, properties: Props, built: Construction)
    requires ctx.hasStore && ctx.namemap.Some? && operationId > 0
    requires NameToNum(ctx.namemap.value, name) == 0 || KnownIdentity(g, ctx, operationId, name)
    ensures var ctx' := SetDefaultProperties(ctx, propq, parseOk).1;
            var r := EvpGenericFetch(g, ctx', operationId, name, properties, built);
            r.constructed && r.meth == built.meth
  {
  }

  // ---------------------------------------------------------------------
  // Enumeration.

  /** What the enumeration does to a method: hand it to the user, then free it. */
  datatype Event = Visit(meth: ObjId) | Free(meth: ObjId)

  /** `do_one` (evp_fetch.c:248-259) given the outcome of `new_method` for one algorithm. */
  function DoOne(built: Option<ObjId>): (trace: seq<Event>)
    ensures built.None? ==> trace == []
    ensures built.Some? ==> trace == [Visit(built.value), Free(built.value)]
  {
    match built
    case None => []
    case Some(m) => [Visit(m), Free(m)]
  }

  /**
    `evp_generic_do_all` (evp_fetch.c:261-276): `do_one` over the
    algorithms `ossl_algorithm_do_all` enumerates, in its order.
   */
  function DoAll<A>(algos: seq<A>, newMethod: A -> Option<ObjId>): seq<Event>
    decreases |algos|
  {
    if |algos| == 0 then []
    else DoAll(algos[..|algos| - 1], newMethod) + DoOne(newMethod(algos[|algos| - 1]))
  }

  /** Reference definition: the methods that construct successfully, in order. */
  function Constructed<A>(algos: seq<A>, newMethod: A -> Option<ObjId>): seq<ObjId>
    decreases |algos|
  {
    if |algos| == 0 then []
    else
      var rest := Constructed(algos[1..], newMethod);
      match newMethod(algos[0])
      case None => rest
      case Some(m) => [m] + rest
  }

  lemma {:induction false} ConstructedSnoc<A>(algos: seq<A>, a: A, newMethod: A -> Option<ObjId>)
    ensures Constructed(algos + [a], newMethod) ==
      Constructed(algos, newMethod) + (if newMethod(a).Some? then [newMethod(a).value] else [])
    decreases |algos|
  {
    if |algos| == 0 {
      assert algos + [a] == [a];
    } else {
      assert (algos + [a])[1..] == algos[1..] + [a];
      ConstructedSnoc(algos[1..], a, newMethod);
    }
  }

  /**
    Enumeration visits each successfully constructed method exactly once,
    in order, and frees it right after the visit; failed constructions
    leave no trace.
   */
  lemma {:induction false} DoAllVisitsEachOnce<A>(algos: seq<A>, newMethod: A -> Option<ObjId>)
    ensures var trace := DoAll(algos, newMethod);
            var built := Constructed(algos, newMethod);
            && |trace| == 2 * |built|
            && forall i :: 0 <= i < |built| ==> trace[2 * i] == Visit(built[i]) && trace[2 * i + 1] == Free(built[i])
    decreases |algos|
  {
    if |algos| > 0 {
      var init := algos[..|algos| - 1];
      var last := algos[|algos| - 1];
      DoAllVisitsEachOnce(init, newMethod);
      assert init + [last] == algos;
      ConstructedSnoc(init, last, newMethod);
    }
  }
}

=== FILE: exchange.dfy ===
/**
  EVP_KEYEXCH: a key-exchange method built from a provider's dispatch
  table, its reference-counted lifecycle and its fetch, which pairs it with
  a key manager from the same provider (crypto/evp/exchange.c:18-165).

  Reference counts are plain sequential integers (the lock is left out).
  The allocation of the method itself is assumed to succeed: the source
  dereferences the result of OPENSSL_zalloc without checking it
  (exchange.c:20-22).
 */
module KeyExchange {
  import opened Common
  import CoreNumbers
  import opened Dispatch

  /** An EVP_KEYMGMT, known by identity and provider. */
  datatype KeyMgmt = KeyMgmt(objId: ObjId, prov: Option<ObjId>)

  /** An EVP_KEYEXCH: identity, provider, name, attached key manager and the provider functions found. */
  datatype KeyExch = KeyExch(objId: ObjId, prov: Option<ObjId>, name: string, keymgmt: Option<KeyMgmt>,
                             fns: map<int, FnRef>)
  {
    predicate Has(id: int)
    {
      id in fns
    }
  }

  /**
    The reference counts the lifecycle moves: key-exchange methods,
    providers and key managers, plus the key-exchange objects still allocated.
   */
  datatype RefWorld = RefWorld(exRefs: Ledger, provRefs: Ledger, kmRefs: Ledger, live: set<ObjId>)

  /** The function identities the adapter reads, and the four it counts. */
  const KeyexchSpec: SlotSpec := SlotSpec(
    {CoreNumbers.FUNC_KEYEXCH_NEWCTX, CoreNumbers.FUNC_KEYEXCH_INIT, CoreNumbers.FUNC_KEYEXCH_DERIVE,
     CoreNumbers.FUNC_KEYEXCH_SET_PEER, CoreNumbers.FUNC_KEYEXCH_FREECTX, CoreNumbers.FUNC_KEYEXCH_DUPCTX,
     CoreNumbers.FUNC_KEYEXCH_SET_PARAMS},
    MandatoryFunctions)

  /** init, derive, newctx and freectx: the complete set every exchange needs (exchange.c:92-97). */
  const MandatoryFunctions: set<int> :=
    {CoreNumbers.FUNC_KEYEXCH_NEWCTX, CoreNumbers.FUNC_KEYEXCH_INIT, CoreNumbers.FUNC_KEYEXCH_DERIVE,
     CoreNumbers.FUNC_KEYEXCH_FREECTX}

  /**
    `evp_keyexch_new` (exchange.c:18-32): a new method with one reference,
    holding one reference on its provider. `lockOk` is whether the lock
    could be created; `objId` is the new object.
   */
  function KeyexchNew(objId: ObjId, prov: Option<ObjId>, lockOk: bool, w: RefWorld): (r: (Option<KeyExch>, RefWorld))
    requires objId !in w.live
    ensures !lockOk ==> r == (None, w)
    ensures lockOk ==>
      && r.0 == Some(KeyExch(objId, prov, [], None, map[]))
      && Held(r.1.exRefs, objId) == 1
      && r.1.provRefs == AcquireOpt(w.provRefs, prov)
      && r.1.live == w.live + {objId}
      && r.1.kmRefs == w.kmRefs
  {
    if !lockOk then (None, w)
    else (Some(KeyExch(objId, prov, [], None, map[])),
          RefWorld(w.exRefs[objId := 1], AcquireOpt(w.provRefs, prov), w.kmRefs, w.live + {objId}))
  }

  /**
    `EVP_KEYEXCH_free` (exchange.c:107-121): NULL is a no-op; otherwise one
    reference is dropped, and only when none is left are the key manager
    and the provider released and the object freed.
   */
  function KeyexchFree(e: Option<KeyExch>, w: RefWorld): (r: RefWorld)
    ensures e.None? ==> r == w
    ensures e.Some? ==> r.exRefs == Release(w.exRefs, e.value.objId)
    ensures e.Some? && Held(w.exRefs, e.value.objId) > 1 ==>
      r.provRefs == w.provRefs && r.kmRefs == w.kmRefs && r.live == w.live
    ensures e.Some? && Held(w.exRefs, e.value.objId) <= 1 ==>
      && r.provRefs == ReleaseOpt(w.provRefs, e.value.prov)
      && r.kmRefs == ReleaseOpt(w.kmRefs, if e.value.keymgmt.Some? then Some(e.value.keymgmt.value.objId) else None)
      && r.live == w.live - {e.value.objId}
  {
    if e.None? then w
    else
      var x := e.value;
      var exRefs := Release(w.exRefs, x.objId);
      if Held(exRefs, x.objId) > 0 then w.(exRefs := exRefs)
      else
        RefWorld(exRefs, ReleaseOpt(w.provRefs, x.prov),
                 ReleaseOpt(w.kmRefs, if x.keymgmt.Some? then Some(x.keymgmt.value.objId) else None),
                 w.live - {x.objId})
  }

  /** `EVP_KEYEXCH_up_ref` (exchange.c:123-129): one more reference, and the result is always 1. */
  function KeyexchUpRef(e: KeyExch, w: RefWorld): (r: (int, RefWorld))
    ensures r.0 == 1
    ensures r.1 == w.(exRefs := Acquire(w.exRefs, e.objId))
  {
    (1, w.(exRefs := Acquire(w.exRefs, e.objId)))
  }

  /** `n` successive up_refs. */
  function UpRefTimes(e: KeyExch, w: RefWorld, n: nat): RefWorld
    decreases n
  {
    if n == 0 then w else KeyexchUpRef(e, UpRefTimes(e, w, n - 1)).1
  }

  /** `n` successive frees. */
  function FreeTimes(e: KeyExch, w: RefWorld, n: nat): RefWorld
    decreases n
  {
    if n == 0 then w else KeyexchFree(Some(e), FreeTimes(e, w, n - 1))
  }

  lemma {:induction false} UpRefTimesCounts(e: KeyExch, w: RefWorld, n: nat)
    ensures Held(UpRefTimes(e, w, n).exRefs, e.objId) == Held(w.exRefs, e.objId) + n
    ensures UpRefTimes(e, w, n).provRefs == w.provRefs && UpRefTimes(e, w, n).kmRefs == w.kmRefs
    ensures UpRefTimes(e, w, n).live == w.live
    decreases n
  {
    if n > 0 {
      UpRefTimesCounts(e, w, n - 1);
    }
  }

  /** Frees that leave at least one reference release nothing else. */
  lemma {:induction false} FreeTimesCounts(e: KeyExch, w: RefWorld, n: nat)
    requires Held(w.exRefs, e.objId) > n
    ensures Held(FreeTimes(e, w, n).exRefs, e.objId) == Held(w.exRefs, e.objId) - n
    ensures FreeTimes(e, w, n).provRefs == w.provRefs && FreeTimes(e, w, n).kmRefs == w.kmRefs
    ensures FreeTimes(e, w, n).live == w.live
    decreases n
  {
    if n > 0 {
      FreeTimesCounts(e, w, n - 1);
    }
  }

  /**
    The reference-count lifecycle: a method holding one reference that is
    up_ref'd `j` times survives `j` frees untouched, and the next free
    releases its provider and key manager and frees it.
   */
  lemma RefcountLifecycle(e: KeyExch, w: RefWorld, j: nat)
    requires Held(w.exRefs, e.objId) == 1 && e.objId in w.live
    ensures var w1 := FreeTimes(e, UpRefTimes(e, w, j), j);
            && Held(w1.exRefs, e.objId) == 1 && e.objId in w1.live
            && w1.provRefs == w.provRefs && w1.kmRefs == w.kmRefs
            && var w2 := KeyexchFree(Some(e), w1);
               && Held(w2.exRefs, e.objId) == 0 && e.objId !in w2.live
               && w2.provRefs == ReleaseOpt(w.provRefs, e.prov)
  {
    UpRefTimesCounts(e, w, j);
    FreeTimesCounts(e, UpRefTimes(e, w, j), j);
  }

  /**
    `evp_keyexch_from_dispatch` (exchange.c:34-105). `lockOk` and `nameOk`
    stand for the lock creation and the name copy succeeding.
   */
  function KeyexchFromDispatch(objId: ObjId, name: string, fns: seq<DispatchEntry>, prov: Option<ObjId>,
                               lockOk: bool, nameOk: bool, w: RefWorld): (r: (Option<KeyExch>, RefWorld))
    requires objId !in w.live && Held(w.exRefs, objId) == 0
    ensures r.0.Some? <==> lockOk && nameOk && Scan(fns, KeyexchSpec).count == 4
    // An accepted method is new, has one reference and holds one on its provider.
    ensures r.0.Some? ==>
      && r.0.value == KeyExch(objId, prov, name, None, Scan(fns, KeyexchSpec).filled)
      && Held(r.1.exRefs, objId) == 1 && r.1.provRefs == AcquireOpt(w.provRefs, prov)
      && r.1.live == w.live + {objId}
    // A rejection gives everything back: nothing stays allocated and no provider reference is kept.
    ensures r.0.None? ==>
      && r.1.live == w.live && r.1.kmRefs == w.kmRefs
      && (forall o :: Held(r.1.provRefs, o) == Held(w.provRefs, o))
      && (forall o :: Held(r.1.exRefs, o) == Held(w.exRefs, o))
  {
    var (e, w1) := KeyexchNew(objId, prov, lockOk, w);
    if e.None? then (None, KeyexchFree(None, w1))
    else if !nameOk then (None, KeyexchFree(e, w1))
    else
      var slots := Scan(fns, KeyexchSpec);
      var x := e.value.(name := name, fns := slots.filled);
      if slots.count != 4 then (None, KeyexchFree(Some(x), w1))
      else (Some(x), w1)
  }

  /**
    The acceptance rule in terms of the table itself, for tables without
    NULL pointers: accepted exactly when the allocations succeed and
    newctx, init, derive and freectx are all supplied; set_peer, dupctx and
    set_params are optional.
   */
  lemma KeyexchFromDispatchNeedsMandatory(objId: ObjId, name: string, fns: seq<DispatchEntry>,
                                          prov: Option<ObjId>, lockOk: bool, nameOk: bool, w: RefWorld)
    requires objId !in w.live && Held(w.exRefs, objId) == 0
    requires NoNulls(Live(fns))
    ensures KeyexchFromDispatch(objId, name, fns, prov, lockOk, nameOk, w).0.Some? <==>
      lockOk && nameOk && MandatoryFunctions <= Ids(Live(fns))
    ensures KeyexchFromDispatch(objId, name, fns, prov, lockOk, nameOk, w).0.Some? ==>
      MandatoryFunctions <= KeyexchFromDispatch(objId, name, fns, prov, lockOk, nameOk, w).0.value.fns.Keys
  {
    assert WellFormedSpec(KeyexchSpec);
    assert |MandatoryFunctions| == 4;
    CountMeansPresence(Live(fns), KeyexchSpec);
    ScanCountsDistinct(Live(fns), KeyexchSpec);
  }

  /**
    `EVP_KEYEXCH_fetch` (exchange.c:136-165). The generic fetch's result
    must not be NULL: the source dereferences it unchecked (line 150).
    `kmFetch` is the key manager fetched for the same algorithm, holding a
    reference for the caller.
   */
  function KeyexchFetch(fetched: KeyExch, kmFetch: Option<KeyMgmt>, w: RefWorld): (r: (Option<KeyExch>, RefWorld))
    // A method that already has a key manager is returned as it is.
    ensures fetched.keymgmt.Some? ==> r == (Some(fetched), w)
    // Otherwise the key manager must exist and come from the same provider ...
    ensures fetched.keymgmt.None? ==>
      (r.0.Some? <==> kmFetch.Some? && kmFetch.value.prov == fetched.prov)
    ensures fetched.keymgmt.None? && r.0.Some? ==> r.0 == Some(fetched.(keymgmt := kmFetch)) && r.1 == w
    // ... or both are given back.
    ensures fetched.keymgmt.None? && r.0.None? ==>
      && r.1.exRefs == Release(w.exRefs, fetched.objId)
      && r.1.kmRefs == ReleaseOpt(KeyexchFree(Some(fetched), w).kmRefs,
                                  if kmFetch.Some? then Some(kmFetch.value.objId) else None)
  {
    if fetched.keymgmt.Some? then (Some(fetched), w)
    else if kmFetch.None? || kmFetch.value.prov != fetched.prov then
      var w1 := KeyexchFree(Some(fetched), w);
      (None, w1.(kmRefs := ReleaseOpt(w1.kmRefs, if kmFetch.Some? then Some(kmFetch.value.objId) else None)))
    else (Some(fetched.(keymgmt := kmFetch)), w)
  }

  /** After a successful fetch the method's key manager comes from the method's own provider. */
  lemma FetchPairsSameProvider(fetched: KeyExch, kmFetch: Option<KeyMgmt>, w: RefWorld)
    requires fetched.keymgmt.None?
    requires KeyexchFetch(fetched, kmFetch, w).0.Some?
    ensures var e := KeyexchFetch(fetched, kmFetch, w).0.value;
            e.keymgmt.Some? && e.keymgmt.value.prov == e.prov
  {
  }
}

=== FILE: method_id.dfy ===
/**
  The method identity of crypto/evp/evp_fetch.c:69-86: a 32-bit key that
  packs a 24-bit name identity above an 8-bit operation identity, with 0
  reserved for "no identity".
 */
module MethodIdentity {

  /** Name identities must stay below 2^24 to fit the key. */
  const NAME_LIMIT: bv32 := 0x0100_0000

  /** Operation identities must stay below 2^8 to fit the key. */
  const OP_LIMIT: bv32 := 0x100

  /** Both components are usable: non-zero and within their fields. */
  predicate InRange(operationId: bv32, nameId: bv32)
  {
    0 < nameId < NAME_LIMIT && 0 < operationId < OP_LIMIT
  }

  /** The packing expression itself: the name shifted above the masked operation. */
  function Pack(operationId: bv32, nameId: bv32): bv32
  {
    ((nameId << 8) & 0xFFFF_FF00) | (operationId & 0xFF)
  }

  /** For in-range components the packing keeps each in its own field. */
  lemma PackSeparatesFields(operationId: bv32, nameId: bv32)
    requires InRange(operationId, nameId)
    ensures Pack(operationId, nameId) != 0
    ensures Pack(operationId, nameId) >> 8 == nameId
    ensures Pack(operationId, nameId) & 0xFF == operationId
  {
  }

  /**
    `method_id` exactly as written: the range guard joins its two bounds
    with `||`, so it only rejects when BOTH components are out of range;
    a single out-of-range component is silently masked.
   */
  function MethodIdAsWritten(operationId: bv32, nameId: bv32): (r: bv32)
    ensures r == 0 <==> nameId == 0 || operationId == 0 || (nameId >= NAME_LIMIT && operationId >= OP_LIMIT)
    ensures r != 0 ==> r & 0xFF == operationId & 0xFF
  {
    if !(nameId < NAME_LIMIT || operationId < OP_LIMIT) || !(nameId > 0 && operationId > 0) then 0
    else Pack(operationId, nameId)
  }

  /**
    `method_id` with the guard its comment describes (both bounds must
    hold): a non-zero key exactly for in-range components (which then
    unpack from it, see UnpackMethodId).
   */
  function MethodId(operationId: bv32, nameId: bv32): (r: bv32)
    ensures r != 0 <==> InRange(operationId, nameId)
  {
    if !(nameId < NAME_LIMIT && operationId < OP_LIMIT) || !(nameId > 0 && operationId > 0) then 0
    else Pack(operationId, nameId)
  }

  /** Which `method_id` the fetch machinery uses: the code as written, or the corrected guard. */
  datatype Guard = AsWritten | Corrected

  /** The method identity under either guard. */
  function MethodIdUnder(g: Guard, operationId: bv32, nameId: bv32): (r: bv32)
    ensures g.AsWritten? ==> r == MethodIdAsWritten(operationId, nameId)
    ensures g.Corrected? ==> r == MethodId(operationId, nameId)
  {
    match g
    case AsWritten => MethodIdAsWritten(operationId, nameId)
    case Corrected => MethodId(operationId, nameId)
  }

  /** The inverse of the packing: `(r >> 8, r & 0xFF)`. */
  function Unpack(r: bv32): (bv32, bv32)
  {
    (r & 0xFF, r >> 8)
  }

  /** Round trip: unpacking a valid key gives back its components. */
  lemma UnpackMethodId(operationId: bv32, nameId: bv32)
    requires InRange(operationId, nameId)
    ensures MethodId(operationId, nameId) != 0
    ensures Unpack(MethodId(operationId, nameId)) == (operationId, nameId)
  {
  }

  /** Distinct valid component pairs never share a key. */
  lemma MethodIdInjective(o1: bv32, n1: bv32, o2: bv32, n2: bv32)
    requires MethodId(o1, n1) != 0 && MethodId(o1, n1) == MethodId(o2, n2)
    ensures o1 == o2 && n1 == n2
  {
  }

  /** Either component 0 always yields the reserved key 0. */
  lemma ZeroComponentRejected(operationId: bv32, nameId: bv32)
    requires operationId == 0 || nameId == 0
    ensures MethodIdAsWritten(operationId, nameId) == 0 && MethodId(operationId, nameId) == 0
  {
  }

  /** On in-range components the code as written and the corrected guard agree. */
  lemma AsWrittenAgreesInRange(operationId: bv32, nameId: bv32)
    requires InRange(operationId, nameId)
    ensures MethodIdAsWritten(operationId, nameId) == MethodId(operationId, nameId)
  {
  }

  /**
    As written, a name identity of 2^24 or more with an in-range operation
    passes the guard and has its high bits shifted out, so it collides with
    a smaller name identity: 2^24 + 1 gets the key of 1.
   */
  lemma AsWrittenCollides()
    ensures MethodIdAsWritten(1, NAME_LIMIT + 1) != 0
    ensures MethodIdAsWritten(1, NAME_LIMIT + 1) == MethodIdAsWritten(1, 1)
    ensures MethodId(1, NAME_LIMIT + 1) == 0
  {
  }

  /** As written, an operation identity of 2^8 or more is masked onto a smaller one. */
  lemma AsWrittenMasksOperation(operationId: bv32, nameId: bv32)
    requires 0 < nameId < NAME_LIMIT && operationId >= OP_LIMIT && operationId & 0xFF != 0
    ensures MethodIdAsWritten(operationId, nameId) == MethodIdAsWritten(operationId & 0xFF, nameId)
  {
  }
}
